=== FILE: README.md ===
# Cron resolution engine

A model of the cron engine of `rwsbillyang/cron`. A recurrence is a `Cron` value:
- an explicit year or "any";
- bit masks over months, month days, weekdays and hours;
- a minute value or "any";
- an optional custom N-day period anchored at a date.

Given a reference date-time, the engine ends in one of four ways:
- the instant the cascade settles on, with its distance in minutes. It is meant to be the nearest instant at or after the reference that satisfies the recurrence; as written it is not always that (see Findings);
- `null`, when a handler finishes without a result. This happens when no instant matches from the reference on, but also, as written, when an instant does match: for example, a custom period with no bit set next to another day selector (see Findings);
- a thrown exception, when `checkValid` rejects the recurrence, or at run time when the custom period's anchor is not a calendar date or its period is 0;
- no answer at all: for some accepted recurrences the cascade carries forever, for example February only with the 31st as the only month day (`EdgeVectors.FebruaryThirtyFirstNeverResolves`).

The engine is a cascade of handlers, one per field: year, month, day, hour and minute.
- Each handler pins its field in a shared `Result`.
- It then hands a message to the next finer field, or carries back to a coarser field with "from scratch" set.
- In the source the messages pass through a coroutine channel. Here one message at a time is handled by `Engine.Step`, a pure function.
- `Engine.Drive` is a loop with fuel around it, because the cascade is not proved to terminate.

Modules:
- `KotlinInt`: the Kotlin operators the source relies on. This covers truncating `%` (`Rem`), and `1 shl n` taking its distance modulo 32 with bit 31 as the sign bit (`ShlOne`).
- `Dates`: plain date and date-time records.
- `CronHelper`: `CronHelper.kt`, i.e. `isLeap`, `isBitSet`, `daysInMonth`, `passedDays`, `restDaysInYear`, `daysAmongYears`, `diffDate` and `diffDateTime`.
- `JavaTime`: a reference calendar that re-implements the parts of `java.time` the engine calls. These are `LocalDate.of` validity, day of year, epoch day, day of week, `plusDays`, `plusMonths(1)` and `plusHours(1)`.
- `CalendarProofs`: relates `CronHelper` to `JavaTime`. For example, `diffDate` is exactly the difference of epoch days.
- `CronModel`: the `Cron`, `CustomPeriod` and `Result` records, and `checkValid`.
- `Matcher`: `getNext(cron, since, period, checkAllBits)`, the bit-mask search used by every field.
- `Engine`: the handlers `updateYear` … `updateMinute`, `finish`, the message loop and the entry point `getNext(sinceDateTime, onFinished)`.
- `MatchProofs`: a second invariant of the message loop. Every pending search has its coarser fields pinned to values the masks admit, so a reported result matches the recurrence, in both editions.
- `EngineProofs`: an invariant of the message loop. Every pending search starts at or after the reference, so the corrected engine never reports an instant before the reference.
- `Vectors`: concrete runs of the engine and of the date helpers, taken from the repository's tests, plus the counterexamples of the findings below.
- `SelectorVectors`: runs from the repository's tests that exercise the weekday, custom-period and month-day selectors and carries into a new month or year.
- `EdgeVectors`: runs at the edges of `checkValid`: an empty custom period next to a month-day mask, and a month-day mask no selected month can hold.

Several definitions take an `Edition`:
- `AsWritten` follows the source text.
- `Corrected` repairs the defects listed under Findings.

Every quirk of the source is kept in `AsWritten`. The repairs are confined to a few places:
- the two validity bounds;
- the minute carry;
- the sign of the distance;
- the day step in a month too short for the month-day mask, which defers to a weekday or custom-period distance when there is one;
- a custom period with no bit set, which the corrected day step does not consult, as `checkValid` already reads it as no custom period;
- a negative custom period, which the corrected `checkValid` rejects.

## Model

| member | source | states |
|---|---|---|
| CronHelper.YearLength | src/CronHelper.kt:43 | a year has 365 or 366 days |
| CronHelper.DaysInMonth | src/CronHelper.kt:53-69 | every answer, even for clamped arguments, lies between 28 and 31 |
| CronHelper.MonthsSum | src/CronHelper.kt:103-110 | the days of months [lo, hi) lie between 28 and 31 per month, and an empty range sums to 0 |
| CronHelper.DaysAmongYears | src/CronHelper.kt:129-136 | the whole years in [start, end) have between 365 and 366 days each, and none when start >= end |
| CalendarProofs.DaysInMonthAgrees | src/CronHelper.kt:53-69 | for a positive year and a month 1..12, the table entry equals the length of that month in the Gregorian calendar |
| CalendarProofs.DaysInMonthClamps | src/CronHelper.kt:53-69 | years up to 0 are read as year 1, a month index below 0 or above 11 gives 31 days, and February has 29 days exactly in leap years |
| CalendarProofs.MonthsSumAgrees | src/CronHelper.kt:103-110 | summing the table over 0-based months [lo, hi) equals summing Gregorian month lengths over the 1-based months [lo+1, hi+1) |
| CalendarProofs.MonthsSumSplit | src/CronHelper.kt:103-122 | a sum over months splits at any month between its ends |
| CalendarProofs.MonthsSumYear | src/CronHelper.kt:103-122 | the twelve months add up to the length of the year |
| CalendarProofs.PassedPlusRest | src/CronHelper.kt:103-122 | the days passed up to and including a date plus the days remaining after it make up the whole year |
| CalendarProofs.PassedDaysIsDayOfYear | src/CronHelper.kt:103-110 | the days passed up to a date equal its ordinal day of the year |
| CalendarProofs.RestIsYearMinusOrdinal | src/CronHelper.kt:116-122 | the days remaining after a date are the year's length minus the date's ordinal |
| CalendarProofs.DaysAmongYearsClosedForm | src/CronHelper.kt:129-136 | the days in the whole years [s, e) equal the difference of the day counts before years e and s |
| CalendarProofs.DaysAmongYearsSplit | src/CronHelper.kt:129-136 | the whole-year count is additive over adjacent year ranges |
| CalendarProofs.DiffDateIsEpochDifference | src/CronHelper.kt:84-98 | for years from 1 on, the signed difference of two dates is the difference of their epoch days, in either order |
| CalendarProofs.ForwardDiff | src/CronHelper.kt:84-98 | when the end year is not earlier, the difference is the difference of epoch days |
| CalendarProofs.SameYearDiff | src/CronHelper.kt:88-89 | within one year, the difference of the remaining days is the difference of epoch days |
| CalendarProofs.LaterYearDiff | src/CronHelper.kt:90-91 | across years, the rest of the start year plus the whole years plus the passed days of the end year is the difference of epoch days |
| CalendarProofs.DiffDateAntisymmetric | src/CronHelper.kt:84-98 | swapping the two dates negates the difference |
| CalendarProofs.DiffDateNextDay | src/CronHelper.kt:84-98 | a date is 0 days from itself and 1 day from the next calendar day |
| CalendarProofs.DiffDateShift | src/Cron.kt:418-440 | moving a date n days forward adds n to its difference from any anchor, which is what the custom-period phase relies on |
| CalendarProofs.DayOfWeekShift | src/Cron.kt:397-415 | the weekday n days later is the weekday advanced by n modulo 7 |
| CalendarProofs.DayOfYearBounds | src/CronHelper.kt:103-110 | the ordinal day of a valid date lies between 1 and the length of its year |
| CalendarProofs.EpochOrder | src/CronHelper.kt:84-98 | one date comes before another exactly when its epoch day is smaller, and two dates are equal exactly when their epoch days are |
| CalendarProofs.BeforeMeansSmaller | src/CronHelper.kt:84-98 | an earlier valid date has a smaller epoch day |
| CalendarProofs.DiffDateTimeIsMinuteDifference | src/CronHelper.kt:70-76 | when the end is not before the start, the minute difference is the difference of the minute stamps and is not negative |
| CalendarProofs.SignedDiffIsMinuteDifference | src/CronHelper.kt:70-76 | the signed minute difference is the difference of the minute stamps in either order, so it is negative when the end precedes the start |
| KotlinInt.Pow2Succ | src/CronHelper.kt:44-47 | each power of two used as a bit mask doubles the one before |
| KotlinInt.Pow2Listed | src/CronHelper.kt:44-47 | the mask `1 shl k` for k below 32 is the k-th entry of the table of powers of two |
| KotlinInt.RemNonNegative | src/Cron.kt:428-429 | for a non-negative dividend, Kotlin's `%` agrees with the Euclidean remainder |
| KotlinInt.RemCongruent | src/Cron.kt:428-429 | Kotlin's `%` lies strictly between minus and plus the divisor and, when negative, is the Euclidean remainder minus the divisor |
| MaskProofs.BitSetIffRemainder | src/CronHelper.kt:44-47 | bit b is set exactly when the value modulo 2^(k+1) is at least 2^k, where k is b mod 32 |
| MaskProofs.BitsAboveBoundClear | src/Cron.kt:144-205 | a value below `1 shl n` has no bit set from n to 31, which is what the range checks of `checkValid` guarantee |
| MaskProofs.SingleBitSet | src/CronHelper.kt:44-47 | the mask `1 shl k` has bit k set |
| MaskProofs.SingleBitOnly | src/CronHelper.kt:44-47 | the mask `1 shl k` has no bit set below k |
| CronModel.CheckValid | src/Cron.kt:144-205 | a recurrence is accepted exactly when it is admissible: a year in `java.time`'s range, month, weekday and hour masks using only their field's bits, a day selector, a non-negative month-day mask, a minute in 0..59 or "any", and a custom period in range. As written the month and weekday masks may use one bit more (bits 12 and 7), and a negative custom period passes because `1 shl` reads it modulo 32 |
| CronModel.ChecksMeanWidths | src/Cron.kt:149-177 | the numeric range checks on the month, weekday and hour masks hold exactly when those masks use no bit beyond their field widths |
| CronModel.MaskWithinIffBelow | src/Cron.kt:149-177 | a mask uses only its first n bits exactly when it is "any" or lies in [0, 2^n) |
| Matcher.ScanForward | src/Cron.kt:664-682 | the answer is the least set index in [from, period); none means every index there is clear |
| Matcher.ScanWrapping | src/Cron.kt:664-682 | the answer is the least offset whose wrapped index is set; none means every remaining wrapped index is clear |
| Matcher.GetNext | src/Cron.kt:664-682 | "any" answers (since, 0). Forward search answers the least set index at or after since, with its distance, and none exactly when no such index is set. Wrapping search answers the first set index met going round the period, with its offset, and none exactly when no visited index is set |
| Matcher.WrapIndex | src/Cron.kt:664-682 | within one lap the visited index is since + i, and past the end of the period it falls below since |
| Matcher.WrapVisitsEveryIndex | src/Cron.kt:664-682 | from a start inside the period, the wrapping search fails exactly when no bit of the period is set |
| Matcher.WrapIsTwoForwardScans | src/Cron.kt:664-682 | a wrapping search is a forward search to the end of the period followed by a forward search from 0 up to since, with the distance of the second counted across the wrap |
| Matcher.FirstWrapMatch | src/Cron.kt:664-682 | an offset that hits a set bit, with every earlier visited index clear, is the answer of the wrapping search |
| Engine.Phase | src/Cron.kt:428-429 | the phase of a day in a positive period lies in [0, period) and is the Euclidean remainder of its day difference from the anchor, even for days before the anchor |
| Engine.Nearest | src/Cron.kt:493-500 | no distance is chosen exactly when no selector produced one. Otherwise the chosen distance belongs to some selector and is at most every selector's distance |
| Engine.Resolve | src/Cron.kt:116-139 | resolution is refused exactly when `checkValid` rejects the recurrence |
| EngineProofs.CarryAhead | src/Cron.kt:621-636 | carrying to a later date re-resolves a year, month or day that lies after the reference |
| EngineProofs.NextDayCarryAhead | src/Cron.kt:560-577 | carrying from the current day to the next one keeps every search at or after the reference |
| EngineProofs.YearStepAhead | src/Cron.kt:272-301 | from a year search at or after the reference, `updateYear` sends a month search at or after the reference, or finishes |
| EngineProofs.MonthStepAhead | src/Cron.kt:311-376 | from a month search at or after the reference, `updateMonth` sends a day or year search at or after the reference, or finishes |
| EngineProofs.SkipMonthAhead | src/Cron.kt:452-472 | skipping a short month moves the search to a later month or year |
| EngineProofs.MoveByAhead | src/Cron.kt:503-520 | moving the chosen number of days forward keeps the search at or after the reference, from scratch whenever it leaves the reference day |
| EngineProofs.DayStepAhead | src/Cron.kt:388-521 | every branch of the corrected `updateDay`, where a short month defers to a weekday or custom-period distance, keeps the search at or after the reference |
| EngineProofs.HourStepAhead | src/Cron.kt:529-592 | every branch of the corrected `updateHour` keeps the search at or after the reference |
| EngineProofs.NextHourAdvances | src/Cron.kt:623 | one hour after a top of the hour is the next hour of the same day, or a later date |
| EngineProofs.FinishFoundAhead | src/Cron.kt:248-262 | finishing at an instant not before the reference reports a valid instant together with its signed distance |
| EngineProofs.MinuteStepAhead | src/Cron.kt:600-640 | every branch of the corrected `updateMinute` finishes at an instant not before the reference or sends a search at or after it |
| EngineProofs.StepAhead | src/Cron.kt:220-238 | every handler run of the corrected engine keeps the invariant, and any result it reports is settled |
| EngineProofs.RunAhead | src/Cron.kt:220-238 | a corrected run started in a state at or after the reference reports only settled results |
| EngineProofs.CorrectedNeverEarly | src/Cron.kt:116-139 | a result of the corrected engine is a valid instant not before the reference, whose distance is the exact, non-negative number of minutes to it, and which matches every field of the recurrence, with the cron minute itself when one is given |
| EngineProofs.EarlierYearAnswersNull | src/Cron.kt:272-301 | a recurrence pinned to a year before the reference year resolves to `null`: `updateYear` finishes with an error |
| CalendarProofs.FourCenturyCycle | src/CronHelper.kt:43 | `isLeap` gives 97 leap years in every 400, so any 400 consecutive years hold 146097 days |
| CalendarProofs.PlusDaysForward | src/Cron.kt:503 | `plusDays` never moves a valid date backwards nor into an earlier year |
| CalendarProofs.SameMonthShift | src/Cron.kt:503-520 | when `plusDays(n)` stays in the same month, the day of the month grows by n |
| CalendarProofs.DiffDateFromEarlierYear | src/CronHelper.kt:84-98 | from an anchor in an earlier year, including years up to 0, `diffDate` is a constant of the anchor plus the epoch day of the end date |
| CalendarProofs.DiffDateShiftAnyAnchor | src/Cron.kt:418-440 | moving a date of year 1 or later n days forward adds n to its difference from any valid anchor, even one in a year up to 0 |
| CalendarProofs.ModShift | src/Cron.kt:428-429 | adding n after reducing modulo p gives the same residue as reducing after adding n |
| KotlinInt.Rem | src/Cron.kt:428-429 | Kotlin's `%` carries the sign of the dividend and lies strictly inside (-abs(b), abs(b)) |
| KotlinInt.ShlOne | src/CronHelper.kt:44-47 | `1 shl n` is never 0, and is negative exactly when the shift distance modulo 32 is 31 |
| JavaTime.DayOfWeek | src/Cron.kt:405 | the weekday ordinal lies in 0..6, Monday being 0; CalendarProofs.DayOfWeekShift and SelectorVectors.FifthOfJanuaryIsSunday pin it to the calendar |
| JavaTime.PlusDays | src/Cron.kt:503 | `plusDays(n)` of a valid date is a valid date exactly n epoch days later |
| JavaTime.PlusOneMonth | src/Cron.kt:458 | `plusMonths(1)` of a valid date is a valid date in the following month, on the same day or on the last day of a shorter month |
| JavaTime.PlusOneHour | src/Cron.kt:623 | `plusHours(1)` of a valid date-time is a valid date-time 60 minutes later |
| MatchProofs.WdayLands | src/Cron.kt:397-415 | when the weekday selector answers a distance of n days, the day n days on has its weekday bit set |
| MatchProofs.WdaySearched | src/Cron.kt:397-415 | a weekday distance comes from a non-empty mask and hits a set bit of the wrapped weekday index |
| MatchProofs.CustomLands | src/Cron.kt:418-440 | when the custom-period selector answers n days, the phase of the day n days on has its bit set |
| MatchProofs.PhaseShift | src/Cron.kt:428-429 | moving n days forward advances the custom-period phase by n, wrapped at the period |
| MatchProofs.MdayLands | src/Cron.kt:441-500 | when the month-day selector answers n days within the month, the day n days on has its month-day bit set |
| MatchProofs.MonthPinned | src/Cron.kt:320-371 | a month taken from a set bit of the month mask matches the month mask |
| MatchProofs.YearStepFits | src/Cron.kt:272-301 | `updateYear` only pins a year the recurrence admits |
| MatchProofs.MonthStepFits | src/Cron.kt:311-376 | `updateMonth` only pins a month the mask admits, or carries to a year search |
| MatchProofs.CarryFits | src/Cron.kt:560-577 | a carry to a later date re-resolves a coarser field with the finer ones cleared, keeping the pinned fields |
| MatchProofs.MoveByFits | src/Cron.kt:493-520 | moving by the distance a selector chose lands on a day that selector admits, or carries to a new month or year |
| MatchProofs.SkipMonthFits | src/Cron.kt:452-472 | skipping a month too short for the mask keeps the pinned year or carries to a year search |
| MatchProofs.DayStepFits | src/Cron.kt:388-521 | in both editions, every branch of `updateDay` pins a day that some configured selector admits, carries, or finishes |
| MatchProofs.ShortMonthDefers | src/Cron.kt:441-500 | in a month too short for the month-day mask, with a weekday or custom-period distance at hand, the source skips to the next month, while the corrected day step moves by the least such distance, to a day its selector admits |
| SelectorVectors.FridayPassedOver | src/Cron.kt:450-472 | from Friday 2025-02-28 10:00, weekdays or late month days at hours 6, 12, 18, 23 and minute 30: the source answers Monday 2025-03-03 06:30, while Friday 12:30 already matches |
| SelectorVectors.FridayTaken | src/Cron.kt:388-521 | for the same recurrence and reference the corrected engine answers Friday 2025-02-28 12:30, 150 minutes on |
| MatchProofs.EmptyCycleSilent | src/Cron.kt:426-433 | a custom period with no bit set never answers a distance: its search finds nothing, or the date arithmetic throws |
| MatchProofs.CorrectedCycleAnswers | src/Cron.kt:154-186 | under the corrected check, the custom-period selector the day step consults never ends the search without a match, and an empty custom period is accepted only beside a month-day or weekday mask |
| EdgeVectors.EmptyCycleAnswersNull | src/Cron.kt:426-433 | the first of every month beside an 8-day period with no bit set passes the check; from 2025-01-30 10:40 the source answers `null`, while 2025-02-01 00:00 matches |
| EdgeVectors.EmptyCycleSkipped | src/Cron.kt:388-521 | with the empty period not consulted, the same query gives 2025-02-01 00:00, 2240 minutes on |
| EdgeVectors.NeverSettles | src/Cron.kt:272-521 | for February only with the 31st as the only month day, the year, month and day handlers pass messages in a cycle, so the loop runs out of any amount of fuel, in both editions |
| EdgeVectors.FebruaryThirtyFirstNeverResolves | src/Cron.kt:220-238 | that recurrence passes the check, and from 2025-03-01 00:00 the engine gives no answer for any amount of fuel |
| MatchProofs.HourStepFits | src/Cron.kt:529-592 | every branch of `updateHour`, in both editions, pins an hour the mask admits, carries, or finishes |
| MatchProofs.MinuteStepFits | src/Cron.kt:600-640 | every branch of `updateMinute`, in both editions, finishes with the cron minute on a matching instant, carries, or finishes with an error |
| MatchProofs.StepFits | src/Cron.kt:220-238 | every handler run keeps the pinned fields admitted by the masks, and a reported result matches the recurrence |
| MatchProofs.DriveKeepsInvariant | src/Cron.kt:220-238 | a message loop whose handler keeps an invariant and reports only good results reports only good results, for any amount of fuel |
| MatchProofs.ResultsMatch | src/Cron.kt:116-139 | in both editions, a result reported from a reference of year 1 or later matches every field of the recurrence |
| Engine.Drive | src/Cron.kt:220-238 | the loop never answers "invalid"; what it reports is stated by MatchProofs.DriveKeepsInvariant |
| SelectorVectors.FifthOfJanuaryIsSunday | test/CronTest.kt:61 | 2025-01-05 is a Sunday, weekday ordinal 6 |
| SelectorVectors.DailyNewYear | test/CronTest.kt:51-53 | from 2024-12-31 23:40 the daily recurrence at 6, 12, 18, 23 and minute 30 gives 2025-01-01 06:30, 410 minutes on |
| SelectorVectors.WeekdaysFromSunday | test/CronTest.kt:58-64 | Monday, Wednesday and Friday at the same hours, from Sunday 2025-01-05 20:20, give Monday 06:30, 610 minutes on |
| SelectorVectors.CustomPeriodFromEve | test/CronTest.kt:88-96 | the first two days of an 8-day period anchored at 2025-02-07, at 6:30 or 16:30, from 2025-02-06 06:20 give 2025-02-07 06:30, 1450 minutes on |
| SelectorVectors.LateDaysSkipFebruary | test/CronTest.kt:131-141 | the 29th, 30th and 31st at the same hours, from 2025-02-28 23:40, skip February and give 2025-03-29 06:30, 40730 minutes on |
| SelectorVectors.WinterLateDaysNextYear | test/CronTest.kt:190-201 | the same days in January and February only, from 2025-02-28 23:20, give 2026-01-29 06:30, 481390 minutes on |
| JavaTime.MonthLengthSumYear | src/CronHelper.kt:103-122 | the twelve Gregorian months add up to the year's length |
| JavaTime.DaysBeforeNextYear | src/CronHelper.kt:129-136 | consecutive years start one year's length apart |
| JavaTime.NextDayEpoch | src/Cron.kt:503-520 | the day after a valid date is valid and one epoch day later |
| JavaTime.NextMonthEpoch | src/Cron.kt:452-472 | the first of the next month follows the last day of a month |
| JavaTime.NextYearEpoch | src/Cron.kt:272-301 | the first of January follows the last day of December |
| Vectors.Follows | src/Cron.kt:220-238 | a chain of handler runs that ends in a report is what the message loop answers |
| Vectors.FourHoursFrom20 | src/Cron.kt:664-682 | on the hours 6, 12, 18 and 23, a wrapping search from hour 20 answers hour 23 at distance 3 |
| Vectors.FourHoursFromMidnight | src/Cron.kt:664-682 | on the same hours, a forward search from 0 answers hour 6 |
| Vectors.DailySameDay | test/CronTest.kt:32-37 | from 2025-01-05 20:20, the hours 6, 12, 18, 23 at minute 30 every day give 2025-01-05 23:30, 190 minutes on |
| Vectors.DailyNextDay | test/CronTest.kt:32-42 | from 2025-01-05 23:40 the same recurrence gives 2025-01-06 06:30, 410 minutes on |
| Vectors.YearPassed | test/CronTest.kt:234-274 | with the year fixed to 2025, from 2026-01-02 06:20 the answer is `null` |
| Vectors.HalfPastGoesBack | src/Cron.kt:621-636 | as written, minute 30 of every hour from 2025-01-05 10:40 gives 00:30 on the same day, 610 minutes before the reference |
| Vectors.HalfPastCorrected | src/Cron.kt:621-636 | with the carry corrected, the same query gives 11:30, 50 minutes on |
| Vectors.MonthTwelveSlipsThrough | src/Cron.kt:149 | a month mask holding only bit 12 passes the check as written and resolves to `null`; corrected, it is rejected |
| Vectors.WdaySevenSlipsThrough | src/Cron.kt:165 | a weekday mask holding only bit 7 passes the check as written and resolves to `null`; corrected, it is rejected |
| Vectors.DiffDateExamples | test/DateHelperTest.kt:25-32 | from 2025-01-31 the next day is 1 day on and 2025-02-28 is 28 days on |
| Vectors.DiffDateBackwardsExample | test/DateHelperTest.kt:33-36 | from 2025-01-31 back to 2025-01-01 is -30 days |
| Vectors.DiffDateAcrossYearExample | test/DateHelperTest.kt:38-41 | from 2025-01-31 to 2026-02-01 is 366 days |
| Vectors.DiffDateAcrossFebruaryExample | test/DateHelperTest.kt:43-46 | from 2025-01-31 to 2025-03-31 is 59 days |
| Vectors.DiffDateBackwardsInMarchExample | test/DateHelperTest.kt:48-51 | from 2025-03-31 back to 2025-03-01 is -30 days |
| Vectors.NegativeRemainders | test/DateHelperTest.kt:48-55 | Kotlin's `%` of -30 by 5, 7, 8 and 9 gives 0, -2, -6 and -3 |
| Vectors.DiffDateTimeLosesSign | src/CronHelper.kt:70-76 | one day backwards, `diffDateTime` answers +1440 while the signed difference is -1440 |

## Left out

- Coroutines, the channel and `runBlocking`: one message is in flight at a time, so the channel is modelled as a step function over the pending message.
- The mutable `since`, `result`, `isFinished` and `err` fields of `Cron`: they are threaded through the machine state.
- `LocalDateTime.now()` as the default reference: the reference is always a parameter.
- Logging, `System.err` messages, `toBinary`, `toHex` and `log`: these are output only.
- The demonstration `main` at the end of `Cron.kt`: it is I/O only.
- `Result.equals` and `hashCode`: a Dafny datatype has structural equality.
- The exception text of an invalid recurrence: it becomes the outcome `Invalid`.
- The exceptions `java.time` throws at run time for an impossible date from `LocalDate.of`, and Kotlin's `%` by a period of 0: each becomes the outcome `Thrown`.
- `LocalDate`'s year range: `JavaTime.ValidDate` bounds only month and day, so `JavaTime.PlusDays`, `JavaTime.PlusOneMonth` and `JavaTime.PlusOneHour` never fail, where `java.time` throws past year 999999999.
- Engine.Phase: the day difference is an unbounded integer. In the source `diffDate` returns a 32-bit `Int` (src/Cron.kt:428), and `checkValid` accepts custom-period anchors down to year -999999999 (src/Cron.kt:187). With an anchor more than about 5.88 million years from the day, the source's difference wraps and its phase differs from the model's.
- CronHelper.DiffDate, CronHelper.DaysAmongYears: 32-bit `Int` wrap-around of the day sums is not modelled, for the same reason; only spans beyond about 5.88 million years are affected.
- The `Long` width of the distance in minutes: it is an unbounded integer. It cannot overflow for years in `java.time`'s range.
- Engine.Drive: termination of the cascade is not proved, and it does not hold for every accepted recurrence. With month mask 0x2 and month-day mask 0x4000_0000 (February the 31st) the year, month and day handlers pass messages in a cycle for ever (`EdgeVectors.NeverSettles`), although the comment at src/Cron.kt:661 says such a setting should be an error. The loop carries fuel and reports `OutOfFuel` when it runs out, so no statement is made about runs longer than the fuel.
- EngineProofs.CorrectedNeverEarly: states that a reported instant is valid, not before the reference, at its exact distance, and matching every field. It does not state that it is the earliest such instant. The source itself does not always return the earliest instant (src/Cron.kt:450-472, see Findings). The corrected edition repairs that case, but earliest is still not proved: that needs a minimality invariant over the cascade, which is not proved.
- EngineProofs.CorrectedNeverEarly, MatchProofs.ResultsMatch: both require a reference in year 1 or later. For years up to 0 the date helpers read the year as 1, so `diffDate` and the custom-period phase no longer follow the calendar there.
- CronModel.Admissible: the `Cron` fields are unbounded integers, so masks of 2^31 or more, which no Kotlin `Int` holds, are admitted by the model's `checkValid`. In the source the field types exclude them.
- CalendarProofs.DiffDateIsEpochDifference: holds for years from 1 on. For years up to 0, `daysInMonth` reads the year as 1, and the date helpers then do not follow the Gregorian calendar.

## Findings

| source | as written | input that shows it | evidently intended | confidence | as-written member | corrected member |
|---|---|---|---|---|---|---|
| src/Cron.kt:621-636 | when the cron minute lies before the reference minute and the next hour falls on the same day, `updateMinute` sends a day search from scratch for the same day, which restarts the hour search at hour 0 | minute 30 every hour of every day, reference 2025-01-05 10:40: the answer is 2025-01-05 00:30 with distance -610 | the next matching hour from the following hour (11:30, distance 50) | high, not executed | Vectors.HalfPastGoesBack | EngineProofs.CorrectedNeverEarly |
| src/Cron.kt:149 | the month check allows values below `2 shl 12`, i.e. 2^13, so bit 12 (a thirteenth month) passes | month mask 0x1000 with any day: accepted, then resolves to `null` | reject values from `1 shl 12` on, as bits 0..11 are the months | high, not executed | Vectors.MonthTwelveSlipsThrough | CronModel.CheckValid |
| src/Cron.kt:165 | the weekday check allows values below `2 shl 7`, i.e. 2^8, so bit 7 (an eighth weekday) passes | weekday mask 0x80: accepted, then resolves to `null` | reject values from `1 shl 7` on, as bits 0..6 are the weekdays | high, not executed | Vectors.WdaySevenSlipsThrough | CronModel.CheckValid |
| src/Cron.kt:450-472 | when the month is too short for the month-day mask, `updateDay` carries to the next month before the nearest distance is taken at line 493, discarding a distance the weekday mask or the custom period already found | weekdays Monday, Wednesday and Friday (0x15), month days 29 to 31 (0x7000_0000), hours 6, 12, 18 and 23, minute 30, from Friday 2025-02-28 10:00: the answer is 2025-03-03 06:30, 4110 minutes on, while 2025-02-28 12:30, 150 minutes on, matches | take the nearest distance among the other selectors, and carry to the next month only when none answered | high, not executed | SelectorVectors.FridayPassedOver | MatchProofs.ShortMonthDefers |
| src/Cron.kt:154, src/Cron.kt:430-433 | `checkValid` treats a custom period with no bit set as no custom period and accepts it beside a month-day or weekday mask, but `updateDay` still searches it, finds nothing and finishes with an error, so the answer is `null` | the 1st of every month (month days 0x1) beside an 8-day period with bits 0 anchored at 2025-02-07, from 2025-01-30 10:40: the answer is `null`, while 2025-02-01 00:00 matches | leave an empty custom period out of the day search, as `checkValid` does | high, not executed | EdgeVectors.EmptyCycleAnswersNull | MatchProofs.CorrectedCycleAnswers |
| src/CronHelper.kt:70-76 | `diffDateTime` takes the absolute value of the day difference, so an end before the start still counts the days positively; its documentation says the result is negative then | 2025-01-05 10:00 to 2025-01-04 10:00 gives +1440 | the signed minute difference, -1440 | medium, not executed | Vectors.DiffDateTimeLosesSign | CalendarProofs.SignedDiffIsMinuteDifference |

On the reachable runs of the corrected engine, the reported instant is never before the reference, so both forms of the minute difference agree there (`CalendarProofs.DiffDateTimeIsMinuteDifference`). The corrected engine uses the signed form. The absolute value plays no part in the -610 of `Vectors.HalfPastGoesBack`: the day difference there is 0, and the hours and minutes are subtracted with their signs. That negative distance comes from the minute carry alone.

The corrected minute carry can start an hour search from scratch at a later hour of the same day. When no hour is left, `updateHour` as written finishes with an error (src/Cron.kt:538-544); the corrected edition carries to the next day instead.

=== FILE: calendar_proofs.dfy ===
/**
 What CronHelper's arithmetic means, stated against the ISO calendar of
 JavaTime: the days-in-month table agrees with the true month length from
 year 1 on, `passedDays` and `restDaysInYear` split a year, `daysAmongYears`
 counts the days between year starts, and `diffDate` is the difference of
 day numbers.
 */
module CalendarProofs {
  import opened KotlinInt
  import opened Dates
  import opened CronHelper
  import opened JavaTime

  /** From year 1 on, the 0-based table entry is the true length of the 1-based month. */
  lemma DaysInMonthAgrees(year: int, month: int)
    requires year >= 1 && 1 <= month <= 12
    ensures DaysInMonth(year, month - 1) == MonthLength(year, month)
  {
  }

  /** Years up to 0 are read as year 1, and an out-of-range month index as the nearest of January and December. */
  lemma DaysInMonthClamps(year: int, month: int)
    ensures year <= 0 ==> DaysInMonth(year, month) == DaysInMonth(1, month)
    ensures month < 0 ==> DaysInMonth(year, month) == 31
    ensures month > 11 ==> DaysInMonth(year, month) == 31
    ensures 28 <= DaysInMonth(year, month) <= 31
    ensures DaysInMonth(year, 1) == (if IsLeap(if year <= 0 then 1 else year) then 29 else 28)
  {
  }

  lemma {:induction false} MonthsSumAgrees(year: int, lo: int, hi: int)
    requires year >= 1 && 0 <= lo <= hi <= 12
    ensures MonthsSum(year, lo, hi) == MonthLengthSum(year, lo + 1, hi + 1)
    decreases hi - lo
  {
    if lo < hi {
      MonthsSumAgrees(year, lo + 1, hi);
    }
  }

  lemma {:induction false} MonthsSumSplit(year: int, a: int, b: int, c: int)
    requires a <= b <= c
    ensures MonthsSum(year, a, c) == MonthsSum(year, a, b) + MonthsSum(year, b, c)
    decreases b - a
  {
    if a < b {
      MonthsSumSplit(year, a + 1, b, c);
    }
  }

  /** The table's twelve months add up to the length of the (clamped) year. */
  lemma MonthsSumYear(year: int)
    ensures MonthsSum(year, 0, 12) == YearLength(if year <= 0 then 1 else year)
  {
    assert MonthsSum(year, 12, 12) == 0;
    assert MonthsSum(year, 11, 12) == 31;
    assert MonthsSum(year, 10, 12) == 61;
    assert MonthsSum(year, 9, 12) == 92;
    assert MonthsSum(year, 8, 12) == 122;
    assert MonthsSum(year, 7, 12) == 153;
    assert MonthsSum(year, 6, 12) == 184;
    assert MonthsSum(year, 5, 12) == 214;
    assert MonthsSum(year, 4, 12) == 245;
    assert MonthsSum(year, 3, 12) == 275;
    assert MonthsSum(year, 2, 12) == 306;
  }

  /**
   `passedDays` counts d itself and `restDaysInYear` leaves it out, so together
   they cover d's year exactly once (a year up to 0 counts as year 1).
   */
  lemma PassedPlusRest(d: Date)
    requires 1 <= d.month <= 12
    ensures PassedDays(d) + RestDaysInYear(d) == YearLength(if d.year <= 0 then 1 else d.year)
  {
    MonthsSumSplit(d.year, 0, d.month - 1, d.month);
    MonthsSumSplit(d.year, 0, d.month, 12);
    MonthsSumYear(d.year);
  }

  /** From year 1 on, `passedDays` is the ordinal of the date in its year. */
  lemma PassedDaysIsDayOfYear(d: Date)
    requires d.year >= 1 && 1 <= d.month <= 12
    ensures PassedDays(d) == DayOfYear(d)
  {
    MonthsSumAgrees(d.year, 0, d.month - 1);
  }

  /** `daysAmongYears(s, e)` is the distance between the first days of years s and e. */
  lemma {:induction false} DaysAmongYearsClosedForm(s: int, e: int)
    requires s <= e
    ensures DaysAmongYears(s, e) == DaysBeforeYear(e) - DaysBeforeYear(s)
    decreases e - s
  {
    if s < e {
      DaysAmongYearsClosedForm(s + 1, e);
      DaysBeforeNextYear(s);
    }
  }

  /** Whole years are additive over adjacent ranges. */
  lemma DaysAmongYearsSplit(a: int, b: int, c: int)
    requires a <= b <= c
    ensures DaysAmongYears(a, c) == DaysAmongYears(a, b) + DaysAmongYears(b, c)
  {
    DaysAmongYearsClosedForm(a, b);
    DaysAmongYearsClosedForm(b, c);
    DaysAmongYearsClosedForm(a, c);
  }

  /** Every 400 consecutive Gregorian years hold exactly 146097 days (97 leap years). */
  lemma FourCenturyCycle(year: int)
    ensures DaysAmongYears(year, year + 400) == 146097
  {
    DaysAmongYearsClosedForm(year, year + 400);
    var p := year - 1;
    DivShift(p, 4, 100);
    DivShift(p, 100, 4);
    DivShift(p, 400, 1);
  }

  lemma DivShift(x: int, k: int, n: int)
    requires k > 0
    ensures (x + n * k) / k == x / k + n
  {
    var q, r := x / k, x % k;
    assert x + n * k == (q + n) * k + r;
    DivModUnique(x + n * k, k, q + n, r);
  }

  /** From year 1 on, `restDaysInYear` is what is left of the year after the date's ordinal. */
  lemma RestIsYearMinusOrdinal(d: Date)
    requires d.year >= 1 && 1 <= d.month <= 12
    ensures RestDaysInYear(d) == YearLength(d.year) - DayOfYear(d)
  {
    PassedPlusRest(d);
    PassedDaysIsDayOfYear(d);
  }

  /**
   From year 1 on, `diffDate(a, b)` is the number of days from a to b: the
   difference of their day numbers, whichever comes first.
   */
  lemma DiffDateIsEpochDifference(a: Date, b: Date)
    requires a.year >= 1 && b.year >= 1 && 1 <= a.month <= 12 && 1 <= b.month <= 12
    ensures DiffDate(a, b) == EpochDay(b) - EpochDay(a)
  {
    if b.year >= a.year {
      ForwardDiff(a, b);
    } else {
      ForwardDiff(b, a);
    }
  }

  lemma ForwardDiff(a: Date, b: Date)
    requires 1 <= a.year <= b.year && 1 <= a.month <= 12 && 1 <= b.month <= 12
    ensures DiffDate(a, b) == EpochDay(b) - EpochDay(a)
  {
    if b.year == a.year {
      SameYearDiff(a, b);
    } else {
      LaterYearDiff(a, b);
    }
  }

  lemma SameYearDiff(a: Date, b: Date)
    requires 1 <= a.year == b.year && 1 <= a.month <= 12 && 1 <= b.month <= 12
    ensures DiffDate(a, b) == EpochDay(b) - EpochDay(a)
  {
    RestIsYearMinusOrdinal(a);
    RestIsYearMinusOrdinal(b);
  }

  lemma LaterYearDiff(a: Date, b: Date)
    requires 1 <= a.year < b.year && 1 <= a.month <= 12 && 1 <= b.month <= 12
    ensures DiffDate(a, b) == EpochDay(b) - EpochDay(a)
  {
    var rest, among, passed := RestDaysInYear(a), DaysAmongYears(a.year + 1, b.year), PassedDays(b);
    assert DiffDate(a, b) == rest + among + passed;
    RestIsYearMinusOrdinal(a);
    PassedDaysIsDayOfYear(b);
    DaysAmongYearsClosedForm(a.year + 1, b.year);
    DaysBeforeNextYear(a.year);
    GapSum(rest, among, passed, YearLength(a.year), DayOfYear(a), DayOfYear(b),
      DaysBeforeYear(a.year), DaysBeforeYear(a.year + 1), DaysBeforeYear(b.year));
  }

  /** The arithmetic of `LaterYearDiff`: rest of a's year, the whole years between, and b's ordinal. */
  lemma GapSum(rest: int, among: int, passed: int, len: int, ordA: int, ordB: int, beforeA: int, afterA: int, beforeB: int)
    requires rest == len - ordA && passed == ordB
    requires among == beforeB - afterA && afterA == beforeA + len
    ensures rest + among + passed == (beforeB + ordB) - (beforeA + ordA)
  {
  }

  /** `diffDate` changes sign when its arguments are swapped, for every pair of dates. */
  lemma DiffDateAntisymmetric(a: Date, b: Date)
    ensures DiffDate(a, b) == -DiffDate(b, a)
  {
  }

  /** The difference from a date to itself is 0 and to the next day is 1. */
  lemma DiffDateNextDay(d: Date)
    requires ValidDate(d) && d.year >= 1
    ensures DiffDate(d, d) == 0
    ensures DiffDate(d, NextDay(d)) == 1
  {
    NextDayEpoch(d);
    DiffDateIsEpochDifference(d, NextDay(d));
  }

  /** Adding n days to a date adds n to its difference from an anchor from year 1 on. */
  lemma DiffDateShift(anchor: Date, d: Date, n: nat)
    requires ValidDate(anchor) && ValidDate(d) && anchor.year >= 1 && d.year >= 1
    ensures PlusDays(d, n).year >= d.year
    ensures DiffDate(anchor, PlusDays(d, n)) == DiffDate(anchor, d) + n
  {
    var e := PlusDays(d, n);
    EpochOrder(d, e);
    DiffDateIsEpochDifference(anchor, d);
    DiffDateIsEpochDifference(anchor, e);
  }

  /** The day of the week advances by n modulo 7 over n days. */
  lemma DayOfWeekShift(d: Date, n: nat)
    requires ValidDate(d)
    ensures DayOfWeek(PlusDays(d, n)) == (DayOfWeek(d) + n) % 7
  {
    var e := EpochDay(d) - 1;
    DivModUnique(e + n, 7, e / 7 + (e % 7 + n) / 7, (e % 7 + n) % 7);
  }

  /** Lexicographic order of (year, month, day). */
  predicate DateBefore(a: Date, b: Date)
  {
    a.year < b.year || (a.year == b.year && (a.month < b.month || (a.month == b.month && a.day < b.day)))
  }

  /** Lexicographic order of (date, hour, minute), reflexive. */
  predicate NotBefore(a: DateTime, b: DateTime)
  {
    DateBefore(b.date, a.date) || (a.date == b.date && (a.hour > b.hour || (a.hour == b.hour && a.minute >= b.minute)))
  }

  lemma {:induction false} MonthLengthSumSplit(year: int, a: int, b: int, c: int)
    requires a <= b <= c
    ensures MonthLengthSum(year, a, c) == MonthLengthSum(year, a, b) + MonthLengthSum(year, b, c)
    decreases b - a
  {
    if a < b {
      MonthLengthSumSplit(year, a + 1, b, c);
    }
  }

  lemma DayOfYearBounds(d: Date)
    requires ValidDate(d)
    ensures 1 <= DayOfYear(d) <= YearLength(d.year)
  {
    MonthLengthSumSnoc(d.year, 1, d.month);
    MonthLengthSumSplit(d.year, 1, d.month + 1, 13);
    MonthLengthSumYear(d.year);
  }

  /**
   For valid dates the calendar order and the day-number order coincide: a
   date strictly before another has a strictly smaller day number, and the
   day number determines the date.
   */
  lemma EpochOrder(a: Date, b: Date)
    requires ValidDate(a) && ValidDate(b)
    ensures DateBefore(a, b) <==> EpochDay(a) < EpochDay(b)
    ensures a == b <==> EpochDay(a) == EpochDay(b)
  {
    if DateBefore(a, b) {
      BeforeMeansSmaller(a, b);
    } else if DateBefore(b, a) {
      BeforeMeansSmaller(b, a);
    }
  }

  lemma BeforeMeansSmaller(a: Date, b: Date)
    requires ValidDate(a) && ValidDate(b) && DateBefore(a, b)
    ensures EpochDay(a) < EpochDay(b)
  {
    if a.year < b.year {
      DayOfYearBounds(a);
      DayOfYearBounds(b);
      DaysBeforeNextYear(a.year);
      DaysAmongYearsClosedForm(a.year + 1, b.year);
    } else if a.month < b.month {
      MonthLengthSumSnoc(a.year, 1, a.month);
      MonthLengthSumSplit(a.year, 1, a.month + 1, b.month);
    }
  }

  /**
   When end is not before start (years from 1 on), `diffDateTime` is the
   number of minutes from start to end.
   */
  lemma DiffDateTimeIsMinuteDifference(start: DateTime, end: DateTime)
    requires ValidDateTime(start) && ValidDateTime(end) && start.date.year >= 1 && end.date.year >= 1
    requires NotBefore(end, start)
    ensures DiffDateTime(start, end) == MinuteStamp(end) - MinuteStamp(start)
    ensures DiffDateTime(start, end) >= 0
  {
    EpochOrder(start.date, end.date);
    DiffDateIsEpochDifference(start.date, end.date);
  }

  /**
   The signed difference is the number of minutes from `start` to `end`, in
   either order.
   */
  lemma SignedDiffIsMinuteDifference(start: DateTime, end: DateTime)
    requires ValidDateTime(start) && ValidDateTime(end) && start.date.year >= 1 && end.date.year >= 1
    ensures DiffDateTimeSigned(start, end) == MinuteStamp(end) - MinuteStamp(start)
  {
    DiffDateIsEpochDifference(start.date, end.date);
  }

  /** A date never lies before the date it was moved forward from. */
  lemma PlusDaysForward(d: Date, n: nat)
    requires ValidDate(d)
    ensures !DateBefore(PlusDays(d, n), d)
    ensures PlusDays(d, n).year >= d.year
  {
    EpochOrder(PlusDays(d, n), d);
  }

  /** A shift that stays within the month moves the day of the month by the shift. */
  lemma SameMonthShift(d: Date, n: nat)
    requires ValidDate(d)
    ensures var e := PlusDays(d, n); e.year == d.year && e.month == d.month ==> e.day == d.day + n
  {
  }

  /**
   From a start in an earlier year, in any year up to 0 that the day table
   reads as year 1, `diffDate` to a date from year 1 on is that date's epoch
   day plus a constant of the start.
   */
  lemma DiffDateFromEarlierYear(a: Date, x: Date)
    requires a.year < x.year && x.year >= 1 && 1 <= x.month <= 12
    ensures DiffDate(a, x) == RestDaysInYear(a) - DaysBeforeYear(a.year + 1) + EpochDay(x)
  {
    DiffDateAcrossYears(a, x);
    DaysAmongYearsClosedForm(a.year + 1, x.year);
    PassedDaysIsDayOfYear(x);
  }

  /** For an end in a later year, `diffDate` is the rest of the start's year, the whole years between and the end's passed days. */
  lemma DiffDateAcrossYears(a: Date, x: Date)
    requires a.year < x.year
    ensures DiffDate(a, x) == RestDaysInYear(a) + DaysAmongYears(a.year + 1, x.year) + PassedDays(x)
  {
  }

  /**
   Adding n days to a date from year 1 on adds n to its difference from
   every valid anchor, including anchors in years up to 0 that the day
   table reads as year 1.
   */
  lemma DiffDateShiftAnyAnchor(anchor: Date, d: Date, n: nat)
    requires ValidDate(anchor) && ValidDate(d) && d.year >= 1
    ensures DiffDate(anchor, PlusDays(d, n)) == DiffDate(anchor, d) + n
  {
    if anchor.year >= 1 {
      DiffDateShift(anchor, d, n);
    } else {
      var e := PlusDays(d, n);
      PlusDaysForward(d, n);
      DiffDateFromEarlierYear(anchor, d);
      DiffDateFromEarlierYear(anchor, e);
    }
  }

  /** A remainder taken before an addition does not change the remainder after it. */
  lemma ModShift(x: int, n: int, p: int)
    requires p > 0
    ensures (x + n) % p == (x % p + n) % p
  {
    var q, r := x / p, x % p;
    var q2, r2 := (r + n) / p, (r + n) % p;
    assert x == q * p + r;
    assert r + n == q2 * p + r2;
    assert x + n == (q + q2) * p + r2 by {
      assert (q + q2) * p == q * p + q2 * p;
    }
    DivModUnique(x + n, p, q + q2, r2);
  }
}

=== FILE: cron_helper.dfy ===
/**
 Calendar arithmetic of CronHelper.kt: the Gregorian leap rule, the
 days-in-month table with its defensive clamping, the bit test on a mask, and
 the signed day and minute differences over a half-open interval (start, end].
 */
module CronHelper {
  import opened KotlinInt
  import opened Dates

  /**
   The Gregorian leap rule. Kotlin's `%` truncates, but a remainder is zero on
   exactly the same years either way, so negative years are classified alike.
   */
  predicate IsLeap(year: int)
  {
    year % 400 == 0 || (year % 4 == 0 && year % 100 != 0)
  }

  /** Days in a year of the given kind. */
  function YearLength(year: int): (r: int)
    ensures r == 365 || r == 366
  {
    if IsLeap(year) then 366 else 365
  }

  const MonthDays: seq<int> := [31, 28, 31, 30, 31, 30, 31, 31, 30, 31, 30, 31]
  const MonthDaysLeap: seq<int> := [31, 29, 31, 30, 31, 30, 31, 31, 30, 31, 30, 31]

  /**
   `daysInMonth(year, month)` with a 0-based month. Years up to 0 are read as
   year 1 and a month index outside [0, 11] is pulled to the nearest end.
   */
  function DaysInMonth(year: int, month: int): (r: int)
    ensures 28 <= r <= 31
  {
    var y := if year <= 0 then 1 else year;
    var m := if month < 0 then 0 else if month > 11 then 11 else month;
    if IsLeap(y) then MonthDaysLeap[m] else MonthDays[m]
  }

  /** `isBitSet(bits, bit)`: bit `bit mod 32` of `bits` read in two's complement, as `bits and (1 shl bit)` tests it. */
  predicate IsBitSet(bits: int, bit: int)
  {
    if 0 <= bit < 32 then (bits / Pow2(bit)) % 2 == 1
    else (bits / Pow2(bit % 32)) % 2 == 1
  }

  /** The sum of `DaysInMonth(year, i)` over the 0-based months i in [lo, hi). */
  function MonthsSum(year: int, lo: int, hi: int): (r: int)
    ensures lo < hi ==> 28 * (hi - lo) <= r <= 31 * (hi - lo)
    ensures lo >= hi ==> r == 0
    decreases hi - lo
  {
    if lo >= hi then 0 else DaysInMonth(year, lo) + MonthsSum(year, lo + 1, hi)
  }

  /** `passedDays(d)`: the days of d's year up to and including d. */
  function PassedDays(d: Date): int
  {
    MonthsSum(d.year, 0, d.month - 1) + d.day
  }

  /** `restDaysInYear(d)`: the days of d's year after d, excluding d. */
  function RestDaysInYear(d: Date): int
  {
    DaysInMonth(d.year, d.month - 1) - d.day + MonthsSum(d.year, d.month, 12)
  }

  /** `daysAmongYears(startYear, endYear)`: the days of the whole years in [startYear, endYear). */
  function DaysAmongYears(startYear: int, endYear: int): (r: int)
    ensures startYear >= endYear ==> r == 0
    ensures startYear < endYear ==> 365 * (endYear - startYear) <= r <= 366 * (endYear - startYear)
    decreases endYear - startYear
  {
    if startYear >= endYear then 0
    else YearLength(startYear) + DaysAmongYears(startYear + 1, endYear)
  }

  /**
   `diffDate(start, end)`: the signed number of days in (start, end]. A later
   year adds the rest of start's year, the whole years between and the passed
   days of end's year; an earlier year negates the swapped difference.
   */
  function DiffDate(start: Date, end: Date): int
    decreases if end.year < start.year then 1 else 0
  {
    var days := RestDaysInYear(start);
    var y := end.year - start.year;
    if y == 0 then days - RestDaysInYear(end)
    else if y >= 1 then days + DaysAmongYears(start.year + 1, end.year) + PassedDays(end)
    else -DiffDate(end, start)
  }

  function Abs(x: int): nat
  {
    if x < 0 then -x else x
  }

  /**
   `diffDateTime(start, end)`: the whole days between the dates, taken as an
   absolute value, in minutes, plus the signed hour and minute differences.
   */
  function DiffDateTime(start: DateTime, end: DateTime): int
  {
    (Abs(DiffDate(start.date, end.date)) * 24 + end.hour - start.hour) * 60 + (end.minute - start.minute)
  }

  /**
   The minute difference the documentation of `diffDateTime` describes: the
   signed whole days between the dates, in minutes, plus the signed hour and
   minute differences, negative whenever the end lies before the start.
   */
  function DiffDateTimeSigned(start: DateTime, end: DateTime): int
  {
    (DiffDate(start.date, end.date) * 24 + end.hour - start.hour) * 60 + (end.minute - start.minute)
  }
}

=== FILE: cron_model.dfy ===
/**
 The data model of Cron.kt: the recurrence specification `Cron` with its
 optional `CustomPeriod`, the `Result` record, and the validity check run
 before any resolution starts.
 */
module CronModel {
  import opened Wrappers
  import opened KotlinInt
  import opened CronHelper
  import opened MaskProofs

  /** `Cron.AnyYear`: the year field's "any" value. */
  const AnyYear: int := 0
  /** `Cron.AnyValue` (`Int.MAX_VALUE`): "any" for every mask field and the minute. */
  const AnyValue: int := IntMax
  /** `Year.MIN_VALUE` and `Year.MAX_VALUE` of java.time, as plain bounds. */
  const YearMin: int := -999_999_999
  const YearMax: int := 999_999_999

  /** A repeating cycle of `period` days starting on firstYear-firstMonth-firstDay; bit i admits day i of the cycle. */
  datatype CustomPeriod = CustomPeriod(bits: int, period: int, firstYear: int, firstMonth: int, firstDay: int)

  /**
   A recurrence: an explicit year or `AnyYear`; month (bits 0..11), month-day
   (bits 0..30), weekday (bits 0..6, Monday first) and hour (bits 0..23)
   masks or `AnyValue`; a minute value or `AnyValue`; an optional custom period.
   The defaults of the source are year = AnyYear, mday = wday = 0 and AnyValue elsewhere.
   */
  datatype Cron = Cron(year: int, month: int, mday: int, wday: int, hour: int, minute: int, customPeriod: Option<CustomPeriod>)

  /** The resolved instant (month 1..12, day 1..31) and its distance in minutes from the reference. */
  datatype Result = Result(year: int, month: int, day: int, hour: int, minute: int, distanceMinutes: int)

  /** Which text of the source a definition follows: as written, or with the findings corrected. */
  datatype Edition = AsWritten | Corrected

  /**
   A mask field that is "any", or a non-negative `Int` with no bit set at
   positions `width` to 31: a mask over the first `width` values of a field.
   */
  predicate MaskWithin(mask: int, width: nat)
  {
    mask == AnyValue || (0 <= mask <= IntMax && forall k :: width <= k < 32 ==> !IsBitSet(mask, k))
  }

  /**
   The exclusive upper bound on a month mask: `2 shl 12` as written, which
   admits bit 12, and `1 shl 12` as corrected.
   */
  function MonthLimit(ed: Edition): int
  {
    if ed == AsWritten then 0x2000 else 0x1000
  }

  /** The exclusive upper bound on a weekday mask: `2 shl 7` as written, `1 shl 7` as corrected. */
  function WdayLimit(ed: Edition): int
  {
    if ed == AsWritten then 0x100 else 0x80
  }

  /** The bit positions a valid month mask may use: 13 as written (one too many), 12 as corrected. */
  function MonthWidth(ed: Edition): nat
  {
    if ed == AsWritten then 13 else 12
  }

  /** The bit positions a valid weekday mask may use: 8 as written (one too many), 7 as corrected. */
  function WdayWidth(ed: Edition): nat
  {
    if ed == AsWritten then 8 else 7
  }

  /** At least one of the month-day, weekday and custom-period selectors is non-zero. */
  predicate HasDaySelector(c: Cron)
  {
    c.mday != 0 || c.wday != 0 || (c.customPeriod.Some? && c.customPeriod.value.bits != 0)
  }

  /**
   The recurrences the validity check is meant to accept, stated through bit
   widths: a year in java.time's range, month, weekday and hour masks within
   their fields, a day selector, a non-negative month-day mask, a minute of
   the hour, and a custom period in range.
   */
  predicate Admissible(ed: Edition, c: Cron)
  {
    && YearMin <= c.year <= YearMax
    && MaskWithin(c.month, MonthWidth(ed))
    && HasDaySelector(c)
    && (c.mday == AnyValue || c.mday >= 0)
    && MaskWithin(c.wday, WdayWidth(ed))
    && MaskWithin(c.hour, 24)
    && (c.minute == AnyValue || 0 <= c.minute <= 59)
    && (c.customPeriod.Some? ==> CustomPeriodInRange(ed, c.customPeriod.value))
  }

  /**
   `checkValid`: accepts exactly the admissible recurrences. As written the
   month and weekday masks may use one bit more than the field has values.
   */
  function CheckValid(ed: Edition, c: Cron): (ok: bool)
    ensures ok <==> Admissible(ed, c)
    ensures ok ==> HasDaySelector(c)
    ensures ok && c.customPeriod.Some? ==> 1 <= c.customPeriod.value.firstMonth <= 12 && 1 <= c.customPeriod.value.firstDay <= 31
  {
    ChecksMeanWidths(ed, c);
    FieldsInRange(ed, c)
  }

  predicate FieldsInRange(ed: Edition, c: Cron)
  {
    && YearMin <= c.year <= YearMax
    && (c.month == AnyValue || 0 <= c.month < MonthLimit(ed))
    && !(c.mday == 0 && c.wday == 0 && (c.customPeriod.None? || c.customPeriod.value.bits == 0))
    && (c.mday == AnyValue || c.mday >= 0)
    && (c.wday == AnyValue || 0 <= c.wday < WdayLimit(ed))
    && (c.hour == AnyValue || 0 <= c.hour < 0x100_0000) // 1 shl 24
    && (c.minute == AnyValue || 0 <= c.minute <= 59)
    && (c.customPeriod.Some? ==> CustomPeriodInRange(ed, c.customPeriod.value))
  }

  /**
   The custom-period checks. As written a negative period passes, since
   `1 shl period` takes the period modulo 32; as corrected a cycle cannot
   be of negative length.
   */
  predicate CustomPeriodInRange(ed: Edition, cp: CustomPeriod)
  {
    && (cp.bits == AnyValue || (0 <= cp.bits < ShlOne(cp.period)))
    && (ed == Corrected ==> cp.period >= 0)
    && YearMin <= cp.firstYear <= YearMax
    && 1 <= cp.firstMonth <= 12
    && 1 <= cp.firstDay <= 31
  }

  /** The numeric range checks of `checkValid` are the bit-width conditions of `Admissible`. */
  lemma ChecksMeanWidths(ed: Edition, c: Cron)
    ensures FieldsInRange(ed, c) <==> Admissible(ed, c)
  {
    LimitsArePowers();
    MaskWithinIffBelow(c.month, MonthWidth(ed));
    MaskWithinIffBelow(c.wday, WdayWidth(ed));
    MaskWithinIffBelow(c.hour, 24);
  }

  lemma LimitsArePowers()
    ensures Pow2(7) == 0x80 && Pow2(8) == 0x100
    ensures Pow2(12) == 0x1000 && Pow2(13) == 0x2000
    ensures Pow2(24) == 0x100_0000
  {
  }

  /** A mask uses only its first n bits exactly when it is "any" or lies in [0, 2^n). */
  lemma MaskWithinIffBelow(mask: int, n: nat)
    requires n <= 31
    ensures MaskWithin(mask, n) <==> mask == AnyValue || 0 <= mask < Pow2(n)
  {
    Pow2Listed(31);
    Pow2Monotone(n, 31);
    if mask != AnyValue && 0 <= mask < Pow2(n) {
      forall k | n <= k < 32
        ensures !IsBitSet(mask, k)
      {
        BitsAboveBoundClear(mask, n, k);
      }
    }
    if mask != AnyValue && MaskWithin(mask, n) {
      ClearBitsBelow(mask, n, 31);
    }
  }
}

=== FILE: dates.dfy ===
/**
 The shapes of `java.time.LocalDate` and `java.time.LocalDateTime` as the cron
 source uses them: the month counts from 1 (January) to 12, the day of the
 month from 1. Validity and arithmetic live in JavaTime.
 */
module Dates {

  datatype Date = Date(year: int, month: int, day: int)

  datatype DateTime = DateTime(date: Date, hour: int, minute: int)
}

=== FILE: edge_vectors.dfy ===
/**
 Recurrences that `checkValid` accepts but that the cascade does not
 resolve as meant: a custom period with no bit set next to a month-day mask,
 which ends the search with `null`, and a month-day mask that no selected
 month is long enough for, which sends the search round the years for ever.
 */
module EdgeVectors {
  import opened Wrappers
  import opened KotlinInt
  import opened Dates
  import opened CronHelper
  import opened JavaTime
  import opened CronModel
  import opened MaskProofs
  import opened Matcher
  import opened Engine
  import opened CalendarProofs
  import opened MatchProofs
  import opened Vectors
  import opened SelectorVectors

  /** A handled message followed by the run from the next one uses one unit of fuel. */
  lemma RunOn(ed: Edition, c: Cron, since: DateTime, m: Machine, m': Machine, fuel: nat)
    requires fuel >= 1 && Step(ed, c, since, m) == Next(m')
    ensures Run(ed, c, since, m, fuel) == Run(ed, c, since, m', fuel - 1)
  {
  }

  // ---------------------------------------------------------------------
  // The 1st of every month at minute 0 of every hour, next to a custom
  // period of 8 days with no day selected, from 2025-01-30 10:40.
  // ---------------------------------------------------------------------

  const FirstBesideEmptyCycle: Cron := Cron(AnyYear, AnyValue, 0x1, 0, AnyValue, 0, Some(CustomPeriod(0, 8, 2025, 2, 7)))
  const EmptyCycleSince: DateTime := At(2025, 1, 30, 10, 40)

  const EmptyCycleFailTrace: seq<Machine> := [
    Initial(EmptyCycleSince),
    Machine(Msg(MonthField, 0, false), Result(2025, 0, 0, 0, 0, 0)),
    Machine(Msg(DayField, 29, false), Result(2025, 1, 0, 0, 0, 0)),
    Machine(Msg(Finished, 0, false), Cleared)]

  const EmptyCycleSkipTrace: seq<Machine> := [
    Initial(EmptyCycleSince),
    Machine(Msg(MonthField, 0, false), Result(2025, 0, 0, 0, 0, 0)),
    Machine(Msg(DayField, 29, false), Result(2025, 1, 0, 0, 0, 0)),
    Machine(Msg(MonthField, 1, true), Result(2025, 1, 0, 0, 0, 0)),
    Machine(Msg(DayField, 0, true), Result(2025, 2, 0, 0, 0, 0)),
    Machine(Msg(HourField, 0, true), Result(2025, 2, 1, 0, 0, 0)),
    Machine(Msg(MinuteField, 0, true), Result(2025, 2, 1, 0, 0, 0)),
    Machine(Msg(Finished, 0, false), Result(2025, 2, 1, 0, 0, 2240))]

  /** Both editions accept the recurrence: the month-day mask is a day selector, and bits 0 fit a period of 8. */
  lemma FirstBesideEmptyCycleValid(ed: Edition)
    ensures CheckValid(ed, FirstBesideEmptyCycle)
  {
  }

  /** The empty cycle, searched, finds no day of its period. */
  lemma EmptyCycleSearched(day: Date)
    ensures CustomSelector(FirstBesideEmptyCycle, day) == NoMatch
  {
    EmptyCycleSilent(FirstBesideEmptyCycle, day);
    assert ValidDate(Date(2025, 2, 7));
  }

  /** As written the day search consults the empty cycle and fails, clearing the result. */
  lemma EmptyCycleFails(r: Result)
    requires r.year == 2025 && r.month == 1
    ensures DayStep(AsWritten, FirstBesideEmptyCycle, EmptyCycleSince, r, 29, false) == FinishFailed()
  {
    assert ValidDate(Date(2025, 1, 30));
    EmptyCycleSearched(Date(2025, 1, 30));
  }

  lemma EmptyCycleFailSteps(i: int)
    requires 0 <= i < |EmptyCycleFailTrace| - 1
    ensures Step(AsWritten, FirstBesideEmptyCycle, EmptyCycleSince, EmptyCycleFailTrace[i]) == Next(EmptyCycleFailTrace[i + 1])
  {
    var c, s, t := FirstBesideEmptyCycle, EmptyCycleSince, EmptyCycleFailTrace;
    if i == 0 {
      assert Step(AsWritten, c, s, t[0]) == Next(t[1]);
    } else if i == 1 {
      assert Step(AsWritten, c, s, t[1]) == Next(t[2]);
    } else {
      EmptyCycleFails(t[2].result);
      assert Step(AsWritten, c, s, t[2]) == DayStep(AsWritten, c, s, t[2].result, 29, false);
    }
  }

  /** Midnight of 2025-02-01 is the 1st of a month at minute 0. */
  lemma FirstOfFebruaryMatches()
    ensures Matches(FirstBesideEmptyCycle, Result(2025, 2, 1, 0, 0, 2240))
  {
    assert IsBitSet(0x1, 0);
  }

  /**
   As written, from 2025-01-30 10:40 "the 1st of every month at minute 0",
   next to a custom period with no day selected, resolves to `null`,
   although midnight of 2025-02-01 matches every field.
   */
  lemma EmptyCycleAnswersNull()
    ensures Resolve(AsWritten, FirstBesideEmptyCycle, EmptyCycleSince, 4) == Resolved(None)
    ensures Matches(FirstBesideEmptyCycle, Result(2025, 2, 1, 0, 0, 2240))
  {
    var c, s, t := FirstBesideEmptyCycle, EmptyCycleSince, EmptyCycleFailTrace;
    forall i | 0 <= i < |t| - 1
      ensures Step(AsWritten, c, s, t[i]) == Next(t[i + 1])
    {
      EmptyCycleFailSteps(i);
    }
    assert Step(AsWritten, c, s, t[3]) == Report(None);
    Follows(AsWritten, c, s, t, None);
    FirstBesideEmptyCycleValid(AsWritten);
    FirstOfFebruaryMatches();
  }

  /** From the 30th of a 31-day month the next 1st is 2 days on. */
  lemma FirstFromTheThirtieth()
    ensures GetNext(0x1, 29, 31, true) == Some((0, 2))
  {
    forall j | 1 <= j < 31
      ensures !IsBitSet(0x1, j)
    {
      BitsAboveBoundClear(0x1, 1, j);
    }
    assert IsBitSet(0x1, 0);
    FirstWrapMatch(0x1, 29, 31, 2);
  }

  /** From the 1st the month-day search answers the 1st itself. */
  lemma FirstFromTheFirst()
    ensures GetNext(0x1, 0, 28, true) == Some((0, 0))
  {
    assert IsBitSet(0x1, 0);
    FirstWrapMatch(0x1, 0, 28, 0);
  }

  /** As corrected the empty cycle is passed over, and the month-day mask moves the search into February. */
  lemma EmptyCycleIgnored(r: Result)
    requires r.year == 2025 && r.month == 1
    ensures DayStep(Corrected, FirstBesideEmptyCycle, EmptyCycleSince, r, 29, false) == Send(MonthField, 1, true, r)
  {
    ThirtiethSelectors(r);
    CorrectedDayStepMoves(FirstBesideEmptyCycle, EmptyCycleSince, r, 29, false, Unset, Unset, Distance(2), 2);
    MoveToFebruary(r);
  }

  /**
   As corrected, when no selector pins the day or fails and none reports a
   short month, the day search moves by the nearest distance answered.
   */
  lemma CorrectedDayStepMoves(c: Cron, since: DateTime, r: Result, i: int, fs: bool, w: Selector, cp: Selector, m: Selector, d: nat)
    requires ValidDate(Date(r.year, r.month, i + 1))
    requires w == WdaySelector(c, Date(r.year, r.month, i + 1)) && (w.Unset? || w.Distance?)
    requires cp == CycleSelector(Corrected, c, Date(r.year, r.month, i + 1)) && (cp.Unset? || cp.Distance?)
    requires m == MdaySelector(c, r, i) && (m.Unset? || m.Distance?)
    requires Nearest(w, cp, m) == Some(d)
    ensures DayStep(Corrected, c, since, r, i, fs) == MoveBy(since, r, Date(r.year, r.month, i + 1), d, fs)
  {
  }

  /** On 2025-01-30 the corrected selectors: no weekday, no cycle, and the 1st 2 days on. */
  lemma ThirtiethSelectors(r: Result)
    requires r.year == 2025 && r.month == 1
    ensures ValidDate(Date(2025, 1, 30))
    ensures WdaySelector(FirstBesideEmptyCycle, Date(2025, 1, 30)) == Unset
    ensures CycleSelector(Corrected, FirstBesideEmptyCycle, Date(2025, 1, 30)) == Unset
    ensures MdaySelector(FirstBesideEmptyCycle, r, 29) == Distance(2)
  {
    FirstOfMonthFromThirtieth(FirstBesideEmptyCycle, r);
  }

  /** In January the month-day search for the 1st from the 30th answers 2 days. */
  lemma FirstOfMonthFromThirtieth(c: Cron, r: Result)
    requires c.mday == 0x1 && r.year == 2025 && r.month == 1
    ensures MdaySelector(c, r, 29) == Distance(2)
  {
    assert DaysInMonth(2025, 0) == 31;
    FirstFromTheThirtieth();
  }

  /** 2 days on from 2025-01-30 is 2025-02-01, in the next month. */
  lemma MoveToFebruary(r: Result)
    requires r.year == 2025 && r.month == 1
    ensures MoveBy(EmptyCycleSince, r, Date(2025, 1, 30), 2, false) == Send(MonthField, 1, true, r)
  {
    TwoDaysFromThirtieth();
  }

  lemma TwoDaysFromThirtieth()
    ensures PlusDays(Date(2025, 1, 30), 2) == Date(2025, 2, 1)
  {
    assert NextDay(Date(2025, 1, 30)) == Date(2025, 1, 31);
    assert NextDay(Date(2025, 1, 31)) == Date(2025, 2, 1);
    assert PlusDays(Date(2025, 2, 1), 0) == Date(2025, 2, 1);
    assert PlusDays(Date(2025, 1, 31), 1) == Date(2025, 2, 1);
  }

  /** In February the 1st is pinned, and the hour search starts from scratch. */
  lemma FirstOfFebruaryPinned(r: Result)
    requires r.year == 2025 && r.month == 2
    ensures DayStep(Corrected, FirstBesideEmptyCycle, EmptyCycleSince, r, 0, true) == Send(HourField, 0, true, r.(day := 1))
  {
    var day := Date(2025, 2, 1);
    assert ValidDate(day);
    FirstOfFebruarySelected(FirstBesideEmptyCycle, r);
    assert PlusDays(day, 0) == day;
  }

  /** In February the month-day search for the 1st from the 1st answers 0 days. */
  lemma FirstOfFebruarySelected(c: Cron, r: Result)
    requires c.mday == 0x1 && r.year == 2025 && r.month == 2
    ensures MdaySelector(c, r, 0) == Distance(0)
  {
    assert DaysInMonth(2025, 1) == 28;
    FirstFromTheFirst();
  }

  lemma ThirtiethToFirst()
    ensures DiffDate(Date(2025, 1, 30), Date(2025, 2, 1)) == 2
  {
  }

  lemma EmptyCycleSkipSteps(i: int)
    requires 0 <= i < |EmptyCycleSkipTrace| - 1
    ensures Step(Corrected, FirstBesideEmptyCycle, EmptyCycleSince, EmptyCycleSkipTrace[i]) == Next(EmptyCycleSkipTrace[i + 1])
  {
    var c, s, t := FirstBesideEmptyCycle, EmptyCycleSince, EmptyCycleSkipTrace;
    if i == 0 {
      assert Step(Corrected, c, s, t[0]) == Next(t[1]);
    } else if i == 1 {
      assert Step(Corrected, c, s, t[1]) == Next(t[2]);
    } else if i == 2 {
      EmptyCycleIgnored(t[2].result);
      assert Step(Corrected, c, s, t[2]) == DayStep(Corrected, c, s, t[2].result, 29, false);
    } else if i == 3 {
      assert Step(Corrected, c, s, t[3]) == Next(t[4]);
    } else if i == 4 {
      FirstOfFebruaryPinned(t[4].result);
      assert Step(Corrected, c, s, t[4]) == DayStep(Corrected, c, s, t[4].result, 0, true);
    } else if i == 5 {
      assert Step(Corrected, c, s, t[5]) == Next(t[6]);
    } else {
      ThirtiethToFirst();
      FinishesAfter(Corrected, c, s, t[6].result, 2);
      assert Step(Corrected, c, s, t[6]) == MinuteStep(Corrected, c, s, t[6].result, 0, true);
    }
  }

  /** As corrected the same query answers midnight of 2025-02-01, 2240 minutes on. */
  lemma EmptyCycleSkipped()
    ensures Resolve(Corrected, FirstBesideEmptyCycle, EmptyCycleSince, 8) == Resolved(Some(Result(2025, 2, 1, 0, 0, 2240)))
  {
    var c, s, t := FirstBesideEmptyCycle, EmptyCycleSince, EmptyCycleSkipTrace;
    forall i | 0 <= i < |t| - 1
      ensures Step(Corrected, c, s, t[i]) == Next(t[i + 1])
    {
      EmptyCycleSkipSteps(i);
    }
    assert Step(Corrected, c, s, t[7]) == Report(Some(Result(2025, 2, 1, 0, 0, 2240)));
    Follows(Corrected, c, s, t, Some(Result(2025, 2, 1, 0, 0, 2240)));
    FirstBesideEmptyCycleValid(Corrected);
  }

  // ---------------------------------------------------------------------
  // The 31st of February: month mask February only, month-day mask the 31st
  // only, at minute 0 of every hour.
  // ---------------------------------------------------------------------

  const FebruaryThirtyFirst: Cron := Cron(AnyYear, 0x2, 0x4000_0000, 0, AnyValue, 0, None)

  /** Both editions accept it: each mask fits its field. */
  lemma FebruaryThirtyFirstValid(ed: Edition)
    ensures CheckValid(ed, FebruaryThirtyFirst)
  {
  }

  /** The month mask selects February and no other month. */
  lemma FebruaryOnly()
    ensures IsBitSet(0x2, 1) && !IsBitSet(0x2, 0)
    ensures forall j :: 2 <= j < 12 ==> !IsBitSet(0x2, j)
  {
    FebruaryBit();
    forall j | 2 <= j < 12
      ensures !IsBitSet(0x2, j)
    {
      AfterFebruaryClear(j);
    }
  }

  lemma FebruaryBit()
    ensures IsBitSet(0x2, 1) && !IsBitSet(0x2, 0)
  {
  }

  lemma AfterFebruaryClear(j: int)
    requires 2 <= j < 12
    ensures !IsBitSet(0x2, j)
  {
    assert Pow2(2) == 4;
    BitsAboveBoundClear(0x2, 2, j);
  }

  /** From January, searched from scratch, the month mask answers February. */
  lemma FebruaryFromScratch()
    ensures GetNext(0x2, 0, 12, false) == Some((1, 1))
  {
    FebruaryOnly();
  }

  /** No month after February is selected. */
  lemma NoMonthAfterFebruary()
    ensures GetNext(0x2, 2, 12, false).None?
  {
    FebruaryOnly();
  }

  /** From March, the month search wraps round to February, eleven months on. */
  lemma FebruaryFromMarch()
    ensures GetNext(0x2, 2, 12, true) == Some((1, 11))
  {
    FebruaryOnly();
    FirstWrapMatch(0x2, 2, 12, 11);
  }

  /** The 31st is not among the first 29 days of any month. */
  lemma NoThirtyFirstWithin(n: int)
    requires 1 <= n <= 29
    ensures GetNext(0x4000_0000, 0, n, true).None?
  {
    Pow2Listed(30);
    forall b | 0 <= b < n
      ensures !IsBitSet(0x4000_0000, b)
    {
      SingleBitOnly(30, b);
    }
    WrapVisitsEveryIndex(0x4000_0000, 0, n);
  }

  /** A year searched from scratch is taken, and the month search starts from January. */
  lemma YearTaken(ed: Edition, since: DateTime, y: int, r: Result)
    ensures Step(ed, FebruaryThirtyFirst, since, Machine(Msg(YearField, y, true), r)) ==
      Next(Machine(Msg(MonthField, 0, true), r.(year := y)))
  {
  }

  /** From January the month search pins February, and the day search starts from its 1st. */
  lemma FebruaryTaken(ed: Edition, since: DateTime, r: Result)
    ensures Step(ed, FebruaryThirtyFirst, since, Machine(Msg(MonthField, 0, true), r)) ==
      Next(Machine(Msg(DayField, 0, true), r.(month := 2)))
  {
    FebruaryFromScratch();
  }

  /** February is too short for the 31st in every year, so both editions skip to March. */
  lemma FebruaryTooShort(ed: Edition, since: DateTime, r: Result)
    requires r.month == 2
    ensures Step(ed, FebruaryThirtyFirst, since, Machine(Msg(DayField, 0, true), r)) ==
      Next(Machine(Msg(MonthField, 2, true), r))
  {
    var day := Date(r.year, 2, 1);
    assert ValidDate(day);
    DaysInMonthClamps(r.year, 1);
    NoThirtyFirstWithin(DaysInMonth(r.year, 1));
    assert MdaySelector(FebruaryThirtyFirst, r, 0) == TooShort;
    assert PlusOneMonth(day) == Date(r.year, 3, 1);
    assert DayStep(ed, FebruaryThirtyFirst, since, r, 0, true) == SkipMonth(r, day);
  }

  /** From March no month is left in the year, so the year after is searched from scratch. */
  lemma NextYearTried(ed: Edition, since: DateTime, r: Result)
    ensures Step(ed, FebruaryThirtyFirst, since, Machine(Msg(MonthField, 2, true), r)) ==
      Next(Machine(Msg(YearField, r.year + 1, true), r))
  {
    NoMonthAfterFebruary();
    FebruaryFromScratch();
  }

  /**
   The messages of the endless search: a year from scratch, January from
   scratch, the 1st of February from scratch, and March from scratch.
   */
  predicate InCycle(m: Machine)
  {
    || (m.msg.which == YearField && m.msg.fromScratch)
    || m.msg == Msg(MonthField, 0, true)
    || (m.msg == Msg(DayField, 0, true) && m.result.month == 2)
    || m.msg == Msg(MonthField, 2, true)
  }

  /** Every message of the cycle is handled by sending the next one, in either edition. */
  lemma CycleStep(ed: Edition, since: DateTime, m: Machine) returns (m': Machine)
    requires InCycle(m)
    ensures Step(ed, FebruaryThirtyFirst, since, m) == Next(m') && InCycle(m')
  {
    var r := m.result;
    if m.msg.which == YearField {
      YearTaken(ed, since, m.msg.since, r);
      m' := Machine(Msg(MonthField, 0, true), r.(year := m.msg.since));
    } else if m.msg == Msg(MonthField, 0, true) {
      FebruaryTaken(ed, since, r);
      m' := Machine(Msg(DayField, 0, true), r.(month := 2));
    } else if m.msg == Msg(DayField, 0, true) {
      FebruaryTooShort(ed, since, r);
      m' := Machine(Msg(MonthField, 2, true), r);
    } else {
      NextYearTried(ed, since, r);
      m' := Machine(Msg(YearField, r.year + 1, true), r);
    }
  }

  /**
   From any message of the cycle the cascade never reports, in either
   edition: it runs out of any amount of fuel without an answer.
   */
  lemma {:induction false} NeverSettles(ed: Edition, since: DateTime, m: Machine, fuel: nat)
    requires InCycle(m)
    ensures Run(ed, FebruaryThirtyFirst, since, m, fuel) == OutOfFuel
    decreases fuel
  {
    if fuel > 0 {
      var m' := CycleStep(ed, since, m);
      RunOn(ed, FebruaryThirtyFirst, since, m, m', fuel);
      NeverSettles(ed, since, m', fuel - 1);
    }
  }

  const MarchFirst: DateTime := At(2025, 3, 1, 0, 0)

  /**
   From 2025-03-01 00:00 the 31st of February is accepted by both editions
   and never answered: the year search goes round for ever.
   */
  lemma FebruaryThirtyFirstNeverResolves(ed: Edition, fuel: nat)
    ensures Resolve(ed, FebruaryThirtyFirst, MarchFirst, fuel) == OutOfFuel
  {
    var c, s := FebruaryThirtyFirst, MarchFirst;
    FebruaryThirtyFirstValid(ed);
    var m0 := Initial(s);
    var m1 := Machine(Msg(MonthField, 2, false), Result(2025, 0, 0, 0, 0, 0));
    var m2 := Machine(Msg(YearField, 2026, true), Result(2025, 0, 0, 0, 0, 0));
    assert Step(ed, c, s, m0) == Next(m1);
    FebruaryFromMarch();
    assert Step(ed, c, s, m1) == Next(m2);
    if fuel >= 1 {
      RunOn(ed, c, s, m0, m1, fuel);
    }
    if fuel >= 2 {
      RunOn(ed, c, s, m1, m2, fuel - 1);
      NeverSettles(ed, s, m2, fuel - 2);
    }
  }
}

=== FILE: engine.dfy ===
/**
 The resolution engine of Cron.kt. The source's coroutine channel carries
 one `UpdateMsg(which, since, isFromScratch)` at a time to the handler of
 the named field, which pins that field in a shared `result` and sends the
 next message. Here the channel is a pure step function from one machine
 state (the pending message and the result so far) to the next, driven by a
 fuel-bounded loop: the cascade is not guaranteed to end.
 */
module Engine {
  import opened Wrappers
  import opened KotlinInt
  import opened Dates
  import opened CronHelper
  import opened JavaTime
  import opened CronModel
  import opened Matcher

  /** `UpdateWhich`: the field a message asks to resolve next. */
  datatype Which = YearField | MonthField | DayField | HourField | MinuteField | Finished

  /**
   `UpdateMsg`: the field, the index to search from, and whether the search
   starts from the beginning of the field's period because a coarser field
   has already moved past the reference. The source's `null` for the first
   year message behaves as `false`.
   */
  datatype Msg = Msg(which: Which, since: int, fromScratch: bool)

  /** The pending message and the result accumulated so far. */
  datatype Machine = Machine(msg: Msg, result: Result)

  /** One handler run: the next state, the reported answer, or an exception thrown by the JVM. */
  datatype Transition = Next(machine: Machine) | Report(found: Option<Result>) | Fault

  /**
   The end of a resolution: the spec failed `checkValid` (the source throws),
   the callback received a result or `null`, a runtime exception escaped
   (an impossible anchor date, a custom period of 0), or the fuel ran out.
   */
  datatype Outcome = Invalid | Resolved(found: Option<Result>) | Thrown | OutOfFuel

  /** The result after `resetResult`. */
  const Cleared: Result := Result(0, 0, 0, 0, 0, 0)

  /** A day selector's verdict for the date the day search starts from. */
  datatype Selector = Unset | AnyDay | Distance(d: nat) | NoMatch | TooShort | Crash

  function Send(which: Which, since: int, fromScratch: bool, r: Result): Transition
  {
    Next(Machine(Msg(which, since, fromScratch), r))
  }

  /** The date and time a result names. */
  function Instant(r: Result): DateTime
  {
    DateTime(Date(r.year, r.month, r.day), r.hour, r.minute)
  }

  /** The date part of the result. */
  function Day(r: Result): Date
  {
    Date(r.year, r.month, r.day)
  }

  /**
   `finish(null)`: record the distance from the reference and move to
   Finished. As written the distance is `diffDateTime`, which takes the day
   difference as an absolute value; as corrected it is the signed difference.
   */
  function FinishFound(ed: Edition, since: DateTime, r: Result): Transition
  {
    if ValidDateTime(Instant(r)) then
      var distance := if ed == AsWritten then DiffDateTime(since, Instant(r)) else DiffDateTimeSigned(since, Instant(r));
      Send(Finished, 0, false, r.(distanceMinutes := distance))
    else Fault
  }

  /** `finish(err)`: clear the result, which Finished then reports as `null`. */
  function FinishFailed(): Transition
  {
    Send(Finished, 0, false, Cleared)
  }

  /** Carry to the date `next`: re-resolve the year, the month or the day, whichever changed first. */
  function CarryTo(r: Result, next: Date): Transition
  {
    if next.year > r.year then Send(YearField, next.year, true, r)
    else if next.month != r.month then Send(MonthField, next.month - 1, true, r)
    else Send(DayField, next.day - 1, true, r)
  }

  /** Carry to the day after the result's day. */
  function NextDayCarry(r: Result): Transition
  {
    if ValidDate(Day(r)) then CarryTo(r, NextDay(Day(r))) else Fault
  }

  /** `updateYear(sinceYear, isFromScratch)`. */
  function YearStep(c: Cron, since: DateTime, r: Result, sinceYear: int, fromScratch: bool): Transition
  {
    if c.year == AnyYear || c.year == sinceYear then
      Send(MonthField, if fromScratch then 0 else since.date.month - 1, fromScratch, r.(year := sinceYear))
    else if c.year > sinceYear then
      Send(MonthField, 0, true, r.(year := c.year))
    else
      FinishFailed()
  }

  /** `updateMonth(sinceBit, isFromScratch)` with a 0-based month index. */
  function MonthStep(c: Cron, since: DateTime, r: Result, sinceBit: int, fromScratch: bool): Transition
  {
    if c.month == AnyValue then
      Send(DayField, if fromScratch then 0 else since.date.day - 1, fromScratch, r.(month := sinceBit + 1))
    else if fromScratch then
      match GetNext(c.month, sinceBit, 12, false)
      case Some(p) => Send(DayField, 0, true, r.(month := p.0 + 1))
      case None =>
        if sinceBit == 0 || GetNext(c.month, 0, 12, false).None? then FinishFailed()
        else Send(YearField, r.year + 1, true, r)
    else
      match GetNext(c.month, sinceBit, 12, true)
      case None => FinishFailed()
      case Some(p) =>
        if p.0 < sinceBit then Send(YearField, r.year + 1, true, r)
        else if p.1 == 0 then Send(DayField, since.date.day - 1, false, r.(month := p.0 + 1))
        else Send(DayField, 0, true, r.(month := p.0 + 1))
  }

  /**
   The custom-period phase of `day`: `diffDate(anchor, day) % period` with
   Kotlin's truncating remainder, plus `period` when negative.
   */
  function Phase(anchor: Date, day: Date, period: int): (r: int)
    requires period != 0
    ensures period > 0 ==> 0 <= r < period && r == DiffDate(anchor, day) % period
  {
    var rem := Rem(DiffDate(anchor, day), period);
    if period > 0 then RemCongruent(DiffDate(anchor, day), period); (if rem < 0 then rem + period else rem)
    else if rem < 0 then rem + period else rem
  }

  /** The first day of a custom period. */
  function Anchor(cp: CustomPeriod): Date
  {
    Date(cp.firstYear, cp.firstMonth, cp.firstDay)
  }

  /** The weekday selector: the days from `day` to the nearest admitted weekday. */
  function WdaySelector(c: Cron, day: Date): Selector
  {
    if c.wday <= 0 then Unset
    else if c.wday == AnyValue then AnyDay
    else
      match GetNext(c.wday, DayOfWeek(day), 7, true)
      case None => NoMatch
      case Some(p) => Distance(p.1)
  }

  /** The custom-period selector: the days from `day` to the nearest admitted day of the cycle. */
  function CustomSelector(c: Cron, day: Date): Selector
  {
    match c.customPeriod
    case None => Unset
    case Some(cp) =>
      if cp.bits == AnyValue then AnyDay
      else if !ValidDate(Anchor(cp)) || cp.period == 0 then Crash
      else
        match GetNext(cp.bits, Phase(Anchor(cp), day, cp.period), cp.period, true)
        case None => NoMatch
        case Some(p) => Distance(p.1)
  }

  /** A custom period with no bit set, which `checkValid` counts as no custom period at all. */
  predicate EmptyCycle(c: Cron)
  {
    c.customPeriod.Some? && c.customPeriod.value.bits == 0
  }

  /**
   The custom-period selector the day search consults. As written an empty
   cycle is still searched, finds nothing and fails the resolution; as
   corrected it is no selector, as `checkValid` reads it.
   */
  function CycleSelector(ed: Edition, c: Cron, day: Date): Selector
  {
    if ed == Corrected && EmptyCycle(c) then Unset else CustomSelector(c, day)
  }

  /**
   The month-day selector, searching the month's days with wrap-around. No
   admitted day within a month shorter than 31 days means "try the next month".
   */
  function MdaySelector(c: Cron, r: Result, sinceBit: int): Selector
  {
    if c.mday <= 0 then Unset
    else if c.mday == AnyValue then AnyDay
    else
      var monthDays := DaysInMonth(r.year, r.month - 1);
      match GetNext(c.mday, sinceBit, monthDays, true)
      case None => if monthDays == 31 then NoMatch else TooShort
      case Some(p) => Distance(p.1)
  }

  /** The year field admits `year`. */
  predicate YearMatches(c: Cron, year: int)
  {
    c.year == AnyYear || year == c.year
  }

  /** The month mask admits the 1-based `month`. */
  predicate MonthMatches(c: Cron, month: int)
  {
    c.month == AnyValue || IsBitSet(c.month, month - 1)
  }

  /** The weekday selector is configured and admits the weekday of `day`. */
  predicate WdayAdmits(c: Cron, day: Date)
  {
    c.wday == AnyValue || (c.wday > 0 && IsBitSet(c.wday, DayOfWeek(day)))
  }

  /** The custom period is configured and admits `day`: its bit for the day's place in the cycle is set. */
  predicate CustomAdmits(c: Cron, day: Date)
  {
    match c.customPeriod
    case None => false
    case Some(cp) =>
      cp.bits == AnyValue ||
      (ValidDate(Anchor(cp)) && cp.period > 0 && IsBitSet(cp.bits, Phase(Anchor(cp), day, cp.period)))
  }

  /** The month-day selector is configured and admits the day of the month of `day`. */
  predicate MdayAdmits(c: Cron, day: Date)
  {
    c.mday == AnyValue || (c.mday > 0 && IsBitSet(c.mday, day.day - 1))
  }

  /** Some configured day selector admits `day`. */
  predicate DayMatches(c: Cron, day: Date)
  {
    WdayAdmits(c, day) || CustomAdmits(c, day) || MdayAdmits(c, day)
  }

  /** The hour mask admits `hour`. */
  predicate HourMatches(c: Cron, hour: int)
  {
    c.hour == AnyValue || IsBitSet(c.hour, hour)
  }

  /** The minute field admits `minute`. */
  predicate MinuteMatches(c: Cron, minute: int)
  {
    c.minute == AnyValue || minute == c.minute
  }

  /** The instant of `r` satisfies every field of the recurrence. */
  predicate Matches(c: Cron, r: Result)
  {
    && YearMatches(c, r.year)
    && MonthMatches(c, r.month)
    && DayMatches(c, Day(r))
    && HourMatches(c, r.hour)
    && MinuteMatches(c, r.minute)
  }

  function DistanceOf(s: Selector): Option<nat>
  {
    if s.Distance? then Some(s.d) else None
  }

  /** The smaller of two optional distances, an absent one counting as infinite; ties go to the second. */
  function Closer(a: Option<nat>, b: Option<nat>): Option<nat>
  {
    if a.Some? && (b.None? || a.value < b.value) then a else b
  }

  /** The least distance among the selectors that produced one, or none. */
  function Nearest(w: Selector, cp: Selector, m: Selector): (r: Option<nat>)
    ensures r.None? <==> !w.Distance? && !cp.Distance? && !m.Distance?
    ensures r.Some? ==> (w.Distance? && r.value == w.d) || (cp.Distance? && r.value == cp.d) || (m.Distance? && r.value == m.d)
    ensures r.Some? ==> (w.Distance? ==> r.value <= w.d) && (cp.Distance? ==> r.value <= cp.d) && (m.Distance? ==> r.value <= m.d)
  {
    Closer(Closer(DistanceOf(w), DistanceOf(cp)), DistanceOf(m))
  }

  /** Pin the day at the search start and go on to the hour. */
  function PinDay(since: DateTime, r: Result, sinceBit: int, fromScratch: bool): Transition
  {
    Send(HourField, if fromScratch then 0 else since.hour, fromScratch, r.(day := sinceBit + 1))
  }

  /**
   `updateDay(sinceBit, isFromScratch)` with a 0-based day index: consult
   the weekday, custom-period and month-day selectors in that order, then
   move to the nearest admitted day, carrying to the month or year it lies in.
   As written, a month too short for the month-day mask skips to the next
   month even when the weekday or custom-period selector admits a nearer
   day; as corrected, the month is skipped only when neither answered. As
   corrected, an empty custom cycle is not consulted.
   */
  function DayStep(ed: Edition, c: Cron, since: DateTime, r: Result, sinceBit: int, fromScratch: bool): Transition
  {
    var day := Date(r.year, r.month, sinceBit + 1);
    if !ValidDate(day) then Fault
    else
      var w := WdaySelector(c, day);
      if w.AnyDay? then PinDay(since, r, sinceBit, fromScratch)
      else if w.NoMatch? then FinishFailed()
      else
        var cp := CycleSelector(ed, c, day);
        if cp.Crash? then Fault
        else if cp.AnyDay? then PinDay(since, r, sinceBit, fromScratch)
        else if cp.NoMatch? then FinishFailed()
        else
          var m := MdaySelector(c, r, sinceBit);
          if m.AnyDay? then PinDay(since, r, sinceBit, fromScratch)
          else if m.NoMatch? then FinishFailed()
          else if m.TooShort? && (ed == AsWritten || Nearest(w, cp, m).None?) then SkipMonth(r, day)
          else
            match Nearest(w, cp, m)
            case None => FinishFailed()
            case Some(d) => MoveBy(since, r, day, d, fromScratch)
  }

  /** No admitted day in a short month: search the next month from its start. */
  function SkipMonth(r: Result, day: Date): Transition
  {
    var next := PlusOneMonth(day);
    if r.year != next.year then Send(YearField, next.year, true, r)
    else Send(MonthField, next.month - 1, true, r)
  }

  /**
   Move `d` days forward from `day`: re-resolve the year or the month when
   the chosen day lies in another one, otherwise pin the day and go on to
   the hour, from scratch unless the day is still the reference day.
   */
  function MoveBy(since: DateTime, r: Result, day: Date, d: nat, fromScratch: bool): Transition
  {
    var chosen := PlusDays(day, d);
    if chosen.year > r.year then Send(YearField, chosen.year, true, r)
    else if chosen.month != r.month then Send(MonthField, chosen.month - 1, true, r)
    else
      var scratch := fromScratch || chosen.day != since.date.day;
      Send(HourField, if scratch then 0 else since.hour, scratch, r.(day := chosen.day))
  }

  /**
   `updateHour(sinceBit, isFromScratch)`. As corrected, a forward search
   from a later hour that finds nothing carries to the next day instead of
   failing; the source only reaches that case through the corrected minute carry.
   */
  function HourStep(ed: Edition, c: Cron, since: DateTime, r: Result, sinceBit: int, fromScratch: bool): Transition
  {
    if c.hour == AnyValue then
      Send(MinuteField, if fromScratch then 0 else since.minute, fromScratch, r.(hour := sinceBit))
    else if fromScratch then
      match GetNext(c.hour, sinceBit, 24, false)
      case None => if ed == Corrected && sinceBit != 0 then NextDayCarry(r) else FinishFailed()
      case Some(p) => Send(MinuteField, 0, true, r.(hour := p.0))
    else
      match GetNext(c.hour, sinceBit, 24, true)
      case None => FinishFailed()
      case Some(p) =>
        if p.0 < sinceBit then NextDayCarry(r)
        else if p.0 == sinceBit then Send(MinuteField, since.minute, false, r.(hour := p.0))
        else Send(MinuteField, 0, true, r.(hour := p.0))
  }

  /**
   `updateMinute(sinceMinute, isFromScratch)`. When the cron minute lies
   before the reference minute, the next hour is tried. As written, a next
   hour on the same day re-resolves the day from scratch; as corrected, it
   re-resolves the hour from that next hour.
   */
  function MinuteStep(ed: Edition, c: Cron, since: DateTime, r: Result, sinceMinute: int, fromScratch: bool): Transition
  {
    if c.minute == AnyValue then FinishFound(ed, since, r.(minute := sinceMinute))
    else if c.minute >= sinceMinute || fromScratch then FinishFound(ed, since, r.(minute := c.minute))
    else
      var top := DateTime(Day(r), r.hour, 0);
      if !ValidDateTime(top) then Fault
      else
        var next := PlusOneHour(top);
        if ed == Corrected && next.date == top.date then Send(HourField, next.hour, true, r)
        else CarryTo(r, next.date)
  }

  /** One message handled: the dispatch of `handleUpdateMsgLoop`. Finished reports `null` for year 0. */
  function Step(ed: Edition, c: Cron, since: DateTime, m: Machine): Transition
  {
    var r := m.result;
    match m.msg.which
    case YearField => YearStep(c, since, r, m.msg.since, m.msg.fromScratch)
    case MonthField => MonthStep(c, since, r, m.msg.since, m.msg.fromScratch)
    case DayField => DayStep(ed, c, since, r, m.msg.since, m.msg.fromScratch)
    case HourField => HourStep(ed, c, since, r, m.msg.since, m.msg.fromScratch)
    case MinuteField => MinuteStep(ed, c, since, r, m.msg.since, m.msg.fromScratch)
    case Finished => Report(if r.year == 0 then None else Some(r))
  }

  /** The first message: resolve the year from the reference year. */
  function Initial(since: DateTime): Machine
  {
    Machine(Msg(YearField, since.date.year, false), Cleared)
  }

  /**
   The message loop: hand the pending message to `step` until it reports,
   throws, or `fuel` messages have been handled.
   */
  function Drive(step: Machine -> Transition, m: Machine, fuel: nat): (o: Outcome)
    ensures o != Invalid
    decreases fuel
  {
    if fuel == 0 then OutOfFuel
    else
      match step(m)
      case Next(m') => Drive(step, m', fuel - 1)
      case Report(found) => Resolved(found)
      case Fault => Thrown
  }

  /** The message loop over the handlers of `Step`. */
  function Run(ed: Edition, c: Cron, since: DateTime, m: Machine, fuel: nat): Outcome
  {
    Drive(m' => Step(ed, c, since, m'), m, fuel)
  }

  /** `getNext(sinceDateTime, onFinished)`: validate, then run the cascade from the year. */
  function Resolve(ed: Edition, c: Cron, since: DateTime, fuel: nat): (o: Outcome)
    ensures o == Invalid <==> !CheckValid(ed, c)
  {
    if !CheckValid(ed, c) then Invalid else Run(ed, c, since, Initial(since), fuel)
  }
}

=== FILE: engine_proofs.dfy ===
/**
 What the resolution engine guarantees. With the minute carry corrected,
 every message in flight describes a search that cannot reach back before
 the reference instant, so a reported result is a valid instant not before
 the reference, its distance is the true number of minutes to it, and it
 matches every field of the recurrence.
 */
module EngineProofs {
  import opened Wrappers
  import opened KotlinInt
  import opened Dates
  import opened CronHelper
  import opened JavaTime
  import opened CronModel
  import opened Matcher
  import opened CalendarProofs
  import opened Engine
  import opened MatchProofs

  /** A year search from `i`: the reference year itself, or a later year once the search starts from scratch. */
  predicate YearAhead(since: DateTime, i: int, fs: bool)
  {
    if fs then i > since.date.year else i == since.date.year
  }

  /** A month search from index `i` of the result's year. */
  predicate MonthAhead(since: DateTime, r: Result, i: int, fs: bool)
  {
    if fs then r.year > since.date.year || (r.year == since.date.year && i + 1 > since.date.month)
    else r.year == since.date.year && i == since.date.month - 1
  }

  /** A day search from index `i` of the result's month. */
  predicate DayAhead(since: DateTime, r: Result, i: int, fs: bool)
  {
    if fs then DateBefore(since.date, Date(r.year, r.month, i + 1))
    else r.year == since.date.year && r.month == since.date.month && i == since.date.day - 1
  }

  /** An hour search from hour `i` of the result's day. */
  predicate HourAhead(since: DateTime, r: Result, i: int, fs: bool)
  {
    if fs then DateBefore(since.date, Day(r)) || (Day(r) == since.date && i > since.hour)
    else Day(r) == since.date && i == since.hour
  }

  /** A minute search from minute `i` of the result's hour. */
  predicate MinuteAhead(since: DateTime, r: Result, i: int, fs: bool)
  {
    if fs then DateBefore(since.date, Day(r)) || (Day(r) == since.date && r.hour > since.hour)
    else Day(r) == since.date && r.hour == since.hour && i == since.minute
  }

  /** A result about to be reported: a valid instant not before the reference, at its distance from it. */
  predicate Settled(since: DateTime, r: Result)
  {
    r.year != 0 ==>
      && ValidDateTime(Instant(r))
      && NotBefore(Instant(r), since)
      && r.distanceMinutes == DiffDateTimeSigned(since, Instant(r))
  }

  /** The invariant of the machine: the pending search never starts before the reference. */
  predicate Ahead(since: DateTime, m: Machine)
  {
    var r, i, fs := m.result, m.msg.since, m.msg.fromScratch;
    match m.msg.which
    case YearField => YearAhead(since, i, fs)
    case MonthField => MonthAhead(since, r, i, fs)
    case DayField => DayAhead(since, r, i, fs)
    case HourField => HourAhead(since, r, i, fs)
    case MinuteField => MinuteAhead(since, r, i, fs)
    case Finished => Settled(since, r)
  }

  /** A handler's transition keeps the invariant, and a reported result is settled. */
  predicate Advances(since: DateTime, t: Transition)
  {
    && (t.Next? ==> Ahead(since, t.machine))
    && (t.Report? && t.found.Some? ==> t.found.value.year != 0 && Settled(since, t.found.value))
  }

  /** Carrying from a day not before the reference to a later date keeps the invariant. */
  lemma CarryAhead(since: DateTime, r: Result, next: Date)
    requires !DateBefore(Day(r), since.date) && DateBefore(Day(r), next)
    ensures CarryTo(r, next).Next? && Advances(since, CarryTo(r, next))
  {
  }

  lemma NextDayCarryAhead(since: DateTime, r: Result)
    requires !DateBefore(Day(r), since.date)
    ensures Advances(since, NextDayCarry(r))
  {
    if ValidDate(Day(r)) {
      CarryAhead(since, r, NextDay(Day(r)));
    }
  }

  lemma YearStepAhead(c: Cron, since: DateTime, r: Result, i: int, fs: bool)
    requires YearAhead(since, i, fs)
    ensures YearStep(c, since, r, i, fs).Next? && Advances(since, YearStep(c, since, r, i, fs))
  {
  }

  lemma MonthStepAhead(c: Cron, since: DateTime, r: Result, i: int, fs: bool)
    requires ValidDate(since.date) && MonthAhead(since, r, i, fs)
    ensures MonthStep(c, since, r, i, fs).Next? && Advances(since, MonthStep(c, since, r, i, fs))
  {
    if c.month != AnyValue && !fs {
      var p := GetNext(c.month, i, 12, true);
      if p.Some? && p.value.1 == 0 {
        assert p.value.0 == i by {
          WrapIndex(i, 0, 12);
        }
      }
    }
  }

  lemma SkipMonthAhead(since: DateTime, r: Result, i: int, fs: bool)
    requires DayAhead(since, r, i, fs) && ValidDate(Date(r.year, r.month, i + 1))
    ensures Advances(since, SkipMonth(r, Date(r.year, r.month, i + 1)))
  {
  }

  lemma MoveByAhead(since: DateTime, r: Result, i: int, d: nat, fs: bool)
    requires DayAhead(since, r, i, fs) && ValidDate(Date(r.year, r.month, i + 1))
    ensures Advances(since, MoveBy(since, r, Date(r.year, r.month, i + 1), d, fs))
  {
    var day := Date(r.year, r.month, i + 1);
    EpochOrder(PlusDays(day, d), day);
  }

  lemma DayStepAhead(c: Cron, since: DateTime, r: Result, i: int, fs: bool)
    requires DayAhead(since, r, i, fs)
    ensures Advances(since, DayStep(Corrected, c, since, r, i, fs))
  {
    var day := Date(r.year, r.month, i + 1);
    var t := DayStep(Corrected, c, since, r, i, fs);
    if ValidDate(day) {
      var w, cp, m := WdaySelector(c, day), CycleSelector(Corrected, c, day), MdaySelector(c, r, i);
      if w.AnyDay? || w.NoMatch? || cp.Crash? || cp.AnyDay? || cp.NoMatch? || m.AnyDay? || m.NoMatch? {
      } else if m.TooShort? && Nearest(w, cp, m).None? {
        SkipMonthAhead(since, r, i, fs);
        assert t == SkipMonth(r, day);
      } else if Nearest(w, cp, m).Some? {
        MoveByAhead(since, r, i, Nearest(w, cp, m).value, fs);
        assert t == MoveBy(since, r, day, Nearest(w, cp, m).value, fs);
      }
    }
  }

  lemma HourStepAhead(c: Cron, since: DateTime, r: Result, i: int, fs: bool)
    requires ValidDateTime(since) && HourAhead(since, r, i, fs)
    ensures Advances(since, HourStep(Corrected, c, since, r, i, fs))
  {
    if c.hour != AnyValue {
      if fs {
        NextDayCarryAhead(since, r);
      } else {
        var p := GetNext(c.hour, i, 24, true);
        if p.Some? && p.value.0 < i {
          NextDayCarryAhead(since, r);
        }
      }
    }
  }

  /** Within a day, the hour after `top` is the next hour; otherwise it falls on the next day. */
  lemma NextHourAdvances(top: DateTime)
    ensures var next := PlusOneHour(top);
      if next.date == top.date then next.hour == top.hour + 1 else DateBefore(top.date, next.date)
  {
  }

  lemma FinishFoundAhead(since: DateTime, r: Result)
    requires NotBefore(Instant(r), since)
    ensures Advances(since, FinishFound(Corrected, since, r))
  {
  }

  lemma MinuteStepAhead(c: Cron, since: DateTime, r: Result, i: int, fs: bool)
    requires MinuteAhead(since, r, i, fs)
    ensures Advances(since, MinuteStep(Corrected, c, since, r, i, fs))
  {
    if c.minute == AnyValue {
      FinishFoundAhead(since, r.(minute := i));
    } else if c.minute >= i || fs {
      FinishFoundAhead(since, r.(minute := c.minute));
    } else {
      var top := DateTime(Day(r), r.hour, 0);
      NextHourAdvances(top);
      var next := PlusOneHour(top);
      if next.date != top.date {
        CarryAhead(since, r, next.date);
      }
    }
  }

  /**
   One handler run of the corrected engine keeps the invariant, and a
   reported result is settled.
   */
  lemma StepAhead(c: Cron, since: DateTime, m: Machine)
    requires ValidDateTime(since) && Ahead(since, m)
    ensures Advances(since, Step(Corrected, c, since, m))
  {
    var r, i, fs := m.result, m.msg.since, m.msg.fromScratch;
    var t := Step(Corrected, c, since, m);
    match m.msg.which
    case YearField =>
      YearStepAhead(c, since, r, i, fs);
      assert t == YearStep(c, since, r, i, fs);
    case MonthField =>
      MonthStepAhead(c, since, r, i, fs);
      assert t == MonthStep(c, since, r, i, fs);
    case DayField =>
      DayStepAhead(c, since, r, i, fs);
      assert t == DayStep(Corrected, c, since, r, i, fs);
    case HourField =>
      HourStepAhead(c, since, r, i, fs);
      assert t == HourStep(Corrected, c, since, r, i, fs);
    case MinuteField =>
      MinuteStepAhead(c, since, r, i, fs);
      assert t == MinuteStep(Corrected, c, since, r, i, fs);
    case Finished =>
  }

  /** A run that reports a result reports a settled one. */
  predicate RunSettled(since: DateTime, o: Outcome)
  {
    o.Resolved? && o.found.Some? ==> o.found.value.year != 0 && Settled(since, o.found.value)
  }

  lemma RunAhead(c: Cron, since: DateTime, m: Machine, fuel: nat)
    requires ValidDateTime(since) && Ahead(since, m)
    ensures RunSettled(since, Run(Corrected, c, since, m, fuel))
  {
    var step := m' => Step(Corrected, c, since, m');
    forall m' | Ahead(since, m')
      ensures Advances(since, step(m'))
    {
      StepAhead(c, since, m');
    }
    DriveKeepsInvariant(step, (m': Machine) => Ahead(since, m'), (r: Result) => r.year != 0 && Settled(since, r), m, fuel);
  }

  /**
   The corrected engine never answers before the reference: a result is a
   valid instant not before `since`, and its distance is the number of
   minutes from `since` to it, which is never negative.
   */
  lemma CorrectedNeverEarly(c: Cron, since: DateTime, fuel: nat)
    requires ValidDateTime(since) && since.date.year >= 1
    ensures var o := Resolve(Corrected, c, since, fuel);
      o.Resolved? && o.found.Some? ==>
        var r := o.found.value;
        && ValidDateTime(Instant(r))
        && NotBefore(Instant(r), since)
        && r.distanceMinutes == MinuteStamp(Instant(r)) - MinuteStamp(since)
        && r.distanceMinutes >= 0
        && Matches(c, r)
        && (c.minute != AnyValue ==> r.minute == c.minute)
  {
    ResultsMatch(Corrected, c, since, fuel);
    if CheckValid(Corrected, c) {
      RunAhead(c, since, Initial(since), fuel);
      var o := Resolve(Corrected, c, since, fuel);
      if o.Resolved? && o.found.Some? {
        var r := o.found.value;
        SignedDiffIsMinuteDifference(since, Instant(r));
        DiffDateTimeIsMinuteDifference(since, Instant(r));
      }
    }
  }

  /**
   A recurrence pinned to a year before the reference year has no next
   instant: the year step finishes with an error and the answer is null.
   */
  lemma EarlierYearAnswersNull(ed: Edition, c: Cron, since: DateTime, fuel: nat)
    requires c.year != AnyYear && c.year < since.date.year
    requires CheckValid(ed, c) && fuel >= 2
    ensures Resolve(ed, c, since, fuel) == Resolved(None)
  {
    var done := Machine(Msg(Finished, 0, false), Cleared);
    assert Step(ed, c, since, Initial(since)) == Next(done);
    assert Run(ed, c, since, done, fuel - 1) == Resolved(None);
  }
}

=== FILE: java_time.dfy ===
/**
 The parts of `java.time` the cron engine calls, rebuilt on the proleptic
 ISO calendar: month lengths, a day count from 0001-01-01, the day of the
 week with Monday = 0, `plusDays`, `plusMonths(1)` and `plusHours(1)`.
 Unlike `CronHelper.DaysInMonth`, nothing here clamps years up to 0.
 */
module JavaTime {
  import opened KotlinInt
  import opened Dates
  import opened CronHelper

  /** `YearMonth.lengthOfMonth()` for a 1-based month. */
  function MonthLength(year: int, month: int): (r: int)
    ensures 28 <= r <= 31
  {
    if month == 2 then (if IsLeap(year) then 29 else 28)
    else if month == 4 || month == 6 || month == 9 || month == 11 then 30
    else 31
  }

  /** What `LocalDate.of` accepts (the year range is not modelled). */
  predicate ValidDate(d: Date)
  {
    1 <= d.month <= 12 && 1 <= d.day <= MonthLength(d.year, d.month)
  }

  /** What `LocalDateTime.of` accepts with zero seconds. */
  predicate ValidDateTime(t: DateTime)
  {
    ValidDate(t.date) && 0 <= t.hour < 24 && 0 <= t.minute < 60
  }

  /** The sum of `MonthLength(year, i)` over the 1-based months i in [lo, hi). */
  function MonthLengthSum(year: int, lo: int, hi: int): (r: int)
    ensures lo < hi ==> 28 * (hi - lo) <= r <= 31 * (hi - lo)
    ensures lo >= hi ==> r == 0
    decreases hi - lo
  {
    if lo >= hi then 0 else MonthLength(year, lo) + MonthLengthSum(year, lo + 1, hi)
  }

  /** The days of all years before `year`, counted from year 1 (negative for years before 1). */
  function DaysBeforeYear(year: int): int
  {
    var p := year - 1;
    365 * p + p / 4 - p / 100 + p / 400
  }

  /** The ordinal of a date within its year, 1 for January 1. */
  function DayOfYear(d: Date): int
  {
    MonthLengthSum(d.year, 1, d.month) + d.day
  }

  /** Days since 0000-12-31: 0001-01-01 is day 1. */
  function EpochDay(d: Date): int
  {
    DaysBeforeYear(d.year) + DayOfYear(d)
  }

  /** `date.dayOfWeek.ordinal`: Monday = 0 ... Sunday = 6; 0001-01-01 was a Monday. */
  function DayOfWeek(d: Date): (r: int)
    ensures 0 <= r < 7
  {
    (EpochDay(d) - 1) % 7
  }

  /** The calendar day after `d`. */
  function NextDay(d: Date): Date
  {
    if d.day < MonthLength(d.year, d.month) then Date(d.year, d.month, d.day + 1)
    else if d.month < 12 then Date(d.year, d.month + 1, 1)
    else Date(d.year + 1, 1, 1)
  }

  /** `plusDays(n)` for a non-negative n. */
  function PlusDays(d: Date, n: nat): (r: Date)
    ensures ValidDate(d) ==> ValidDate(r) && EpochDay(r) == EpochDay(d) + n
    decreases n
  {
    if n == 0 then d
    else
      if ValidDate(d) then NextDayEpoch(d); PlusDays(NextDay(d), n - 1)
      else PlusDays(NextDay(d), n - 1)
  }

  /** `plusMonths(1)`: the same day of the following month, pulled back to that month's last day. */
  function PlusOneMonth(d: Date): (r: Date)
    ensures ValidDate(d) ==> ValidDate(r)
    ensures r.year * 12 + r.month == d.year * 12 + d.month + 1 || !ValidDate(d)
    ensures ValidDate(d) ==> r.day <= d.day && (r.day == d.day || r.day == MonthLength(r.year, r.month))
  {
    if d.month >= 12 then Date(d.year + 1, 1, if d.day < 31 then d.day else 31)
    else
      var len := MonthLength(d.year, d.month + 1);
      Date(d.year, d.month + 1, if d.day < len then d.day else len)
  }

  /** Minutes since 0000-12-31 00:00. */
  function MinuteStamp(t: DateTime): int
  {
    EpochDay(t.date) * 1440 + t.hour * 60 + t.minute
  }

  /** `plusHours(1)`: the next hour, rolling over to the next day after 23. */
  function PlusOneHour(t: DateTime): (r: DateTime)
    ensures ValidDateTime(t) ==> ValidDateTime(r) && MinuteStamp(r) == MinuteStamp(t) + 60
  {
    if t.hour < 23 then DateTime(t.date, t.hour + 1, t.minute)
    else
      if ValidDate(t.date) then NextDayEpoch(t.date); DateTime(NextDay(t.date), 0, t.minute)
      else DateTime(NextDay(t.date), 0, t.minute)
  }

  /** Adding one month's length to the sum of the months before it. */
  lemma {:induction false} MonthLengthSumSnoc(year: int, lo: int, hi: int)
    requires lo <= hi
    ensures MonthLengthSum(year, lo, hi + 1) == MonthLengthSum(year, lo, hi) + MonthLength(year, hi)
    decreases hi - lo
  {
    if lo < hi {
      MonthLengthSumSnoc(year, lo + 1, hi);
    }
  }

  /** The twelve months of a year add up to its length. */
  lemma MonthLengthSumYear(year: int)
    ensures MonthLengthSum(year, 1, 13) == YearLength(year)
  {
    assert MonthLengthSum(year, 13, 13) == 0;
    assert MonthLengthSum(year, 12, 13) == 31;
    assert MonthLengthSum(year, 11, 13) == 61;
    assert MonthLengthSum(year, 10, 13) == 92;
    assert MonthLengthSum(year, 9, 13) == 122;
    assert MonthLengthSum(year, 8, 13) == 153;
    assert MonthLengthSum(year, 7, 13) == 184;
    assert MonthLengthSum(year, 6, 13) == 214;
    assert MonthLengthSum(year, 5, 13) == 245;
    assert MonthLengthSum(year, 4, 13) == 275;
    assert MonthLengthSum(year, 3, 13) == 306;
  }

  /** One year's worth of days separates the starts of consecutive years. */
  lemma DaysBeforeNextYear(year: int)
    ensures DaysBeforeYear(year + 1) == DaysBeforeYear(year) + YearLength(year)
  {
    DivStep(year, 4);
    DivStep(year, 100);
    DivStep(year, 400);
    DivisibilityChain(year);
  }

  lemma DivStep(y: int, k: int)
    requires k > 0
    ensures y / k - (y - 1) / k == (if y % k == 0 then 1 else 0)
  {
    var q, r := (y - 1) / k, (y - 1) % k;
    if r + 1 == k {
      DivModUnique(y, k, q + 1, 0);
    } else {
      DivModUnique(y, k, q, r + 1);
    }
  }

  lemma DivisibilityChain(y: int)
    ensures y % 400 == 0 ==> y % 100 == 0
    ensures y % 100 == 0 ==> y % 4 == 0
  {
    if y % 400 == 0 {
      DivModUnique(y, 100, 4 * (y / 400), 0);
    }
    if y % 100 == 0 {
      DivModUnique(y, 4, 25 * (y / 100), 0);
    }
  }

  /** The day after a valid date is valid and one day later. */
  lemma NextDayEpoch(d: Date)
    requires ValidDate(d)
    ensures ValidDate(NextDay(d)) && EpochDay(NextDay(d)) == EpochDay(d) + 1
  {
    if d.day < MonthLength(d.year, d.month) {
    } else if d.month < 12 {
      NextMonthEpoch(d);
    } else {
      NextYearEpoch(d);
    }
  }

  lemma NextMonthEpoch(d: Date)
    requires ValidDate(d) && d.day == MonthLength(d.year, d.month) && d.month < 12
    ensures EpochDay(Date(d.year, d.month + 1, 1)) == EpochDay(d) + 1
  {
    MonthLengthSumSnoc(d.year, 1, d.month);
  }

  lemma NextYearEpoch(d: Date)
    requires ValidDate(d) && d.day == 31 && d.month == 12
    ensures EpochDay(Date(d.year + 1, 1, 1)) == EpochDay(d) + 1
  {
    LastDayOfYear(d);
    NewYearEpoch(d.year);
  }

  lemma LastDayOfYear(d: Date)
    requires ValidDate(d) && d.day == 31 && d.month == 12
    ensures DayOfYear(d) == YearLength(d.year)
  {
    MonthLengthSumSnoc(d.year, 1, 12);
    MonthLengthSumYear(d.year);
  }

  lemma NewYearEpoch(year: int)
    ensures EpochDay(Date(year + 1, 1, 1)) == DaysBeforeYear(year) + YearLength(year) + 1
  {
    DaysBeforeNextYear(year);
  }
}

=== FILE: kotlin_int.dfy ===
/**
 Integer semantics of the Kotlin/JVM operators the cron source relies on.
 Dafny's `int` is unbounded and its `/` and `%` are Euclidean; Kotlin's `%`
 truncates toward zero and `shl` takes its distance modulo 32.
 */
module KotlinInt {

  /** The bounds of a 32-bit Kotlin `Int`. */
  const IntMin: int := -0x8000_0000
  const IntMax: int := 0x7FFF_FFFF

  /** 2 to the power n, by squaring so that constant powers unfold quickly. */
  function Pow2(n: nat): (r: nat)
    ensures r >= 1
  {
    if n == 0 then 1
    else if n % 2 == 0 then Pow2(n / 2) * Pow2(n / 2)
    else 2 * Pow2(n - 1)
  }

  /** Each further power doubles. */
  lemma {:induction false} Pow2Succ(n: nat)
    ensures Pow2(n + 1) == 2 * Pow2(n)
    decreases n
  {
    if n % 2 == 1 {
      var h := (n + 1) / 2;
      assert n + 1 == 2 * h && n - 1 == 2 * (h - 1);
      Pow2Succ(h - 1);
      var q := Pow2(h - 1);
      var p := Pow2(h);
      assert p == 2 * q;
      assert Pow2(n + 1) == p * p by {
        assert (n + 1) % 2 == 0 && (n + 1) / 2 == h;
      }
      assert Pow2(n - 1) == q * q by {
        if h - 1 > 0 {
          assert (n - 1) % 2 == 0 && (n - 1) / 2 == h - 1;
        }
      }
      assert Pow2(n) == 2 * (q * q);
      assert p * p == 2 * (2 * (q * q));
    }
  }

  /** The powers 2^0 to 2^31 written out: the value of each single-bit mask of an `Int`. */
  const PowerTable: seq<nat> := [
    1, 2, 4, 8, 0x10, 0x20, 0x40, 0x80, 0x100, 0x200, 0x400, 0x800, 0x1000, 0x2000, 0x4000, 0x8000,
    0x1_0000, 0x2_0000, 0x4_0000, 0x8_0000, 0x10_0000, 0x20_0000, 0x40_0000, 0x80_0000,
    0x100_0000, 0x200_0000, 0x400_0000, 0x800_0000, 0x1000_0000, 0x2000_0000, 0x4000_0000, 0x8000_0000]

  /** Each entry of the table doubles the one before it. */
  lemma TableDoubles(k: int)
    requires 1 <= k < 32
    ensures PowerTable[k] == 2 * PowerTable[k - 1]
  {
    if k < 9 {
      assert k in {1, 2, 3, 4, 5, 6, 7, 8};
    } else if k < 17 {
      assert k in {9, 10, 11, 12, 13, 14, 15, 16};
    } else if k < 25 {
      assert k in {17, 18, 19, 20, 21, 22, 23, 24};
    } else {
      assert k in {25, 26, 27, 28, 29, 30, 31};
    }
  }

  /** Every power of two below 2^32 is the table's entry. */
  lemma {:induction false} Pow2Listed(k: nat)
    requires k < 32
    ensures Pow2(k) == PowerTable[k]
  {
    if k > 0 {
      Pow2Listed(k - 1);
      ListedStep(k, Pow2(k - 1));
    }
  }

  lemma ListedStep(k: nat, p: nat)
    requires 1 <= k < 32 && p == Pow2(k - 1) && p == PowerTable[k - 1]
    ensures Pow2(k) == PowerTable[k]
  {
    Pow2Succ(k - 1);
    TableDoubles(k);
  }

  /** Kotlin's `a % b`: the remainder of truncating division, carrying the sign of `a`. */
  function Rem(a: int, b: int): (r: int)
    requires b != 0
    ensures a >= 0 ==> r >= 0
    ensures a <= 0 ==> r <= 0
    ensures b > 0 ==> -b < r < b
    ensures b < 0 ==> b < r < -b
  {
    var m := if b < 0 then -b else b;
    if a >= 0 then a % m else -((-a) % m)
  }

  /** Kotlin's `1 shl n` on an `Int`: the distance is taken modulo 32, and a shift onto bit 31 gives the sign bit. */
  function ShlOne(n: int): (r: int)
    ensures r != 0
    ensures r < 0 <==> n % 32 == 31
  {
    var k := n % 32;
    if k == 31 then IntMin else Pow2(k)
  }

  /** Division and remainder are determined by any decomposition with a remainder in range. */
  lemma DivModUnique(x: int, d: int, q: int, r: int)
    requires d > 0 && x == q * d + r && 0 <= r < d
    ensures x / d == q && x % d == r
  {
    var q', r' := x / d, x % d;
    assert x == q' * d + r';
    if q > q' {
      assert (q - q') * d == r' - r;
      MulAtLeast(q - q', d);
    } else if q < q' {
      assert (q' - q) * d == r - r';
      MulAtLeast(q' - q, d);
    }
  }

  lemma MulAtLeast(k: int, d: int)
    requires k >= 1 && d > 0
    ensures k * d >= d
  {
    assert k * d == (k - 1) * d + d;
    assert (k - 1) * d >= 0;
  }

  /** On a non-negative dividend and a positive divisor, Kotlin's `%` agrees with Dafny's. */
  lemma RemNonNegative(a: int, b: int)
    requires a >= 0 && b > 0
    ensures Rem(a, b) == a % b
  {
  }

  /**
   The truncating remainder differs from the Euclidean one by a multiple of the
   divisor and lies strictly between minus and plus the divisor.
   */
  lemma RemCongruent(a: int, b: int)
    requires b > 0
    ensures -b < Rem(a, b) < b
    ensures Rem(a, b) < 0 ==> Rem(a, b) + b == a % b
    ensures Rem(a, b) >= 0 ==> Rem(a, b) == a % b
  {
    if a < 0 {
      var t := (-a) % b;
      var q := (-a) / b;
      assert -a == q * b + t;
      if t != 0 {
        // a == (-q - 1) * b + (b - t) with 0 <= b - t < b
        DivModUnique(a, b, -q - 1, b - t);
      } else {
        DivModUnique(a, b, -q, 0);
      }
    }
  }
}

=== FILE: mask_proofs.dfy ===
/** What CronHelper's bit test means for the masks a cron specification carries. */
module MaskProofs {
  import opened KotlinInt
  import opened CronHelper

  /**
   `isBitSet(bits, b)` holds exactly when the remainder of `bits` modulo
   2^(k+1) reaches 2^k, k being b modulo 32: the usual reading of "bit k of
   bits is 1" for a two's complement number.
   */
  lemma BitSetIffRemainder(bits: int, b: int)
    ensures var k := b % 32; IsBitSet(bits, b) <==> bits % Pow2(k + 1) >= Pow2(k)
  {
    var k := b % 32;
    Pow2Succ(k);
    QuotientParity(bits, Pow2(k));
  }

  /** The parity of bits / p decides whether the remainder modulo 2p reaches p. */
  lemma QuotientParity(bits: int, p: int)
    requires p > 0
    ensures (bits / p) % 2 == 1 <==> bits % (2 * p) >= p
  {
    var q, r := bits / p, bits % p;
    assert bits == q * p + r;
    var h, t := q / 2, q % 2;
    assert q == 2 * h + t;
    assert bits == h * (2 * p) + (t * p + r) by {
      assert q * p == (2 * h + t) * p == h * (2 * p) + t * p;
    }
    assert 0 <= t * p + r < 2 * p by {
      assert t == 0 || t == 1;
    }
    DivModUnique(bits, 2 * p, h, t * p + r);
  }

  lemma Pow2Monotone(m: nat, n: nat)
    requires m <= n
    ensures Pow2(m) <= Pow2(n)
  {
    if m < n {
      Pow2Monotone(m, n - 1);
      Pow2Succ(n - 1);
    }
  }

  /** A non-negative value below 2^n has no bit set at positions n to 31. */
  lemma BitsAboveBoundClear(x: int, n: nat, k: int)
    requires 0 <= x < Pow2(n) && n <= k < 32
    ensures !IsBitSet(x, k)
  {
    Pow2Monotone(n, k);
    DivModUnique(x, Pow2(k), 0, x);
  }

  /** 2^k has bit k set, for every bit position of a 32-bit value. */
  lemma SingleBitSet(k: int)
    requires 0 <= k < 32
    ensures IsBitSet(Pow2(k), k)
  {
    assert k % 32 == k;
    var p := Pow2(k);
    DivModUnique(p, p, 1, 0);
    assert p / p == 1;
  }

  /** Powers of two multiply by adding exponents. */
  lemma {:induction false} Pow2Add(a: nat, b: nat)
    ensures Pow2(a + b) == Pow2(a) * Pow2(b)
    decreases b
  {
    if b > 0 {
      Pow2Add(a, b - 1);
      Pow2Succ(a + b - 1);
      Pow2Succ(b - 1);
      Regroup(Pow2(a), Pow2(b - 1), Pow2(a + b - 1), Pow2(b), Pow2(a + b));
    }
  }

  lemma Regroup(p: int, q: int, x: int, y: int, z: int)
    requires x == p * q && y == 2 * q && z == 2 * x
    ensures z == p * y
  {
  }

  /** 2^k has every bit below k clear: bit k is its only bit. */
  lemma SingleBitOnly(k: int, j: int)
    requires 0 <= j < k < 32
    ensures !IsBitSet(Pow2(k), j)
  {
    var m := Pow2(k - j - 1);
    Pow2Add(j, k - j);
    Pow2Succ(k - j - 1);
    assert Pow2(k) == Pow2(j) * (2 * m);
    assert Pow2(k) == (2 * m) * Pow2(j) + 0;
    DivModUnique(Pow2(k), Pow2(j), 2 * m, 0);
  }

  /** Below 2^(j+1), a value whose bit j is clear is below 2^j. */
  lemma ClearBitStepDown(x: int, j: int)
    requires 0 <= j < 32 && 0 <= x < Pow2(j + 1) && !IsBitSet(x, j)
    ensures x < Pow2(j)
  {
    Pow2Succ(j);
    var p := Pow2(j);
    if x >= p {
      DivModUnique(x, p, 1, x - p);
    }
  }

  /**
   A non-negative value below 2^k whose bits n to k - 1 are all clear is
   below 2^n: the converse of BitsAboveBoundClear.
   */
  lemma {:induction false} ClearBitsBelow(x: int, n: nat, k: nat)
    requires n <= k <= 32 && 0 <= x < Pow2(k)
    requires forall j :: n <= j < k ==> !IsBitSet(x, j)
    ensures x < Pow2(n)
    decreases k - n
  {
    if n < k {
      ClearBitStepDown(x, k - 1);
      ClearBitsBelow(x, n, k - 1);
    }
  }
}

=== FILE: match_proofs.dfy ===
/**
 What a reported result satisfies. Each handler pins one field of the
 result from the cron's masks and never touches a coarser field again, so
 a result that reaches Finished admits every field of the recurrence: its
 year, month and hour are set bits or "any", its day is admitted by one of
 the configured day selectors, and its minute is the cron's minute. This
 holds for both editions.
 */
module MatchProofs {
  import opened Wrappers
  import opened KotlinInt
  import opened Dates
  import opened CronHelper
  import opened JavaTime
  import opened CronModel
  import opened Matcher
  import opened CalendarProofs
  import opened MaskProofs
  import opened Engine

  /**
   The fields a pending message leaves alone already match the cron: the
   year before the month search, the month before the day search, the day
   before the hour search and the hour before the minute search. The year
   searched for, and every year pinned, is from year 1 on.
   */
  predicate Fits(c: Cron, m: Machine)
  {
    var r := m.result;
    match m.msg.which
    case YearField => m.msg.since >= 1
    case MonthField => r.year >= 1 && YearMatches(c, r.year)
    case DayField => r.year >= 1 && YearMatches(c, r.year) && MonthMatches(c, r.month)
    case HourField =>
      r.year >= 1 && YearMatches(c, r.year) && MonthMatches(c, r.month) && DayMatches(c, Day(r))
    case MinuteField =>
      r.year >= 1 && YearMatches(c, r.year) && MonthMatches(c, r.month) && DayMatches(c, Day(r))
      && HourMatches(c, r.hour)
    case Finished => r.year != 0 ==> Matches(c, r)
  }

  /** A transition that continues in a fitting state, or reports nothing or a matching result. */
  predicate Keeps(c: Cron, t: Transition)
  {
    && (t.Next? ==> Fits(c, t.machine))
    && (t.Report? && t.found.Some? ==> Matches(c, t.found.value))
  }

  /** The weekday the weekday selector moves to is one its mask admits. */
  lemma WdayLands(c: Cron, day: Date, n: nat)
    requires ValidDate(day) && WdaySelector(c, day) == Distance(n)
    ensures WdayAdmits(c, PlusDays(day, n))
  {
    var dow := DayOfWeek(day);
    WdaySearched(c, day, n);
    DayOfWeekShift(day, n);
    RemNonNegative(dow + n, 7);
  }

  /** A weekday distance n comes from a configured mask whose bit n places after the day's weekday is set. */
  lemma WdaySearched(c: Cron, day: Date, n: nat)
    requires WdaySelector(c, day) == Distance(n)
    ensures c.wday > 0 && c.wday != AnyValue
    ensures IsBitSet(c.wday, WrapBit(DayOfWeek(day), n, 7))
  {
    var g := GetNext(c.wday, DayOfWeek(day), 7, true);
    assert g.value.1 == n && IsBitSet(c.wday, g.value.0);
  }

  /** The day the custom-period selector moves to has its bit of the cycle set. */
  lemma CustomLands(c: Cron, day: Date, n: nat)
    requires ValidDate(day) && day.year >= 1 && CustomSelector(c, day) == Distance(n)
    ensures CustomAdmits(c, PlusDays(day, n))
  {
    var cp := c.customPeriod.value;
    var a, period := Anchor(cp), cp.period;
    var ph := Phase(a, day, period);
    var p := GetNext(cp.bits, ph, period, true).value;
    assert 0 <= p.1 < period;
    DiffDateShiftAnyAnchor(a, day, n);
    PhaseShift(a, day, PlusDays(day, n), period, n);
    assert IsBitSet(cp.bits, p.0);
  }

  /** Moving n days forward moves the phase n places around the cycle. */
  lemma PhaseShift(a: Date, day: Date, e: Date, period: int, n: nat)
    requires period > 0 && DiffDate(a, e) == DiffDate(a, day) + n
    ensures Phase(a, e, period) == WrapBit(Phase(a, day, period), n, period)
  {
    var x := DiffDate(a, day);
    ModShift(x, n, period);
    RemNonNegative(x % period + n, period);
  }

  /**
   The day the month-day selector moves to, when it stays in the month,
   is a day whose bit the month-day mask sets.
   */
  lemma MdayLands(c: Cron, r: Result, i: int, n: nat)
    requires r.year >= 1 && ValidDate(Date(r.year, r.month, i + 1))
    requires MdaySelector(c, r, i) == Distance(n)
    requires PlusDays(Date(r.year, r.month, i + 1), n).year <= r.year
    requires PlusDays(Date(r.year, r.month, i + 1), n).month == r.month
    ensures MdayAdmits(c, PlusDays(Date(r.year, r.month, i + 1), n))
  {
    var day := Date(r.year, r.month, i + 1);
    var e := PlusDays(day, n);
    DaysInMonthAgrees(r.year, r.month);
    var monthDays := DaysInMonth(r.year, r.month - 1);
    var p := GetNext(c.mday, i, monthDays, true).value;
    PlusDaysForward(day, n);
    SameMonthShift(day, n);
    WrapIndex(i, n, monthDays);
    assert IsBitSet(c.mday, p.0);
  }

  /** `updateYear` pins a year the cron admits, from year 1 on. */
  lemma YearStepFits(c: Cron, since: DateTime, r: Result, i: int, fs: bool)
    requires i >= 1
    ensures Keeps(c, YearStep(c, since, r, i, fs))
  {
  }

  /** `updateMonth` pins a month whose bit is set, or re-resolves a later year. */
  lemma MonthStepFits(c: Cron, since: DateTime, r: Result, i: int, fs: bool)
    requires r.year >= 1 && YearMatches(c, r.year)
    ensures Keeps(c, MonthStep(c, since, r, i, fs))
  {
    if c.month != AnyValue {
      if fs {
        MonthFromScratchFits(c, since, r, i);
      } else {
        MonthOnwardFits(c, since, r, i);
      }
    }
  }

  /** A from-scratch month search pins the first set month bit from `i`, or carries to a later year. */
  lemma MonthFromScratchFits(c: Cron, since: DateTime, r: Result, i: int)
    requires r.year >= 1 && YearMatches(c, r.year) && c.month != AnyValue
    ensures Keeps(c, MonthStep(c, since, r, i, true))
  {
    var g := GetNext(c.month, i, 12, false);
    if g.Some? {
      MonthPinned(c, r, g.value.0, g.value.0 + 1);
    }
  }

  /** A month search from the reference month pins a set month bit, or carries to a later year. */
  lemma MonthOnwardFits(c: Cron, since: DateTime, r: Result, i: int)
    requires r.year >= 1 && YearMatches(c, r.year) && c.month != AnyValue
    ensures Keeps(c, MonthStep(c, since, r, i, false))
  {
    var g := GetNext(c.month, i, 12, true);
    if g.Some? {
      MonthPinned(c, r, g.value.0, g.value.0 + 1);
    }
  }

  /** Pinning a month whose bit is set keeps the result fitting for the day search. */
  lemma MonthPinned(c: Cron, r: Result, bit: int, month: int)
    requires r.year >= 1 && YearMatches(c, r.year) && IsBitSet(c.month, bit) && month == bit + 1
    ensures MonthMatches(c, r.(month := month).month)
  {
  }

  /** A carry re-resolves a later year, or the month or day of the same result. */
  lemma CarryFits(c: Cron, r: Result, next: Date, which: Which)
    requires r.year >= 1 && YearMatches(c, r.year)
    requires which == DayField || which == HourField || which == MinuteField
    requires which != DayField ==> MonthMatches(c, r.month)
    requires which == DayField ==> next.year > r.year || next.month != r.month
    ensures Keeps(c, CarryTo(r, next))
  {
  }

  /** Moving to the day a selector chose keeps the year, pins an admitted day, or carries. */
  lemma MoveByFits(c: Cron, since: DateTime, r: Result, i: int, d: nat, fs: bool)
    requires r.year >= 1 && YearMatches(c, r.year) && MonthMatches(c, r.month)
    requires ValidDate(Date(r.year, r.month, i + 1))
    requires var day := Date(r.year, r.month, i + 1);
      || WdaySelector(c, day) == Distance(d)
      || CustomSelector(c, day) == Distance(d)
      || MdaySelector(c, r, i) == Distance(d)
    ensures Keeps(c, MoveBy(since, r, Date(r.year, r.month, i + 1), d, fs))
  {
    var day := Date(r.year, r.month, i + 1);
    var chosen := PlusDays(day, d);
    PlusDaysForward(day, d);
    if chosen.year <= r.year && chosen.month == r.month {
      assert Day(r.(day := chosen.day)) == chosen;
      if WdaySelector(c, day) == Distance(d) {
        WdayLands(c, day, d);
      } else if CustomSelector(c, day) == Distance(d) {
        CustomLands(c, day, d);
      } else {
        MdayLands(c, r, i, d);
      }
    }
  }

  /** Skipping a short month re-resolves the next month or a later year. */
  lemma SkipMonthFits(c: Cron, r: Result, day: Date)
    requires r.year >= 1 && YearMatches(c, r.year) && ValidDate(day) && day.year == r.year
    ensures Keeps(c, SkipMonth(r, day))
  {
    var next := PlusOneMonth(day);
    assert next.year * 12 + next.month == day.year * 12 + day.month + 1;
  }

  /** `updateDay` pins a day some selector admits, or carries, or fails. */
  lemma DayStepFits(ed: Edition, c: Cron, since: DateTime, r: Result, i: int, fs: bool)
    requires r.year >= 1 && YearMatches(c, r.year) && MonthMatches(c, r.month)
    ensures Keeps(c, DayStep(ed, c, since, r, i, fs))
  {
    var day := Date(r.year, r.month, i + 1);
    if ValidDate(day) {
      var w := WdaySelector(c, day);
      var cp := CycleSelector(ed, c, day);
      var m := MdaySelector(c, r, i);
      assert Day(r.(day := i + 1)) == day;
      if !w.AnyDay? && !w.NoMatch? && !cp.Crash? && !cp.AnyDay? && !cp.NoMatch? {
        if m.TooShort? && (ed == AsWritten || Nearest(w, cp, m).None?) {
          SkipMonthFits(c, r, day);
        } else if !m.AnyDay? && !m.NoMatch? && Nearest(w, cp, m).Some? {
          MoveByFits(c, since, r, i, Nearest(w, cp, m).value, fs);
        }
      }
    }
  }

  /**
   A month too short for the month-day mask, while the weekday or the custom
   period answered a distance: as written the day step skips to the next
   month; as corrected it moves by the least answered distance, to a day that
   selector admits.
   */
  lemma ShortMonthDefers(c: Cron, since: DateTime, r: Result, i: int, fs: bool, w: Selector, cp: Selector)
    requires r.year >= 1 && ValidDate(Date(r.year, r.month, i + 1))
    requires MdaySelector(c, r, i).TooShort?
    requires w == WdaySelector(c, Date(r.year, r.month, i + 1)) && (w.Unset? || w.Distance?)
    requires cp == CustomSelector(c, Date(r.year, r.month, i + 1)) && (cp.Unset? || cp.Distance?)
    requires w.Distance? || cp.Distance?
    ensures var day := Date(r.year, r.month, i + 1);
      var d := if w.Distance? && (!cp.Distance? || w.d <= cp.d) then w.d else cp.d;
      && DayStep(AsWritten, c, since, r, i, fs) == SkipMonth(r, day)
      && DayStep(Corrected, c, since, r, i, fs) == MoveBy(since, r, day, d, fs)
      && DayMatches(c, PlusDays(day, d))
  {
    var day := Date(r.year, r.month, i + 1);
    var d := if w.Distance? && (!cp.Distance? || w.d <= cp.d) then w.d else cp.d;
    assert Nearest(w, cp, MdaySelector(c, r, i)) == Some(d);
    ShortMonthSkips(c, since, r, i, fs, w, cp);
    ShortMonthMoves(c, since, r, i, fs, w, cp, d);
    ShortMonthLands(c, day, w, cp, d);
  }

  /** As written, a short month is skipped whatever the other selectors answered. */
  lemma ShortMonthSkips(c: Cron, since: DateTime, r: Result, i: int, fs: bool, w: Selector, cp: Selector)
    requires ValidDate(Date(r.year, r.month, i + 1))
    requires MdaySelector(c, r, i).TooShort?
    requires w == WdaySelector(c, Date(r.year, r.month, i + 1)) && (w.Unset? || w.Distance?)
    requires cp == CustomSelector(c, Date(r.year, r.month, i + 1)) && (cp.Unset? || cp.Distance?)
    ensures DayStep(AsWritten, c, since, r, i, fs) == SkipMonth(r, Date(r.year, r.month, i + 1))
  {
  }

  /** As corrected, a short month gives way to the nearest distance the other selectors answered. */
  lemma ShortMonthMoves(c: Cron, since: DateTime, r: Result, i: int, fs: bool, w: Selector, cp: Selector, d: nat)
    requires ValidDate(Date(r.year, r.month, i + 1))
    requires MdaySelector(c, r, i).TooShort?
    requires w == WdaySelector(c, Date(r.year, r.month, i + 1)) && (w.Unset? || w.Distance?)
    requires cp == CustomSelector(c, Date(r.year, r.month, i + 1)) && (cp.Unset? || cp.Distance?)
    requires Nearest(w, cp, MdaySelector(c, r, i)) == Some(d)
    ensures DayStep(Corrected, c, since, r, i, fs) == MoveBy(since, r, Date(r.year, r.month, i + 1), d, fs)
  {
    EmptyCycleSilent(c, Date(r.year, r.month, i + 1));
  }

  /** An empty custom cycle never answers a distance: the search of no bits fails, or the anchor or period throws. */
  lemma EmptyCycleSilent(c: Cron, day: Date)
    ensures EmptyCycle(c) ==> CustomSelector(c, day).NoMatch? || CustomSelector(c, day).Crash?
  {
    if EmptyCycle(c) {
      var cp := c.customPeriod.value;
      if ValidDate(Anchor(cp)) && cp.period != 0 {
        var ph := Phase(Anchor(cp), day, cp.period);
        forall j | 0 <= j < cp.period
          ensures !IsBitSet(cp.bits, WrapBit(ph, j, cp.period))
        {
        }
      }
    }
  }

  /**
   As corrected, an accepted recurrence never has its custom-period selector
   come up empty: an empty cycle is no selector, and another day selector is
   then set; any other cycle has a bit within its period.
   */
  lemma CorrectedCycleAnswers(c: Cron, day: Date)
    requires CheckValid(Corrected, c)
    ensures !CycleSelector(Corrected, c, day).NoMatch?
    ensures EmptyCycle(c) ==> c.mday != 0 || c.wday != 0
  {
    if c.customPeriod.Some? && !EmptyCycle(c) {
      var cp := c.customPeriod.value;
      if cp.bits != AnyValue && ValidDate(Anchor(cp)) && cp.period != 0 {
        var b := SomeBitWithin(cp.bits, cp.period);
        var ph := Phase(Anchor(cp), day, cp.period);
        WrapVisitsEveryIndex(cp.bits, ph, cp.period);
      }
    }
  }

  /** A positive mask below `1 shl period` has a bit set within a period of at least one day. */
  lemma SomeBitWithin(bits: int, period: int) returns (b: int)
    requires 0 < bits < ShlOne(period) && period >= 1
    ensures 0 <= b < period && IsBitSet(bits, b)
  {
    var k := period % 32;
    assert k <= period;
    b := SomeBitBelow(bits, k);
  }

  /** A positive value below 2^k has a bit set below k. */
  lemma SomeBitBelow(bits: int, k: nat) returns (b: int)
    requires 0 < bits < Pow2(k) && k <= 32
    ensures 0 <= b < k && IsBitSet(bits, b)
  {
    if forall j :: 0 <= j < k ==> !IsBitSet(bits, j) {
      ClearBitsBelow(bits, 0, k);
      assert false;
    }
    b :| 0 <= b < k && IsBitSet(bits, b);
  }

  /** The day a weekday or custom-period distance reaches is admitted by that selector. */
  lemma ShortMonthLands(c: Cron, day: Date, w: Selector, cp: Selector, d: nat)
    requires ValidDate(day) && day.year >= 1
    requires w == WdaySelector(c, day) && cp == CustomSelector(c, day)
    requires (w.Distance? && w.d == d) || (cp.Distance? && cp.d == d)
    ensures DayMatches(c, PlusDays(day, d))
  {
    if w.Distance? && w.d == d {
      WdayLands(c, day, d);
    } else {
      CustomLands(c, day, d);
    }
  }

  /** `updateHour` pins an hour whose bit is set, or carries to the next day, or fails. */
  lemma HourStepFits(ed: Edition, c: Cron, since: DateTime, r: Result, i: int, fs: bool)
    requires r.year >= 1 && YearMatches(c, r.year) && MonthMatches(c, r.month) && DayMatches(c, Day(r))
    ensures Keeps(c, HourStep(ed, c, since, r, i, fs))
  {
    if ValidDate(Day(r)) {
      CarryFits(c, r, NextDay(Day(r)), HourField);
    }
  }

  /** `updateMinute` reports the cron's minute, or retries the next hour. */
  lemma MinuteStepFits(ed: Edition, c: Cron, since: DateTime, r: Result, i: int, fs: bool)
    requires r.year >= 1 && YearMatches(c, r.year) && MonthMatches(c, r.month) && DayMatches(c, Day(r))
    requires HourMatches(c, r.hour)
    ensures Keeps(c, MinuteStep(ed, c, since, r, i, fs))
  {
    if c.minute == AnyValue || c.minute >= i || fs {
      var m := if c.minute == AnyValue then i else c.minute;
      assert Day(r.(minute := m)) == Day(r);
    } else {
      var top := DateTime(Day(r), r.hour, 0);
      CarryFits(c, r, PlusOneHour(top).date, MinuteField);
    }
  }

  /** Every handler, in either edition, keeps the fields it leaves alone matching. */
  lemma StepFits(ed: Edition, c: Cron, since: DateTime, m: Machine)
    requires Fits(c, m)
    ensures Keeps(c, Step(ed, c, since, m))
  {
    var r, i, fs := m.result, m.msg.since, m.msg.fromScratch;
    match m.msg.which
    case YearField => YearStepFits(c, since, r, i, fs);
    case MonthField => MonthStepFits(c, since, r, i, fs);
    case DayField => DayStepFits(ed, c, since, r, i, fs);
    case HourField => HourStepFits(ed, c, since, r, i, fs);
    case MinuteField => MinuteStepFits(ed, c, since, r, i, fs);
    case Finished =>
  }

  /**
   A message loop whose handler keeps `inv`, started in a state satisfying
   it, reports only results satisfying `good`.
   */
  lemma {:induction false} DriveKeepsInvariant(step: Machine -> Transition, inv: Machine -> bool, good: Result -> bool, m: Machine, fuel: nat)
    requires inv(m)
    requires forall m' :: inv(m') ==> (step(m').Next? ==> inv(step(m').machine))
    requires forall m' :: inv(m') ==> (step(m').Report? && step(m').found.Some? ==> good(step(m').found.value))
    ensures var o := Drive(step, m, fuel); o.Resolved? && o.found.Some? ==> good(o.found.value)
    decreases fuel
  {
    if fuel > 0 && step(m).Next? {
      DriveKeepsInvariant(step, inv, good, step(m).machine, fuel - 1);
    }
  }

  /**
   In either edition, a result the engine reports from a reference in year 1
   or later satisfies every field of the recurrence.
   */
  lemma ResultsMatch(ed: Edition, c: Cron, since: DateTime, fuel: nat)
    requires since.date.year >= 1
    ensures var o := Resolve(ed, c, since, fuel);
      o.Resolved? && o.found.Some? ==> Matches(c, o.found.value)
  {
    if CheckValid(ed, c) {
      var step := m' => Step(ed, c, since, m');
      var inv := m' => Fits(c, m');
      var good := r => Matches(c, r);
      forall m' | inv(m')
        ensures Keeps(c, step(m'))
      {
        StepFits(ed, c, since, m');
      }
      DriveKeepsInvariant(step, inv, good, Initial(since), fuel);
    }
  }
}

=== FILE: matcher.dfy ===
/**
 The bit-mask matcher `getNext` of Cron.kt: from a start index, find the
 nearest index of a period whose bit is set, either scanning forward to the
 end of the period or wrapping around through the start of the next one.
 */
module Matcher {
  import opened Wrappers
  import opened KotlinInt
  import opened CronHelper
  import opened CronModel

  /** The first i in [from, period) with bit i of `cron` set. */
  function ScanForward(cron: int, from: int, period: int): (r: Option<int>)
    ensures r.Some? ==> from <= r.value < period && IsBitSet(cron, r.value)
    ensures r.Some? ==> forall j :: from <= j < r.value ==> !IsBitSet(cron, j)
    ensures r.None? ==> forall j :: from <= j < period ==> !IsBitSet(cron, j)
    decreases period - from
  {
    if from >= period then None
    else if IsBitSet(cron, from) then Some(from)
    else ScanForward(cron, from + 1, period)
  }

  /** Kotlin's `(since + i) % period`: the index visited at offset i of a wrapping search. */
  function WrapBit(since: int, i: int, period: int): int
    requires period != 0
  {
    Rem(since + i, period)
  }

  /** The first offset i in [offset, period) whose index `(since + i) % period` has its bit set. */
  function ScanWrapping(cron: int, since: int, offset: int, period: int): (r: Option<int>)
    requires period > 0
    ensures r.Some? ==> offset <= r.value < period && IsBitSet(cron, WrapBit(since, r.value, period))
    ensures r.Some? ==> forall j :: offset <= j < r.value ==> !IsBitSet(cron, WrapBit(since, j, period))
    ensures r.None? ==> forall j :: offset <= j < period ==> !IsBitSet(cron, WrapBit(since, j, period))
    decreases period - offset
  {
    if offset >= period then None
    else if IsBitSet(cron, WrapBit(since, offset, period)) then Some(offset)
    else ScanWrapping(cron, since, offset + 1, period)
  }

  /**
   `getNext(cron, since, period, checkAllBits)`, answering (index, distance).
   "Any" answers (since, 0). Forward only, the first set index in
   [since, period) at distance index - since. Wrapping, the first offset i in
   [0, period) whose index (since + i) % period is set, answered as that
   index and i; a match at or after `since` is then in the current period.
   */
  function GetNext(cron: int, since: int, period: int, checkAllBits: bool): (r: Option<(int, int)>)
    ensures cron == AnyValue ==> r == Some((since, 0))
    ensures cron != AnyValue && !checkAllBits ==>
      (r.None? <==> forall j :: since <= j < period ==> !IsBitSet(cron, j))
    ensures cron != AnyValue && !checkAllBits && r.Some? ==>
      && since <= r.value.0 < period
      && r.value.1 == r.value.0 - since
      && IsBitSet(cron, r.value.0)
      && forall j :: since <= j < r.value.0 ==> !IsBitSet(cron, j)
    ensures cron != AnyValue && checkAllBits && r.Some? ==>
      && 0 <= r.value.1 < period
      && r.value.0 == WrapBit(since, r.value.1, period)
      && IsBitSet(cron, r.value.0)
      && forall j :: 0 <= j < r.value.1 ==> !IsBitSet(cron, WrapBit(since, j, period))
    ensures cron != AnyValue && checkAllBits ==>
      (r.None? <==> forall j :: 0 <= j < period ==> !IsBitSet(cron, WrapBit(since, j, period)))
    ensures cron != AnyValue && checkAllBits && r.Some? && 0 <= since < period && r.value.0 >= since ==>
      r.value.0 == since + r.value.1
  {
    if cron == AnyValue then Some((since, 0))
    else if checkAllBits then
      if period <= 0 then None
      else
        match ScanWrapping(cron, since, 0, period)
        case None => None
        case Some(i) => WrapIndex(since, i, period); Some((WrapBit(since, i, period), i))
    else
      match ScanForward(cron, since, period)
      case None => None
      case Some(i) => Some((i, i - since))
  }

  /** Within one wrap the index is since + i, past the end of the period it drops below since. */
  lemma WrapIndex(since: int, i: int, period: int)
    requires period > 0 && 0 <= i < period
    ensures 0 <= since < period && since + i < period ==> WrapBit(since, i, period) == since + i
    ensures 0 <= since < period && since + i >= period ==> WrapBit(since, i, period) == since + i - period < since
  {
    if 0 <= since < period {
      if since + i < period {
        DivModUnique(since + i, period, 0, since + i);
      } else {
        DivModUnique(since + i, period, 1, since + i - period);
      }
    }
  }

  /**
   From a start index inside the period, wrapping search fails only when no
   bit of the whole period is set: every index is visited once.
   */
  lemma WrapVisitsEveryIndex(cron: int, since: int, period: int)
    requires cron != AnyValue && 0 <= since < period
    ensures GetNext(cron, since, period, true).None? <==> forall b :: 0 <= b < period ==> !IsBitSet(cron, b)
  {
    if GetNext(cron, since, period, true).None? {
      forall b | 0 <= b < period
        ensures !IsBitSet(cron, b)
      {
        var j := if b >= since then b - since else b - since + period;
        WrapIndex(since, j, period);
        assert WrapBit(since, j, period) == b;
      }
    } else {
      var i := GetNext(cron, since, period, true).value.1;
      WrapIndex(since, i, period);
    }
  }

  /**
   From a start index inside the period, the wrapping search is a forward
   search from `since` to the end of the period followed by a forward search
   from the start of the period up to `since`.
   */
  lemma WrapIsTwoForwardScans(cron: int, since: int, period: int)
    requires cron != AnyValue && 0 <= since < period
    ensures GetNext(cron, since, period, true) ==
      match ScanForward(cron, since, period)
      case Some(i) => Some((i, i - since))
      case None =>
        match ScanForward(cron, 0, since)
        case Some(i) => Some((i, i + period - since))
        case None => None
  {
    match ScanForward(cron, since, period)
    case Some(i) => FirstWrapMatch(cron, since, period, i - since);
    case None =>
      match ScanForward(cron, 0, since)
      case Some(i) => FirstWrapMatch(cron, since, period, i + period - since);
      case None =>
        WrapVisitsEveryIndex(cron, since, period);
  }

  /**
   When offset d hits a set bit and every index visited before it (the
   indices from `since` on, then those from 0) is clear, the wrapping search
   answers d.
   */
  lemma FirstWrapMatch(cron: int, since: int, period: int, d: int)
    requires cron != AnyValue && 0 <= since < period && 0 <= d < period
    requires IsBitSet(cron, if since + d < period then since + d else since + d - period)
    requires forall j :: since <= j < period && j < since + d ==> !IsBitSet(cron, j)
    requires forall j :: 0 <= j < since + d - period ==> !IsBitSet(cron, j)
    ensures GetNext(cron, since, period, true) == Some((if since + d < period then since + d else since + d - period, d))
  {
    var g := GetNext(cron, since, period, true);
    WrapIndex(since, d, period);
    assert IsBitSet(cron, WrapBit(since, d, period));
    var e := g.value.1;
    WrapIndex(since, e, period);
    assert IsBitSet(cron, WrapBit(since, e, period));
  }
}

=== FILE: selector_vectors.dfy ===
/**
 More concrete resolutions from the repository's tests, followed message by
 message: a minute carry across the new year, and a search moved by each of
 the weekday, custom-period and month-day selectors, including a month too
 short for the month-day mask and a month mask that sends the search into
 the next year.
 */
module SelectorVectors {
  import opened Wrappers
  import opened KotlinInt
  import opened Dates
  import opened CronHelper
  import opened JavaTime
  import opened CronModel
  import opened MaskProofs
  import opened Matcher
  import opened Engine
  import opened Vectors
  import opened MatchProofs

  /** 2025-01-05 is a Sunday: weekday 6 counting from Monday = 0. */
  lemma FifthOfJanuaryIsSunday()
    ensures DayOfWeek(Date(2025, 1, 5)) == 6
  {
  }

  /**
   When no selector pins the day or fails and none reports a short month,
   the day search moves by the nearest distance the selectors answered.
   */
  lemma DayStepMoves(ed: Edition, c: Cron, since: DateTime, r: Result, i: int, fs: bool, w: Selector, cp: Selector, m: Selector, d: nat)
    requires ValidDate(Date(r.year, r.month, i + 1))
    requires w == WdaySelector(c, Date(r.year, r.month, i + 1)) && (w.Unset? || w.Distance?)
    requires cp == CustomSelector(c, Date(r.year, r.month, i + 1)) && (cp.Unset? || cp.Distance?)
    requires m == MdaySelector(c, r, i) && (m.Unset? || m.Distance?)
    requires Nearest(w, cp, m) == Some(d)
    ensures DayStep(ed, c, since, r, i, fs) == MoveBy(since, r, Date(r.year, r.month, i + 1), d, fs)
  {
    EmptyCycleSilent(c, Date(r.year, r.month, i + 1));
  }

  /**
   A minute search from scratch takes the cron's minute and finishes: in
   either edition the distance is the day difference, when it is not
   negative, with the hour and minute differences.
   */
  lemma FinishesAfter(ed: Edition, c: Cron, since: DateTime, r: Result, days: int)
    requires 0 <= c.minute < 60 && ValidDate(Day(r)) && 0 <= r.hour < 24
    requires days >= 0 && DiffDate(since.date, Day(r)) == days
    ensures MinuteStep(ed, c, since, r, 0, true) ==
      Send(Finished, 0, false, r.(minute := c.minute, distanceMinutes := (days * 24 + r.hour - since.hour) * 60 + c.minute - since.minute))
  {
  }

  /** Hour 6 is the first hour of the four hours from midnight, searched from scratch. */
  lemma SixFromScratch(ed: Edition, c: Cron, since: DateTime, r: Result)
    requires c.hour == FourHours
    ensures HourStep(ed, c, since, r, 0, true) == Send(MinuteField, 0, true, r.(hour := 6))
  {
    FourHoursFromMidnight();
  }

  // ---------------------------------------------------------------------
  // Every day at 6:30, 12:30, 18:30 and 23:30, from 2024-12-31 23:40.
  // ---------------------------------------------------------------------

  const NewYearSince: DateTime := At(2024, 12, 31, 23, 40)
  const NewYearTrace: seq<Machine> := [
    Initial(NewYearSince),
    Machine(Msg(MonthField, 11, false), Result(2024, 0, 0, 0, 0, 0)),
    Machine(Msg(DayField, 30, false), Result(2024, 12, 0, 0, 0, 0)),
    Machine(Msg(HourField, 23, false), Result(2024, 12, 31, 0, 0, 0)),
    Machine(Msg(MinuteField, 40, false), Result(2024, 12, 31, 23, 0, 0)),
    Machine(Msg(YearField, 2025, true), Result(2024, 12, 31, 23, 0, 0)),
    Machine(Msg(MonthField, 0, true), Result(2025, 12, 31, 23, 0, 0)),
    Machine(Msg(DayField, 0, true), Result(2025, 1, 31, 23, 0, 0)),
    Machine(Msg(HourField, 0, true), Result(2025, 1, 1, 23, 0, 0)),
    Machine(Msg(MinuteField, 0, true), Result(2025, 1, 1, 6, 0, 0)),
    Machine(Msg(Finished, 0, false), Result(2025, 1, 1, 6, 30, 410))]

  /** Year, month, day and hour stay on the reference. */
  lemma NewYearReferenceSteps(ed: Edition, i: int)
    requires 0 <= i < 4
    ensures Step(ed, Daily, NewYearSince, NewYearTrace[i]) == Next(NewYearTrace[i + 1])
  {
    var t := NewYearTrace;
    if i == 0 {
      assert Step(ed, Daily, NewYearSince, t[0]) == Next(t[1]);
    } else if i == 1 {
      assert Step(ed, Daily, NewYearSince, t[1]) == Next(t[2]);
    } else if i == 2 {
      assert Step(ed, Daily, NewYearSince, t[2]) == Next(t[3]);
    } else {
      FourHoursFrom23();
      assert Step(ed, Daily, NewYearSince, t[3]) == Next(t[4]);
    }
  }

  /** Minute 30 has passed: the next hour is 2025-01-01 00:00, which re-resolves the year from scratch. */
  lemma NewYearCarryStep(ed: Edition)
    ensures Step(ed, Daily, NewYearSince, NewYearTrace[4]) == Next(NewYearTrace[5])
  {
    var r := NewYearTrace[4].result;
    var top := DateTime(Date(2024, 12, 31), 23, 0);
    assert PlusOneHour(top) == DateTime(Date(2025, 1, 1), 0, 0);
    assert Step(ed, Daily, NewYearSince, NewYearTrace[4]) == MinuteStep(ed, Daily, NewYearSince, r, 40, false);
  }

  /** The new year, its first month and its first day are taken from scratch. */
  lemma NewYearDateSteps(ed: Edition, i: int)
    requires 5 <= i < 8
    ensures Step(ed, Daily, NewYearSince, NewYearTrace[i]) == Next(NewYearTrace[i + 1])
  {
    var t := NewYearTrace;
    if i == 5 {
      assert Step(ed, Daily, NewYearSince, t[5]) == Next(t[6]);
    } else if i == 6 {
      assert Step(ed, Daily, NewYearSince, t[6]) == Next(t[7]);
    } else {
      assert Step(ed, Daily, NewYearSince, t[7]) == Next(t[8]);
    }
  }

  /** Hour 6 is the first set hour from midnight, and minute 30 is taken 410 minutes on. */
  lemma NewYearTimeSteps(ed: Edition, i: int)
    requires 8 <= i < 10
    ensures Step(ed, Daily, NewYearSince, NewYearTrace[i]) == Next(NewYearTrace[i + 1])
  {
    var t := NewYearTrace;
    if i == 8 {
      SixFromScratch(ed, Daily, NewYearSince, t[8].result);
      assert Step(ed, Daily, NewYearSince, t[8]) == HourStep(ed, Daily, NewYearSince, t[8].result, 0, true);
    } else {
      OneDayIntoTheNewYear();
      FinishesAfter(ed, Daily, NewYearSince, t[9].result, 1);
      assert Step(ed, Daily, NewYearSince, t[9]) == MinuteStep(ed, Daily, NewYearSince, t[9].result, 0, true);
    }
  }

  lemma OneDayIntoTheNewYear()
    ensures DiffDate(Date(2024, 12, 31), Date(2025, 1, 1)) == 1
  {
  }

  /** From 2024-12-31 23:40 the daily schedule answers 2025-01-01 06:30, 410 minutes later. */
  lemma DailyNewYear(ed: Edition)
    ensures Resolve(ed, Daily, NewYearSince, 11) == Resolved(Some(Result(2025, 1, 1, 6, 30, 410)))
  {
    var t := NewYearTrace;
    forall i | 0 <= i < |t| - 1
      ensures Step(ed, Daily, NewYearSince, t[i]) == Next(t[i + 1])
    {
      if i < 4 {
        NewYearReferenceSteps(ed, i);
      } else if i == 4 {
        NewYearCarryStep(ed);
      } else if i < 8 {
        NewYearDateSteps(ed, i);
      } else {
        NewYearTimeSteps(ed, i);
      }
    }
    assert Step(ed, Daily, NewYearSince, t[10]) == Report(Some(Result(2025, 1, 1, 6, 30, 410)));
    Follows(ed, Daily, NewYearSince, t, Some(Result(2025, 1, 1, 6, 30, 410)));
    assert CheckValid(ed, Daily);
  }

  // ---------------------------------------------------------------------
  // Monday, Wednesday and Friday at the four hours, from Sunday 2025-01-05 20:20.
  // ---------------------------------------------------------------------

  /** Weekdays 0, 2 and 4: Monday, Wednesday and Friday. */
  const MonWedFri: Cron := Cron(AnyYear, AnyValue, 0, 0x15, FourHours, 30, None)

  const SundaySince: DateTime := At(2025, 1, 5, 20, 20)
  const SundayTrace: seq<Machine> := [
    Initial(SundaySince),
    Machine(Msg(MonthField, 0, false), Result(2025, 0, 0, 0, 0, 0)),
    Machine(Msg(DayField, 4, false), Result(2025, 1, 0, 0, 0, 0)),
    Machine(Msg(HourField, 0, true), Result(2025, 1, 6, 0, 0, 0)),
    Machine(Msg(MinuteField, 0, true), Result(2025, 1, 6, 6, 0, 0)),
    Machine(Msg(Finished, 0, false), Result(2025, 1, 6, 6, 30, 610))]

  /** From Sunday the wrapping weekday search reaches Monday one day on. */
  lemma MondayAfterSunday()
    ensures GetNext(0x15, 6, 7, true) == Some((0, 1))
  {
    Pow2Listed(0);
    Pow2Listed(6);
    assert IsBitSet(0x15, 0) && !IsBitSet(0x15, 6);
    FirstWrapMatch(0x15, 6, 7, 1);
  }

  /** The weekday selector moves the day search to Monday 2025-01-06, searched from scratch. */
  lemma SundayDayStep(ed: Edition)
    ensures Step(ed, MonWedFri, SundaySince, SundayTrace[2]) == Next(SundayTrace[3])
  {
    var r := SundayTrace[2].result;
    var day := Date(2025, 1, 5);
    assert ValidDate(day);
    MondaySelected();
    assert CustomSelector(MonWedFri, day) == Unset;
    assert MdaySelector(MonWedFri, r, 4) == Unset;
    DayStepMoves(ed, MonWedFri, SundaySince, r, 4, false, Distance(1), Unset, Unset, 1);
    SundayMove();
    assert Step(ed, MonWedFri, SundaySince, SundayTrace[2]) == DayStep(ed, MonWedFri, SundaySince, r, 4, false);
  }

  /** One day on from Sunday is Monday 2025-01-06, which differs from the reference day. */
  lemma SundayMove()
    ensures MoveBy(SundaySince, SundayTrace[2].result, Date(2025, 1, 5), 1, false) == Next(SundayTrace[3])
  {
    assert PlusDays(Date(2025, 1, 5), 1) == Date(2025, 1, 6);
  }

  /** On Sunday 2025-01-05 the weekday selector answers one day. */
  lemma MondaySelected()
    ensures WdaySelector(MonWedFri, Date(2025, 1, 5)) == Distance(1)
  {
    FifthOfJanuaryIsSunday();
    MondayAfterSunday();
  }

  lemma SundaySteps(ed: Edition, i: int)
    requires 0 <= i < |SundayTrace| - 1
    ensures Step(ed, MonWedFri, SundaySince, SundayTrace[i]) == Next(SundayTrace[i + 1])
  {
    var t := SundayTrace;
    if i == 0 {
      assert Step(ed, MonWedFri, SundaySince, t[0]) == Next(t[1]);
    } else if i == 1 {
      assert Step(ed, MonWedFri, SundaySince, t[1]) == Next(t[2]);
    } else if i == 2 {
      SundayDayStep(ed);
    } else {
      SundayTimeSteps(ed, i);
    }
  }

  /** Hour 6 of Monday, then minute 30, 610 minutes after the reference. */
  lemma SundayTimeSteps(ed: Edition, i: int)
    requires 3 <= i < 5
    ensures Step(ed, MonWedFri, SundaySince, SundayTrace[i]) == Next(SundayTrace[i + 1])
  {
    var t := SundayTrace;
    if i == 3 {
      SixFromScratch(ed, MonWedFri, SundaySince, t[3].result);
      assert Step(ed, MonWedFri, SundaySince, t[3]) == HourStep(ed, MonWedFri, SundaySince, t[3].result, 0, true);
    } else {
      SundayToMonday();
      FinishesAfter(ed, MonWedFri, SundaySince, t[4].result, 1);
      assert Step(ed, MonWedFri, SundaySince, t[4]) == MinuteStep(ed, MonWedFri, SundaySince, t[4].result, 0, true);
    }
  }

  lemma SundayToMonday()
    ensures DiffDate(Date(2025, 1, 5), Date(2025, 1, 6)) == 1
  {
  }

  /** From Sunday 2025-01-05 20:20 the Monday-Wednesday-Friday schedule answers Monday 06:30, 610 minutes later. */
  lemma WeekdaysFromSunday(ed: Edition)
    ensures Resolve(ed, MonWedFri, SundaySince, 6) == Resolved(Some(Result(2025, 1, 6, 6, 30, 610)))
  {
    var t := SundayTrace;
    forall i | 0 <= i < |t| - 1
      ensures Step(ed, MonWedFri, SundaySince, t[i]) == Next(t[i + 1])
    {
      SundaySteps(ed, i);
    }
    assert Step(ed, MonWedFri, SundaySince, t[5]) == Report(Some(Result(2025, 1, 6, 6, 30, 610)));
    Follows(ed, MonWedFri, SundaySince, t, Some(Result(2025, 1, 6, 6, 30, 610)));
    assert CheckValid(ed, MonWedFri);
  }

  // ---------------------------------------------------------------------
  // The first two days of each 8-day period from 2025-02-07, at 6:30 and 16:30.
  // ---------------------------------------------------------------------

  const TwoOfEight: Cron := Cron(AnyYear, AnyValue, 0, 0, 0x1_0040, 30, Some(FirstTwoOfEight))

  const EveSince: DateTime := At(2025, 2, 6, 6, 20)
  const EveTrace: seq<Machine> := [
    Initial(EveSince),
    Machine(Msg(MonthField, 1, false), Result(2025, 0, 0, 0, 0, 0)),
    Machine(Msg(DayField, 5, false), Result(2025, 2, 0, 0, 0, 0)),
    Machine(Msg(HourField, 0, true), Result(2025, 2, 7, 0, 0, 0)),
    Machine(Msg(MinuteField, 0, true), Result(2025, 2, 7, 6, 0, 0)),
    Machine(Msg(Finished, 0, false), Result(2025, 2, 7, 6, 30, 1450))]

  /** The day before the anchor is the last day of the previous cycle: phase 7. */
  lemma EvePhase()
    ensures Phase(Date(2025, 2, 7), Date(2025, 2, 6), 8) == 7
  {
    assert DiffDate(Date(2025, 2, 7), Date(2025, 2, 6)) == -1;
  }

  /** From phase 7 the wrapping search reaches phase 0 one day on. */
  lemma FirstOfCycleAfterLast()
    ensures GetNext(3, 7, 8, true) == Some((0, 1))
  {
    Pow2Listed(0);
    Pow2Listed(7);
    assert IsBitSet(3, 0) && !IsBitSet(3, 7);
    FirstWrapMatch(3, 7, 8, 1);
  }

  /** Hour 6 is the first of hours 6 and 16 from midnight. */
  lemma SixOrFourPmFromMidnight()
    ensures GetNext(0x1_0040, 0, 24, false) == Some((6, 6))
  {
    forall j | 0 <= j < 6
      ensures !IsBitSet(0x1_0040, j)
    {
      Pow2Listed(j);
      assert j in {0, 1, 2, 3, 4, 5};
    }
    Pow2Listed(6);
    assert IsBitSet(0x1_0040, 6);
  }

  /** The custom-period selector moves the day search to the anchor day, searched from scratch. */
  lemma EveDayStep(ed: Edition)
    ensures Step(ed, TwoOfEight, EveSince, EveTrace[2]) == Next(EveTrace[3])
  {
    var r := EveTrace[2].result;
    var day := Date(2025, 2, 6);
    assert ValidDate(day);
    AnchorDaySelected();
    assert WdaySelector(TwoOfEight, day) == Unset;
    assert MdaySelector(TwoOfEight, r, 5) == Unset;
    DayStepMoves(ed, TwoOfEight, EveSince, r, 5, false, Unset, Distance(1), Unset, 1);
    EveMove();
    assert Step(ed, TwoOfEight, EveSince, EveTrace[2]) == DayStep(ed, TwoOfEight, EveSince, r, 5, false);
  }

  /** One day on from 2025-02-06 is the anchor day, which differs from the reference day. */
  lemma EveMove()
    ensures MoveBy(EveSince, EveTrace[2].result, Date(2025, 2, 6), 1, false) == Next(EveTrace[3])
  {
    assert PlusDays(Date(2025, 2, 6), 1) == Date(2025, 2, 7);
  }

  /** On 2025-02-06 the custom-period selector answers one day. */
  lemma AnchorDaySelected()
    ensures CustomSelector(TwoOfEight, Date(2025, 2, 6)) == Distance(1)
  {
    assert ValidDate(Anchor(FirstTwoOfEight));
    EvePhase();
    FirstOfCycleAfterLast();
  }

  lemma EveSteps(ed: Edition, i: int)
    requires 0 <= i < |EveTrace| - 1
    ensures Step(ed, TwoOfEight, EveSince, EveTrace[i]) == Next(EveTrace[i + 1])
  {
    var t := EveTrace;
    if i == 0 {
      assert Step(ed, TwoOfEight, EveSince, t[0]) == Next(t[1]);
    } else if i == 1 {
      assert Step(ed, TwoOfEight, EveSince, t[1]) == Next(t[2]);
    } else if i == 2 {
      EveDayStep(ed);
    } else {
      EveTimeSteps(ed, i);
    }
  }

  /** Hour 6 of the anchor day, then minute 30, 1450 minutes after the reference. */
  lemma EveTimeSteps(ed: Edition, i: int)
    requires 3 <= i < 5
    ensures Step(ed, TwoOfEight, EveSince, EveTrace[i]) == Next(EveTrace[i + 1])
  {
    var t := EveTrace;
    if i == 3 {
      SixOrFourPmFromMidnight();
      assert Step(ed, TwoOfEight, EveSince, t[3]) == HourStep(ed, TwoOfEight, EveSince, t[3].result, 0, true);
    } else {
      EveToAnchor();
      FinishesAfter(ed, TwoOfEight, EveSince, t[4].result, 1);
      assert Step(ed, TwoOfEight, EveSince, t[4]) == MinuteStep(ed, TwoOfEight, EveSince, t[4].result, 0, true);
    }
  }

  lemma EveToAnchor()
    ensures DiffDate(Date(2025, 2, 6), Date(2025, 2, 7)) == 1
  {
  }

  /** From 2025-02-06 06:20 the custom period answers its first day 2025-02-07 06:30, 1450 minutes later. */
  lemma CustomPeriodFromEve(ed: Edition)
    ensures Resolve(ed, TwoOfEight, EveSince, 6) == Resolved(Some(Result(2025, 2, 7, 6, 30, 1450)))
  {
    var t := EveTrace;
    forall i | 0 <= i < |t| - 1
      ensures Step(ed, TwoOfEight, EveSince, t[i]) == Next(t[i + 1])
    {
      EveSteps(ed, i);
    }
    assert Step(ed, TwoOfEight, EveSince, t[5]) == Report(Some(Result(2025, 2, 7, 6, 30, 1450)));
    Follows(ed, TwoOfEight, EveSince, t, Some(Result(2025, 2, 7, 6, 30, 1450)));
    TwoOfEightValid(ed);
  }

  lemma TwoOfEightValid(ed: Edition)
    ensures CheckValid(ed, TwoOfEight)
  {
    assert ShlOne(8) == 0x100 by {
      Pow2Listed(8);
    }
  }

  // ---------------------------------------------------------------------
  // Days 29, 30 and 31 of the month at the four hours, from 2025-02-28 23:40.
  // ---------------------------------------------------------------------

  /** Bits 28, 29 and 30: days 29, 30 and 31. */
  const LateDays: int := 0x7000_0000

  const LateDaysCron: Cron := Cron(AnyYear, AnyValue, LateDays, 0, FourHours, 30, None)

  /** No day before the 29th is admitted. */
  lemma LateDaysLowBitsClear(j: int)
    requires 0 <= j < 28
    ensures !IsBitSet(LateDays, j)
  {
    var p, q := Pow2(j), Pow2(27 - j);
    Pow2Listed(28);
    Pow2Add(j, 28 - j);
    Pow2Succ(27 - j);
    SevenTimesSplit(Pow2(28), p, Pow2(28 - j), q);
    EvenMultipleClear(LateDays, j, 7 * q);
  }

  /** Seven times a power split as p * 2q is the even multiple 2 * 7q of p. */
  lemma SevenTimesSplit(whole: int, p: int, r: int, q: int)
    requires whole == p * r && r == 2 * q
    ensures 7 * whole == (2 * (7 * q)) * p
  {
  }

  /** An even multiple of 2^j has bit j clear. */
  lemma EvenMultipleClear(x: int, j: int, m: int)
    requires 0 <= j < 32 && x == (2 * m) * Pow2(j)
    ensures !IsBitSet(x, j)
  {
    DivModUnique(x, Pow2(j), 2 * m, 0);
  }

  /** A 28-day February admits none of the late days. */
  lemma NoLateDayInFebruary()
    ensures GetNext(LateDays, 27, 28, true) == None
  {
    forall b | 0 <= b < 28
      ensures !IsBitSet(LateDays, b)
    {
      LateDaysLowBitsClear(b);
    }
    WrapVisitsEveryIndex(LateDays, 27, 28);
  }

  /** From the first of a 31-day month the search reaches the 29th, 28 days on. */
  lemma TwentyNinthFromFirst()
    ensures GetNext(LateDays, 0, 31, true) == Some((28, 28))
  {
    forall j | 0 <= j < 28
      ensures !IsBitSet(LateDays, j)
    {
      LateDaysLowBitsClear(j);
    }
    Pow2Listed(28);
    assert IsBitSet(LateDays, 28);
    FirstWrapMatch(LateDays, 0, 31, 28);
  }

  const LeapGapSince: DateTime := At(2025, 2, 28, 23, 40)
  const LeapGapTrace: seq<Machine> := [
    Initial(LeapGapSince),
    Machine(Msg(MonthField, 1, false), Result(2025, 0, 0, 0, 0, 0)),
    Machine(Msg(DayField, 27, false), Result(2025, 2, 0, 0, 0, 0)),
    Machine(Msg(MonthField, 2, true), Result(2025, 2, 0, 0, 0, 0)),
    Machine(Msg(DayField, 0, true), Result(2025, 3, 0, 0, 0, 0)),
    Machine(Msg(HourField, 0, true), Result(2025, 3, 29, 0, 0, 0)),
    Machine(Msg(MinuteField, 0, true), Result(2025, 3, 29, 6, 0, 0)),
    Machine(Msg(Finished, 0, false), Result(2025, 3, 29, 6, 30, 40730))]

  /** February 2025 is too short for the mask: the search skips to March. */
  lemma FebruaryTooShort(ed: Edition, c: Cron, since: DateTime, r: Result)
    requires c.wday == 0 && c.customPeriod.None? && c.mday == LateDays
    requires r.year == 2025 && r.month == 2
    ensures DayStep(ed, c, since, r, 27, false) == Send(MonthField, 2, true, r)
  {
    var day := Date(2025, 2, 28);
    assert ValidDate(day);
    assert WdaySelector(c, day) == Unset;
    assert CustomSelector(c, day) == Unset;
    FebruaryMday(c, r);
    assert PlusOneMonth(day) == Date(2025, 3, 28);
    assert SkipMonth(r, day) == Send(MonthField, 2, true, r);
  }

  /** The month-day selector finds no late day in February 2025 and answers "too short". */
  lemma FebruaryMday(c: Cron, r: Result)
    requires c.mday == LateDays && r.year == 2025 && r.month == 2
    ensures MdaySelector(c, r, 27) == TooShort
  {
    NoLateDayInFebruary();
    assert DaysInMonth(2025, 1) == 28;
  }

  /** From the first of a 31-day month of year 1 on, the month-day selector moves to the 29th. */
  lemma TwentyNinthOfLongMonth(ed: Edition, c: Cron, since: DateTime, r: Result)
    requires c.wday == 0 && c.customPeriod.None? && c.mday == LateDays
    requires r.year >= 1 && r.month in {1, 3}
    ensures DayStep(ed, c, since, r, 0, true) == Send(HourField, 0, true, r.(day := 29))
  {
    FirstOfMonthUnselected(c, r);
    TwentyNinthSelected(c, r);
    DayStepMoves(ed, c, since, r, 0, true, Unset, Unset, Distance(28), 28);
    MoveToTwentyNinth(since, r);
  }

  /** Without a weekday mask or a period, neither of those selectors has a say. */
  lemma FirstOfMonthUnselected(c: Cron, r: Result)
    requires c.wday == 0 && c.customPeriod.None? && r.year >= 1 && r.month in {1, 3}
    ensures WdaySelector(c, Date(r.year, r.month, 1)) == Unset
    ensures CustomSelector(c, Date(r.year, r.month, 1)) == Unset
  {
    assert ValidDate(Date(r.year, r.month, 1));
  }

  /** 28 days on from the first of January or March is the 29th of the same month. */
  lemma MoveToTwentyNinth(since: DateTime, r: Result)
    requires r.year >= 1 && r.month in {1, 3}
    ensures MoveBy(since, r, Date(r.year, r.month, 1), 28, true) == Send(HourField, 0, true, r.(day := 29))
  {
    PlusDaysInMonth(Date(r.year, r.month, 1), 28, 29);
  }

  /** In January or March the month-day selector answers 28 days from the first. */
  lemma TwentyNinthSelected(c: Cron, r: Result)
    requires c.mday == LateDays && r.year >= 1 && r.month in {1, 3}
    ensures MdaySelector(c, r, 0) == Distance(28)
  {
    LongMonth(r.year, r.month);
    TwentyNinthFromFirst();
  }

  /** January and March have 31 days in every year. */
  lemma LongMonth(year: int, month: int)
    requires month in {1, 3}
    ensures DaysInMonth(year, month - 1) == 31
  {
  }

  /** Adding days that stay in the month only moves the day of the month. */
  lemma {:induction false} PlusDaysInMonth(d: Date, n: nat, day: int)
    requires ValidDate(d) && day == d.day + n && day <= MonthLength(d.year, d.month)
    ensures PlusDays(d, n) == Date(d.year, d.month, day)
    decreases n
  {
    if n > 0 {
      PlusDaysInMonth(NextDay(d), n - 1, day);
    }
  }

  lemma LeapGapSteps(ed: Edition, i: int)
    requires 0 <= i < |LeapGapTrace| - 1
    ensures Step(ed, LateDaysCron, LeapGapSince, LeapGapTrace[i]) == Next(LeapGapTrace[i + 1])
  {
    var c, s, t := LateDaysCron, LeapGapSince, LeapGapTrace;
    if i == 0 {
      assert Step(ed, c, s, t[0]) == Next(t[1]);
    } else if i == 1 {
      assert Step(ed, c, s, t[1]) == Next(t[2]);
    } else if i == 2 {
      FebruaryTooShort(ed, c, s, t[2].result);
    } else if i == 3 {
      assert Step(ed, c, s, t[3]) == Next(t[4]);
    } else if i == 4 {
      TwentyNinthOfLongMonth(ed, c, s, t[4].result);
    } else if i == 5 {
      SixFromScratch(ed, c, s, t[5].result);
      assert Step(ed, c, s, t[5]) == HourStep(ed, c, s, t[5].result, 0, true);
    } else {
      EndOfFebruaryToMarch29();
      FinishesAfter(ed, c, s, t[6].result, 29);
      assert Step(ed, c, s, t[6]) == MinuteStep(ed, c, s, t[6].result, 0, true);
    }
  }

  lemma EndOfFebruaryToMarch29()
    ensures DiffDate(Date(2025, 2, 28), Date(2025, 3, 29)) == 29
  {
  }

  /** From 2025-02-28 23:40 the late-days schedule skips February and answers 2025-03-29 06:30, 40730 minutes later. */
  lemma LateDaysSkipFebruary(ed: Edition)
    ensures Resolve(ed, LateDaysCron, LeapGapSince, 8) == Resolved(Some(Result(2025, 3, 29, 6, 30, 40730)))
  {
    var c, s, t := LateDaysCron, LeapGapSince, LeapGapTrace;
    forall i | 0 <= i < |t| - 1
      ensures Step(ed, c, s, t[i]) == Next(t[i + 1])
    {
      LeapGapSteps(ed, i);
    }
    assert Step(ed, c, s, t[7]) == Report(Some(Result(2025, 3, 29, 6, 30, 40730)));
    Follows(ed, c, s, t, Some(Result(2025, 3, 29, 6, 30, 40730)));
    assert CheckValid(ed, c);
  }

  // ---------------------------------------------------------------------
  // The same days in January and February only, from 2025-02-28 23:20.
  // ---------------------------------------------------------------------

  const WinterLateDays: Cron := Cron(AnyYear, 3, LateDays, 0, FourHours, 30, None)

  const WinterSince: DateTime := At(2025, 2, 28, 23, 20)
  const WinterTrace: seq<Machine> := [
    Initial(WinterSince),
    Machine(Msg(MonthField, 1, false), Result(2025, 0, 0, 0, 0, 0)),
    Machine(Msg(DayField, 27, false), Result(2025, 2, 0, 0, 0, 0)),
    Machine(Msg(MonthField, 2, true), Result(2025, 2, 0, 0, 0, 0)),
    Machine(Msg(YearField, 2026, true), Result(2025, 2, 0, 0, 0, 0)),
    Machine(Msg(MonthField, 0, true), Result(2026, 2, 0, 0, 0, 0)),
    Machine(Msg(DayField, 0, true), Result(2026, 1, 0, 0, 0, 0)),
    Machine(Msg(HourField, 0, true), Result(2026, 1, 29, 0, 0, 0)),
    Machine(Msg(MinuteField, 0, true), Result(2026, 1, 29, 6, 0, 0)),
    Machine(Msg(Finished, 0, false), Result(2026, 1, 29, 6, 30, 481390))]

  /** The month searches of the mask of January and February: February from itself, nothing from March, January from the start. */
  lemma WinterMonths()
    ensures GetNext(3, 1, 12, true) == Some((1, 0))
    ensures GetNext(3, 2, 12, false) == None
    ensures GetNext(3, 0, 12, false) == Some((0, 0))
  {
    Pow2Listed(0);
    Pow2Listed(1);
    Pow2Listed(2);
    assert IsBitSet(3, 0) && IsBitSet(3, 1);
    FirstWrapMatch(3, 1, 12, 0);
    forall j | 2 <= j < 12
      ensures !IsBitSet(3, j)
    {
      BitsAboveBoundClear(3, 2, j);
    }
  }

  lemma WinterDateSteps(ed: Edition, i: int)
    requires 0 <= i < 6
    ensures Step(ed, WinterLateDays, WinterSince, WinterTrace[i]) == Next(WinterTrace[i + 1])
  {
    if i < 3 {
      WinterFebruarySteps(ed, i);
    } else {
      WinterYearEndSteps(ed, i);
    }
  }

  /** From the reference the months step to February. */
  lemma WinterFebruarySteps(ed: Edition, i: int)
    requires 0 <= i < 3
    ensures Step(ed, WinterLateDays, WinterSince, WinterTrace[i]) == Next(WinterTrace[i + 1])
  {
    if i == 0 {
      WinterReferenceYear(ed);
    } else if i == 1 {
      WinterReferenceMonth(ed);
    } else {
      WinterFebruaryTooShort(ed);
    }
  }

  /** The year of any year is the reference year; the months are searched from February. */
  lemma WinterReferenceYear(ed: Edition)
    ensures Step(ed, WinterLateDays, WinterSince, WinterTrace[0]) == Next(WinterTrace[1])
  {
  }

  /** February is in the mask, so the days are searched from the reference day. */
  lemma WinterReferenceMonth(ed: Edition)
    ensures Step(ed, WinterLateDays, WinterSince, WinterTrace[1]) == Next(WinterTrace[2])
  {
    var c, s, m := WinterLateDays, WinterSince, WinterTrace[1];
    WinterMonths();
    assert Step(ed, c, s, m) == MonthStep(c, s, m.result, 1, false);
  }

  /** The days of February 2025 cannot answer the late-days mask, so the months search on. */
  lemma WinterFebruaryTooShort(ed: Edition)
    ensures Step(ed, WinterLateDays, WinterSince, WinterTrace[2]) == Next(WinterTrace[3])
  {
    var c, s, m := WinterLateDays, WinterSince, WinterTrace[2];
    FebruaryTooShort(ed, c, s, m.result);
    assert Step(ed, c, s, m) == DayStep(ed, c, s, m.result, 27, false);
  }

  /** No winter month is left after February, so the search carries into January of 2026. */
  lemma WinterYearEndSteps(ed: Edition, i: int)
    requires 3 <= i < 6
    ensures Step(ed, WinterLateDays, WinterSince, WinterTrace[i]) == Next(WinterTrace[i + 1])
  {
    var c, s, t := WinterLateDays, WinterSince, WinterTrace;
    WinterMonths();
    if i == 3 {
      assert Step(ed, c, s, t[3]) == MonthStep(c, s, t[3].result, 2, true);
    } else if i == 4 {
      assert Step(ed, c, s, t[4]) == Next(t[5]);
    } else {
      assert Step(ed, c, s, t[5]) == MonthStep(c, s, t[5].result, 0, true);
    }
  }

  lemma WinterTimeSteps(ed: Edition, i: int)
    requires 6 <= i < 9
    ensures Step(ed, WinterLateDays, WinterSince, WinterTrace[i]) == Next(WinterTrace[i + 1])
  {
    var c, s, t := WinterLateDays, WinterSince, WinterTrace;
    if i == 6 {
      TwentyNinthOfLongMonth(ed, c, s, t[6].result);
    } else if i == 7 {
      SixFromScratch(ed, c, s, t[7].result);
      assert Step(ed, c, s, t[7]) == HourStep(ed, c, s, t[7].result, 0, true);
    } else {
      EndOfFebruaryToNextJanuary29();
      FinishesAfter(ed, c, s, t[8].result, 335);
      assert Step(ed, c, s, t[8]) == MinuteStep(ed, c, s, t[8].result, 0, true);
    }
  }

  lemma EndOfFebruaryToNextJanuary29()
    ensures DiffDate(Date(2025, 2, 28), Date(2026, 1, 29)) == 335
  {
  }

  /**
   From 2025-02-28 23:20 the January-February late-days schedule finds no
   day left in February and no month after it, and answers 2026-01-29
   06:30, 481390 minutes later.
   */
  lemma WinterLateDaysNextYear(ed: Edition)
    ensures Resolve(ed, WinterLateDays, WinterSince, 10) == Resolved(Some(Result(2026, 1, 29, 6, 30, 481390)))
  {
    var c, s, t := WinterLateDays, WinterSince, WinterTrace;
    forall i | 0 <= i < |t| - 1
      ensures Step(ed, c, s, t[i]) == Next(t[i + 1])
    {
      if i < 6 {
        WinterDateSteps(ed, i);
      } else {
        WinterTimeSteps(ed, i);
      }
    }
    assert Step(ed, c, s, t[9]) == Report(Some(Result(2026, 1, 29, 6, 30, 481390)));
    Follows(ed, c, s, t, Some(Result(2026, 1, 29, 6, 30, 481390)));
    assert CheckValid(ed, c);
  }

  // ---------------------------------------------------------------------
  // Monday, Wednesday and Friday, or days 29 to 31, at the four hours,
  // from Friday 2025-02-28 10:00.
  // ---------------------------------------------------------------------

  /** Weekdays Monday, Wednesday and Friday together with days 29, 30 and 31. */
  const WeekdaysOrLateDays: Cron := Cron(AnyYear, AnyValue, LateDays, 0x15, FourHours, 30, None)

  const FridaySince: DateTime := At(2025, 2, 28, 10, 0)

  /** As written: February is too short for the late days, so the search leaves the Friday for March. */
  const FridaySkipTrace: seq<Machine> := [
    Initial(FridaySince),
    Machine(Msg(MonthField, 1, false), Result(2025, 0, 0, 0, 0, 0)),
    Machine(Msg(DayField, 27, false), Result(2025, 2, 0, 0, 0, 0)),
    Machine(Msg(MonthField, 2, true), Result(2025, 2, 0, 0, 0, 0)),
    Machine(Msg(DayField, 0, true), Result(2025, 3, 0, 0, 0, 0)),
    Machine(Msg(HourField, 0, true), Result(2025, 3, 3, 0, 0, 0)),
    Machine(Msg(MinuteField, 0, true), Result(2025, 3, 3, 6, 0, 0)),
    Machine(Msg(Finished, 0, false), Result(2025, 3, 3, 6, 30, 4110))]

  /** As corrected: the Friday itself is taken, and its next hour. */
  const FridayKeptTrace: seq<Machine> := [
    Initial(FridaySince),
    Machine(Msg(MonthField, 1, false), Result(2025, 0, 0, 0, 0, 0)),
    Machine(Msg(DayField, 27, false), Result(2025, 2, 0, 0, 0, 0)),
    Machine(Msg(HourField, 10, false), Result(2025, 2, 28, 0, 0, 0)),
    Machine(Msg(MinuteField, 0, true), Result(2025, 2, 28, 12, 0, 0)),
    Machine(Msg(Finished, 0, false), Result(2025, 2, 28, 12, 30, 150))]

  /** 2025-02-28 is a Friday, and the weekday search from Friday answers Friday itself. */
  lemma FridaySelected()
    ensures WdaySelector(WeekdaysOrLateDays, Date(2025, 2, 28)) == Distance(0)
  {
    TwentyEighthOfFebruaryIsFriday();
    FridayFromFriday();
  }

  lemma TwentyEighthOfFebruaryIsFriday()
    ensures DayOfWeek(Date(2025, 2, 28)) == 4
  {
  }

  lemma FridayFromFriday()
    ensures GetNext(0x15, 4, 7, true) == Some((4, 0))
  {
    Pow2Listed(4);
    assert IsBitSet(0x15, 4);
    FirstWrapMatch(0x15, 4, 7, 0);
  }

  /** 2025-03-01 is a Saturday, and the weekday search from Saturday wraps to Monday, two days on. */
  lemma MondayAfterSaturday()
    ensures WdaySelector(WeekdaysOrLateDays, Date(2025, 3, 1)) == Distance(2)
  {
    FirstOfMarchIsSaturday();
    MondayFromSaturday();
  }

  lemma FirstOfMarchIsSaturday()
    ensures DayOfWeek(Date(2025, 3, 1)) == 5
  {
  }

  lemma MondayFromSaturday()
    ensures GetNext(0x15, 5, 7, true) == Some((0, 2))
  {
    Pow2Listed(0);
    Pow2Listed(5);
    Pow2Listed(6);
    assert IsBitSet(0x15, 0) && !IsBitSet(0x15, 5) && !IsBitSet(0x15, 6);
    FirstWrapMatch(0x15, 5, 7, 2);
  }

  /** From hour 10 the next of the four hours is 12, two hours on. */
  lemma TwelveAfterTen()
    ensures GetNext(FourHours, 10, 24, true) == Some((12, 2))
  {
    Pow2Listed(10);
    Pow2Listed(11);
    Pow2Listed(12);
    assert IsBitSet(FourHours, 12) && !IsBitSet(FourHours, 10) && !IsBitSet(FourHours, 11);
    FirstWrapMatch(FourHours, 10, 24, 2);
  }

  /** On the Friday the weekday selector answers 0 days, but the month-day selector answers "too short". */
  lemma FridaySelectors(r: Result)
    requires r.year == 2025 && r.month == 2
    ensures WdaySelector(WeekdaysOrLateDays, Date(2025, 2, 28)) == Distance(0)
    ensures CustomSelector(WeekdaysOrLateDays, Date(2025, 2, 28)) == Unset
    ensures MdaySelector(WeekdaysOrLateDays, r, 27) == TooShort
  {
    FridaySelected();
    FebruaryMday(WeekdaysOrLateDays, r);
  }

  /** As written, the short month wins: the search moves on to March from its start. */
  lemma FridaySkipped(r: Result)
    requires r.year == 2025 && r.month == 2
    ensures DayStep(AsWritten, WeekdaysOrLateDays, FridaySince, r, 27, false) == Send(MonthField, 2, true, r)
  {
    var day := Date(2025, 2, 28);
    assert ValidDate(day);
    FridaySelectors(r);
    assert PlusOneMonth(day) == Date(2025, 3, 28);
  }

  /** As corrected, the weekday distance of 0 keeps the reference day and its hour search. */
  lemma FridayKept(r: Result)
    requires r.year == 2025 && r.month == 2
    ensures DayStep(Corrected, WeekdaysOrLateDays, FridaySince, r, 27, false) == Send(HourField, 10, false, r.(day := 28))
  {
    var day := Date(2025, 2, 28);
    assert ValidDate(day);
    FridaySelectors(r);
    assert PlusDays(day, 0) == day;
  }

  /** From Saturday 2025-03-01 the weekday selector's Monday is nearer than the 29th. */
  lemma MondayTheThird(ed: Edition, r: Result)
    requires r.year == 2025 && r.month == 3
    ensures DayStep(ed, WeekdaysOrLateDays, FridaySince, r, 0, true) == Send(HourField, 0, true, r.(day := 3))
  {
    FirstOfMarchSelectors(r);
    DayStepMoves(ed, WeekdaysOrLateDays, FridaySince, r, 0, true, Distance(2), Unset, Distance(28), 2);
    MoveToTheThird(r);
  }

  /** On 2025-03-01 the weekday selector answers 2 days and the month-day selector 28. */
  lemma FirstOfMarchSelectors(r: Result)
    requires r.year == 2025 && r.month == 3
    ensures ValidDate(Date(r.year, r.month, 1))
    ensures WdaySelector(WeekdaysOrLateDays, Date(r.year, r.month, 1)) == Distance(2)
    ensures CustomSelector(WeekdaysOrLateDays, Date(r.year, r.month, 1)) == Unset
    ensures MdaySelector(WeekdaysOrLateDays, r, 0) == Distance(28)
  {
    MondayAfterSaturday();
    TwentyNinthSelected(WeekdaysOrLateDays, r);
  }

  /** Two days on from 2025-03-01 is the 3rd of the same month. */
  lemma MoveToTheThird(r: Result)
    requires r.year == 2025 && r.month == 3
    ensures MoveBy(FridaySince, r, Date(r.year, r.month, 1), 2, true) == Send(HourField, 0, true, r.(day := 3))
  {
    assert PlusDays(Date(2025, 3, 1), 2) == Date(2025, 3, 3);
  }

  lemma FridaySkipSteps(i: int)
    requires 0 <= i < |FridaySkipTrace| - 1
    ensures Step(AsWritten, WeekdaysOrLateDays, FridaySince, FridaySkipTrace[i]) == Next(FridaySkipTrace[i + 1])
  {
    if i < 4 {
      FridaySkipDateSteps(i);
    } else {
      FridaySkipTimeSteps(i);
    }
  }

  lemma FridaySkipDateSteps(i: int)
    requires 0 <= i < 4
    ensures Step(AsWritten, WeekdaysOrLateDays, FridaySince, FridaySkipTrace[i]) == Next(FridaySkipTrace[i + 1])
  {
    var c, s, t := WeekdaysOrLateDays, FridaySince, FridaySkipTrace;
    if i == 0 {
      assert Step(AsWritten, c, s, t[0]) == Next(t[1]);
    } else if i == 1 {
      assert Step(AsWritten, c, s, t[1]) == Next(t[2]);
    } else if i == 2 {
      FridaySkipped(t[2].result);
      assert Step(AsWritten, c, s, t[2]) == DayStep(AsWritten, c, s, t[2].result, 27, false);
    } else {
      assert Step(AsWritten, c, s, t[3]) == Next(t[4]);
    }
  }

  lemma FridaySkipTimeSteps(i: int)
    requires 4 <= i < 7
    ensures Step(AsWritten, WeekdaysOrLateDays, FridaySince, FridaySkipTrace[i]) == Next(FridaySkipTrace[i + 1])
  {
    var c, s, t := WeekdaysOrLateDays, FridaySince, FridaySkipTrace;
    if i == 4 {
      MondayTheThird(AsWritten, t[4].result);
      assert Step(AsWritten, c, s, t[4]) == DayStep(AsWritten, c, s, t[4].result, 0, true);
    } else if i == 5 {
      SixFromScratch(AsWritten, c, s, t[5].result);
      assert Step(AsWritten, c, s, t[5]) == HourStep(AsWritten, c, s, t[5].result, 0, true);
    } else {
      FridayToMonday();
      FinishesAfter(AsWritten, c, s, t[6].result, 3);
      assert Step(AsWritten, c, s, t[6]) == MinuteStep(AsWritten, c, s, t[6].result, 0, true);
    }
  }

  lemma FridayToMonday()
    ensures DiffDate(Date(2025, 2, 28), Date(2025, 3, 3)) == 3
  {
  }

  lemma FridayKeptSteps(i: int)
    requires 0 <= i < |FridayKeptTrace| - 1
    ensures Step(Corrected, WeekdaysOrLateDays, FridaySince, FridayKeptTrace[i]) == Next(FridayKeptTrace[i + 1])
  {
    var c, s, t := WeekdaysOrLateDays, FridaySince, FridayKeptTrace;
    if i == 0 {
      assert Step(Corrected, c, s, t[0]) == Next(t[1]);
    } else if i == 1 {
      assert Step(Corrected, c, s, t[1]) == Next(t[2]);
    } else if i == 2 {
      FridayKept(t[2].result);
      assert Step(Corrected, c, s, t[2]) == DayStep(Corrected, c, s, t[2].result, 27, false);
    } else if i == 3 {
      TwelveAfterTen();
      assert Step(Corrected, c, s, t[3]) == HourStep(Corrected, c, s, t[3].result, 10, false);
    } else {
      assert DiffDate(Date(2025, 2, 28), Date(2025, 2, 28)) == 0;
      FinishesAfter(Corrected, c, s, t[4].result, 0);
      assert Step(Corrected, c, s, t[4]) == MinuteStep(Corrected, c, s, t[4].result, 0, true);
    }
  }

  lemma WeekdaysOrLateDaysValid(ed: Edition)
    ensures CheckValid(ed, WeekdaysOrLateDays)
  {
  }

  /**
   As written, from Friday 2025-02-28 10:00 the answer is Monday 2025-03-03
   06:30, 4110 minutes on, although 12:30 of that Friday matches every field.
   */
  lemma FridayPassedOver()
    ensures Resolve(AsWritten, WeekdaysOrLateDays, FridaySince, 8) == Resolved(Some(Result(2025, 3, 3, 6, 30, 4110)))
    ensures Matches(WeekdaysOrLateDays, Result(2025, 2, 28, 12, 30, 150))
  {
    FridaySkipRun();
    WeekdaysOrLateDaysValid(AsWritten);
    FridayNoonMatches();
  }

  lemma FridaySkipRun()
    ensures Run(AsWritten, WeekdaysOrLateDays, FridaySince, Initial(FridaySince), 8) == Resolved(Some(Result(2025, 3, 3, 6, 30, 4110)))
  {
    var c, s, t := WeekdaysOrLateDays, FridaySince, FridaySkipTrace;
    forall i | 0 <= i < |t| - 1
      ensures Step(AsWritten, c, s, t[i]) == Next(t[i + 1])
    {
      FridaySkipSteps(i);
    }
    assert Step(AsWritten, c, s, t[7]) == Report(Some(Result(2025, 3, 3, 6, 30, 4110)));
    Follows(AsWritten, c, s, t, Some(Result(2025, 3, 3, 6, 30, 4110)));
  }

  /** 12:30 of Friday 2025-02-28 is a Friday at one of the four hours, at minute 30. */
  lemma FridayNoonMatches()
    ensures Matches(WeekdaysOrLateDays, Result(2025, 2, 28, 12, 30, 150))
  {
    FridayAdmitted();
    NoonAdmitted();
  }

  lemma FridayAdmitted()
    ensures WdayAdmits(WeekdaysOrLateDays, Date(2025, 2, 28))
  {
    TwentyEighthOfFebruaryIsFriday();
    Pow2Listed(4);
    assert IsBitSet(0x15, 4);
  }

  lemma NoonAdmitted()
    ensures HourMatches(WeekdaysOrLateDays, 12)
  {
    Pow2Listed(12);
    assert IsBitSet(FourHours, 12);
  }

  /** As corrected, the same query answers 12:30 of the Friday, 150 minutes on. */
  lemma FridayTaken()
    ensures Resolve(Corrected, WeekdaysOrLateDays, FridaySince, 6) == Resolved(Some(Result(2025, 2, 28, 12, 30, 150)))
  {
    var c, s, t := WeekdaysOrLateDays, FridaySince, FridayKeptTrace;
    forall i | 0 <= i < |t| - 1
      ensures Step(Corrected, c, s, t[i]) == Next(t[i + 1])
    {
      FridayKeptSteps(i);
    }
    assert Step(Corrected, c, s, t[5]) == Report(Some(Result(2025, 2, 28, 12, 30, 150)));
    Follows(Corrected, c, s, t, Some(Result(2025, 2, 28, 12, 30, 150)));
    WeekdaysOrLateDaysValid(Corrected);
  }
}

=== FILE: vectors.dfy ===
/**
 Concrete resolutions, each followed message by message: the expectations of
 the repository's own tests, and the inputs that show where the source
 departs from its evident intent.
 */
module Vectors {
  import opened Wrappers
  import opened KotlinInt
  import opened Dates
  import opened CronHelper
  import opened JavaTime
  import opened CronModel
  import opened MaskProofs
  import opened Matcher
  import opened Engine

  function At(year: int, month: int, day: int, hour: int, minute: int): DateTime
  {
    DateTime(Date(year, month, day), hour, minute)
  }

  /** Hours 6, 12, 18 and 23. */
  const FourHours: int := 0x84_1040

  /** Every day at 6:30, 12:30, 18:30 and 23:30. */
  const Daily: Cron := Cron(AnyYear, AnyValue, AnyValue, 0, FourHours, 30, None)

  /**
   A run that follows `trace` message by message, and whose last message is
   reported, resolves to the reported result with exactly one unit of fuel
   per message.
   */
  lemma {:induction false} Follows(ed: Edition, c: Cron, since: DateTime, trace: seq<Machine>, found: Option<Result>)
    requires |trace| >= 1
    requires forall i :: 0 <= i < |trace| - 1 ==> Step(ed, c, since, trace[i]) == Next(trace[i + 1])
    requires Step(ed, c, since, trace[|trace| - 1]) == Report(found)
    ensures Run(ed, c, since, trace[0], |trace|) == Resolved(found)
    decreases |trace|
  {
    if |trace| > 1 {
      var rest := trace[1..];
      forall i | 0 <= i < |rest| - 1
        ensures Step(ed, c, since, rest[i]) == Next(rest[i + 1])
      {
        assert rest[i] == trace[i + 1] && rest[i + 1] == trace[i + 2];
      }
      Follows(ed, c, since, rest, found);
    }
  }

  lemma FourHoursFrom20()
    ensures GetNext(0x84_1040, 20, 24, true) == Some((23, 3))
  {
    Pow2Listed(20);
    Pow2Listed(21);
    Pow2Listed(22);
    Pow2Listed(23);
    assert IsBitSet(0x84_1040, 23);
    assert !IsBitSet(0x84_1040, 20) && !IsBitSet(0x84_1040, 21) && !IsBitSet(0x84_1040, 22);
    FirstWrapMatch(0x84_1040, 20, 24, 3);
  }

  /** 2025-01-05 20:20: the next slot is 23:30 the same day, 190 minutes later. */
  const SameDaySince: DateTime := At(2025, 1, 5, 20, 20)
  const SameDayTrace: seq<Machine> := [
    Initial(SameDaySince),
    Machine(Msg(MonthField, 0, false), Result(2025, 0, 0, 0, 0, 0)),
    Machine(Msg(DayField, 4, false), Result(2025, 1, 0, 0, 0, 0)),
    Machine(Msg(HourField, 20, false), Result(2025, 1, 5, 0, 0, 0)),
    Machine(Msg(MinuteField, 0, true), Result(2025, 1, 5, 23, 0, 0)),
    Machine(Msg(Finished, 0, false), Result(2025, 1, 5, 23, 30, 190))]

  lemma SameDaySteps(ed: Edition, i: int)
    requires 0 <= i < |SameDayTrace| - 1
    ensures Step(ed, Daily, SameDaySince, SameDayTrace[i]) == Next(SameDayTrace[i + 1])
  {
    if i < 2 {
      SameDayDateSteps(ed, i);
    } else {
      SameDayTimeSteps(ed, i);
    }
  }

  /** The year and the month stay on the reference. */
  lemma SameDayDateSteps(ed: Edition, i: int)
    requires 0 <= i < 2
    ensures Step(ed, Daily, SameDaySince, SameDayTrace[i]) == Next(SameDayTrace[i + 1])
  {
    var t := SameDayTrace;
    if i == 0 {
      assert Step(ed, Daily, SameDaySince, t[0]) == Next(t[1]);
    } else {
      assert Step(ed, Daily, SameDaySince, t[1]) == Next(t[2]);
    }
  }

  /** The day stays, the hour moves on to 23, and minute 30 is taken. */
  lemma SameDayTimeSteps(ed: Edition, i: int)
    requires 2 <= i < 5
    ensures Step(ed, Daily, SameDaySince, SameDayTrace[i]) == Next(SameDayTrace[i + 1])
  {
    var t := SameDayTrace;
    if i == 2 {
      assert Step(ed, Daily, SameDaySince, t[2]) == Next(t[3]);
    } else if i == 3 {
      FourHoursFrom20();
      assert Step(ed, Daily, SameDaySince, t[3]) == Next(t[4]);
    } else {
      SameDayMinuteStep(ed);
    }
  }

  lemma SameDayMinuteStep(ed: Edition)
    ensures Step(ed, Daily, SameDaySince, SameDayTrace[4]) == Next(SameDayTrace[5])
  {
    var r := SameDayTrace[4].result;
    assert Step(ed, Daily, SameDaySince, SameDayTrace[4]) == MinuteStep(ed, Daily, SameDaySince, r, 0, true);
  }

  /** From 2025-01-05 20:20 the daily schedule answers 23:30 the same day, 190 minutes later. */
  lemma DailySameDay(ed: Edition)
    ensures Resolve(ed, Daily, SameDaySince, 6) == Resolved(Some(Result(2025, 1, 5, 23, 30, 190)))
  {
    var t := SameDayTrace;
    forall i | 0 <= i < |t| - 1
      ensures Step(ed, Daily, SameDaySince, t[i]) == Next(t[i + 1])
    {
      SameDaySteps(ed, i);
    }
    assert Step(ed, Daily, SameDaySince, t[5]) == Report(Some(Result(2025, 1, 5, 23, 30, 190)));
    Follows(ed, Daily, SameDaySince, t, Some(Result(2025, 1, 5, 23, 30, 190)));
    assert CheckValid(ed, Daily);
  }

  /** 2025-01-05 23:40: minute 30 of hour 23 has passed, so the search carries to the next day. */
  const NextDaySince: DateTime := At(2025, 1, 5, 23, 40)
  const NextDayTrace: seq<Machine> := [
    Initial(NextDaySince),
    Machine(Msg(MonthField, 0, false), Result(2025, 0, 0, 0, 0, 0)),
    Machine(Msg(DayField, 4, false), Result(2025, 1, 0, 0, 0, 0)),
    Machine(Msg(HourField, 23, false), Result(2025, 1, 5, 0, 0, 0)),
    Machine(Msg(MinuteField, 40, false), Result(2025, 1, 5, 23, 0, 0)),
    Machine(Msg(DayField, 5, true), Result(2025, 1, 5, 23, 0, 0)),
    Machine(Msg(HourField, 0, true), Result(2025, 1, 6, 23, 0, 0)),
    Machine(Msg(MinuteField, 0, true), Result(2025, 1, 6, 6, 0, 0)),
    Machine(Msg(Finished, 0, false), Result(2025, 1, 6, 6, 30, 410))]

  lemma FourHoursFrom23()
    ensures GetNext(0x84_1040, 23, 24, true) == Some((23, 0))
  {
    Pow2Listed(23);
    FirstWrapMatch(0x84_1040, 23, 24, 0);
  }

  lemma FourHoursFromMidnight()
    ensures GetNext(0x84_1040, 0, 24, false) == Some((6, 6))
  {
    forall j | 0 <= j < 6
      ensures !IsBitSet(0x84_1040, j)
    {
      Pow2Listed(j);
      assert j in {0, 1, 2, 3, 4, 5};
    }
    Pow2Listed(6);
    assert IsBitSet(0x84_1040, 6);
  }

  lemma NextDaySteps(ed: Edition, i: int)
    requires 0 <= i < |NextDayTrace| - 1
    ensures Step(ed, Daily, NextDaySince, NextDayTrace[i]) == Next(NextDayTrace[i + 1])
  {
    if i < 4 {
      NextDayReferenceSteps(ed, i);
    } else {
      NextDayCarrySteps(ed, i);
    }
  }

  /** Year, month, day and hour stay on the reference. */
  lemma NextDayReferenceSteps(ed: Edition, i: int)
    requires 0 <= i < 4
    ensures Step(ed, Daily, NextDaySince, NextDayTrace[i]) == Next(NextDayTrace[i + 1])
  {
    var t := NextDayTrace;
    if i == 0 {
      assert Step(ed, Daily, NextDaySince, t[0]) == Next(t[1]);
    } else if i == 1 {
      assert Step(ed, Daily, NextDaySince, t[1]) == Next(t[2]);
    } else if i == 2 {
      assert Step(ed, Daily, NextDaySince, t[2]) == Next(t[3]);
    } else {
      FourHoursFrom23();
      assert Step(ed, Daily, NextDaySince, t[3]) == Next(t[4]);
    }
  }

  /** The minute carries to the next day, which is pinned from scratch. */
  lemma NextDayCarrySteps(ed: Edition, i: int)
    requires 4 <= i < 8
    ensures Step(ed, Daily, NextDaySince, NextDayTrace[i]) == Next(NextDayTrace[i + 1])
  {
    var t := NextDayTrace;
    if i == 4 {
      assert Step(ed, Daily, NextDaySince, t[4]) == Next(t[5]);
    } else if i == 5 {
      assert Step(ed, Daily, NextDaySince, t[5]) == Next(t[6]);
    } else {
      NextDayTimeSteps(ed, i);
    }
  }

  /** On the new day the hour search from midnight finds 6, and minute 30 is taken. */
  lemma NextDayTimeSteps(ed: Edition, i: int)
    requires 6 <= i < 8
    ensures Step(ed, Daily, NextDaySince, NextDayTrace[i]) == Next(NextDayTrace[i + 1])
  {
    var t := NextDayTrace;
    if i == 6 {
      NextDayHourStep(ed);
    } else {
      NextDayMinuteStep(ed);
    }
  }

  lemma NextDayMinuteStep(ed: Edition)
    ensures Step(ed, Daily, NextDaySince, NextDayTrace[7]) == Next(NextDayTrace[8])
  {
    var r := NextDayTrace[7].result;
    assert Step(ed, Daily, NextDaySince, NextDayTrace[7]) == MinuteStep(ed, Daily, NextDaySince, r, 0, true);
  }

  lemma NextDayHourStep(ed: Edition)
    ensures Step(ed, Daily, NextDaySince, NextDayTrace[6]) == Next(NextDayTrace[7])
  {
    FourHoursFromMidnight();
    var r := NextDayTrace[6].result;
    assert Step(ed, Daily, NextDaySince, NextDayTrace[6]) == HourStep(ed, Daily, NextDaySince, r, 0, true);
  }

  /** From 2025-01-05 23:40 the daily schedule answers 06:30 the next day, 410 minutes later. */
  lemma DailyNextDay(ed: Edition)
    ensures Resolve(ed, Daily, NextDaySince, 9) == Resolved(Some(Result(2025, 1, 6, 6, 30, 410)))
  {
    var t := NextDayTrace;
    forall i | 0 <= i < |t| - 1
      ensures Step(ed, Daily, NextDaySince, t[i]) == Next(t[i + 1])
    {
      NextDaySteps(ed, i);
    }
    assert Step(ed, Daily, NextDaySince, t[8]) == Report(Some(Result(2025, 1, 6, 6, 30, 410)));
    Follows(ed, Daily, NextDaySince, t, Some(Result(2025, 1, 6, 6, 30, 410)));
    assert CheckValid(ed, Daily);
  }

  /** Every day at minute 30 of every hour. */
  const HalfPast: Cron := Cron(AnyYear, AnyValue, AnyValue, 0, AnyValue, 30, None)
  const TwentyToEleven: DateTime := At(2025, 1, 5, 10, 40)

  /** The first four messages, common to both editions: year, month, day and hour all stay on the reference. */
  const HalfPastStart: seq<Machine> := [
    Initial(TwentyToEleven),
    Machine(Msg(MonthField, 0, false), Result(2025, 0, 0, 0, 0, 0)),
    Machine(Msg(DayField, 4, false), Result(2025, 1, 0, 0, 0, 0)),
    Machine(Msg(HourField, 10, false), Result(2025, 1, 5, 0, 0, 0)),
    Machine(Msg(MinuteField, 40, false), Result(2025, 1, 5, 10, 0, 0))]

  /** As written, minute 30 < 40 carries to the next hour, which re-resolves the day from scratch. */
  const GoesBackTail: seq<Machine> := [
    Machine(Msg(DayField, 4, true), Result(2025, 1, 5, 10, 0, 0)),
    Machine(Msg(HourField, 0, true), Result(2025, 1, 5, 10, 0, 0)),
    Machine(Msg(MinuteField, 0, true), Result(2025, 1, 5, 0, 0, 0)),
    Machine(Msg(Finished, 0, false), Result(2025, 1, 5, 0, 30, -610))]

  /** As corrected, the carry re-resolves the hour from 11. */
  const CorrectedTail: seq<Machine> := [
    Machine(Msg(HourField, 11, true), Result(2025, 1, 5, 10, 0, 0)),
    Machine(Msg(MinuteField, 0, true), Result(2025, 1, 5, 11, 0, 0)),
    Machine(Msg(Finished, 0, false), Result(2025, 1, 5, 11, 30, 50))]

  lemma HalfPastStartSteps(ed: Edition, i: int)
    requires 0 <= i < |HalfPastStart| - 1
    ensures Step(ed, HalfPast, TwentyToEleven, HalfPastStart[i]) == Next(HalfPastStart[i + 1])
  {
    var t := HalfPastStart;
    if i == 0 {
      assert Step(ed, HalfPast, TwentyToEleven, t[0]) == Next(t[1]);
    } else if i == 1 {
      assert Step(ed, HalfPast, TwentyToEleven, t[1]) == Next(t[2]);
    } else if i == 2 {
      assert Step(ed, HalfPast, TwentyToEleven, t[2]) == Next(t[3]);
    } else {
      assert Step(ed, HalfPast, TwentyToEleven, t[3]) == Next(t[4]);
    }
  }

  lemma GoesBackSteps(i: int)
    requires 0 <= i < |GoesBackTail|
    ensures var t := [HalfPastStart[4]] + GoesBackTail;
      Step(AsWritten, HalfPast, TwentyToEleven, t[i]) == Next(t[i + 1])
  {
    var t := [HalfPastStart[4]] + GoesBackTail;
    if i == 0 {
      assert Step(AsWritten, HalfPast, TwentyToEleven, t[0]) == Next(t[1]);
    } else if i == 1 {
      assert Step(AsWritten, HalfPast, TwentyToEleven, t[1]) == Next(t[2]);
    } else if i == 2 {
      assert Step(AsWritten, HalfPast, TwentyToEleven, t[2]) == Next(t[3]);
    } else {
      assert Step(AsWritten, HalfPast, TwentyToEleven, t[3]) == Next(t[4]);
    }
  }

  lemma CorrectedSteps(i: int)
    requires 0 <= i < |CorrectedTail|
    ensures var t := [HalfPastStart[4]] + CorrectedTail;
      Step(Corrected, HalfPast, TwentyToEleven, t[i]) == Next(t[i + 1])
  {
    var t := [HalfPastStart[4]] + CorrectedTail;
    if i == 0 {
      assert Step(Corrected, HalfPast, TwentyToEleven, t[0]) == Next(t[1]);
    } else if i == 1 {
      assert Step(Corrected, HalfPast, TwentyToEleven, t[1]) == Next(t[2]);
    } else {
      assert Step(Corrected, HalfPast, TwentyToEleven, t[2]) == Next(t[3]);
    }
  }

  /**
   As written, from 10:40 the minute carry to 11:00 re-resolves the day from
   scratch, the hour restarts at 0, and the answer is 00:30 of the same day,
   610 minutes before the reference.
   */
  lemma HalfPastGoesBack()
    ensures Resolve(AsWritten, HalfPast, TwentyToEleven, 9) == Resolved(Some(Result(2025, 1, 5, 0, 30, -610)))
  {
    var t := HalfPastStart + GoesBackTail;
    forall i | 0 <= i < |t| - 1
      ensures Step(AsWritten, HalfPast, TwentyToEleven, t[i]) == Next(t[i + 1])
    {
      if i < 4 {
        HalfPastStartSteps(AsWritten, i);
      } else {
        GoesBackSteps(i - 4);
        assert t[i] == ([HalfPastStart[4]] + GoesBackTail)[i - 4];
        assert t[i + 1] == ([HalfPastStart[4]] + GoesBackTail)[i - 3];
      }
    }
    assert Step(AsWritten, HalfPast, TwentyToEleven, t[8]) == Report(Some(Result(2025, 1, 5, 0, 30, -610)));
    Follows(AsWritten, HalfPast, TwentyToEleven, t, Some(Result(2025, 1, 5, 0, 30, -610)));
    assert CheckValid(AsWritten, HalfPast);
  }

  /** As corrected, the same reference resolves to 11:30, 50 minutes later. */
  lemma HalfPastCorrected()
    ensures Resolve(Corrected, HalfPast, TwentyToEleven, 8) == Resolved(Some(Result(2025, 1, 5, 11, 30, 50)))
  {
    var t := HalfPastStart + CorrectedTail;
    forall i | 0 <= i < |t| - 1
      ensures Step(Corrected, HalfPast, TwentyToEleven, t[i]) == Next(t[i + 1])
    {
      if i < 4 {
        HalfPastStartSteps(Corrected, i);
      } else {
        CorrectedSteps(i - 4);
        assert t[i] == ([HalfPastStart[4]] + CorrectedTail)[i - 4];
        assert t[i + 1] == ([HalfPastStart[4]] + CorrectedTail)[i - 3];
      }
    }
    assert Step(Corrected, HalfPast, TwentyToEleven, t[7]) == Report(Some(Result(2025, 1, 5, 11, 30, 50)));
    Follows(Corrected, HalfPast, TwentyToEleven, t, Some(Result(2025, 1, 5, 11, 30, 50)));
    assert CheckValid(Corrected, HalfPast);
  }

  /** Bit 12 alone: a month mask that names no month. */
  const MonthTwelve: Cron := Cron(AnyYear, 0x1000, AnyValue, 0, AnyValue, AnyValue, None)

  lemma NoMonthBit()
    ensures forall b :: 0 <= b < 12 ==> !IsBitSet(0x1000, b)
  {
    Pow2Listed(12);
    forall b | 0 <= b < 12
      ensures !IsBitSet(0x1000, b)
    {
      SingleBitOnly(12, b);
    }
  }

  /** Bit 7 alone: a weekday mask that names no weekday. */
  const WdaySeven: Cron := Cron(AnyYear, AnyValue, 0, 0x80, AnyValue, AnyValue, None)

  lemma NoWdayBit()
    ensures forall b :: 0 <= b < 7 ==> !IsBitSet(0x80, b)
  {
    Pow2Listed(7);
    forall b | 0 <= b < 7
      ensures !IsBitSet(0x80, b)
    {
      SingleBitOnly(7, b);
    }
  }

  /**
   The month bound `2 shl 12` lets a mask with only bit 12 through, and the
   engine then finds no month and reports null; the bound `1 shl 12` rejects it.
   */
  lemma MonthTwelveSlipsThrough()
    ensures Resolve(AsWritten, MonthTwelve, SameDaySince, 3) == Resolved(None)
    ensures Resolve(Corrected, MonthTwelve, SameDaySince, 3) == Invalid
  {
    var c, s := MonthTwelve, SameDaySince;
    assert CheckValid(AsWritten, c);
    assert !FieldsInRange(Corrected, c);
    var m0 := Initial(s);
    var m1 := Machine(Msg(MonthField, 0, false), Result(2025, 0, 0, 0, 0, 0));
    var m2 := Machine(Msg(Finished, 0, false), Cleared);
    assert Step(AsWritten, c, s, m0) == Next(m1);
    NoMonthBit();
    WrapVisitsEveryIndex(0x1000, 0, 12);
    assert Step(AsWritten, c, s, m1) == Next(m2);
    assert Step(AsWritten, c, s, m2) == Report(None);
    Follows(AsWritten, c, s, [m0, m1, m2], None);
  }

  lemma NoWeekdayOnTheFifth()
    ensures WdaySelector(WdaySeven, Date(2025, 1, 5)) == NoMatch
  {
    NoWdayBit();
    WrapVisitsEveryIndex(0x80, DayOfWeek(Date(2025, 1, 5)), 7);
  }

  /** The day search of 2025-01-05 under the weekday mask with only bit 7 fails. */
  lemma WdaySevenDay()
    ensures Step(AsWritten, WdaySeven, SameDaySince, Machine(Msg(DayField, 4, false), Result(2025, 1, 0, 0, 0, 0)))
      == Next(Machine(Msg(Finished, 0, false), Cleared))
  {
    var day := Date(2025, 1, 5);
    assert ValidDate(day);
    NoWeekdayOnTheFifth();
  }

  const WdaySevenTrace: seq<Machine> := [
    Initial(SameDaySince),
    Machine(Msg(MonthField, 0, false), Result(2025, 0, 0, 0, 0, 0)),
    Machine(Msg(DayField, 4, false), Result(2025, 1, 0, 0, 0, 0)),
    Machine(Msg(Finished, 0, false), Cleared)]

  lemma WdaySevenSteps(i: int)
    requires 0 <= i < |WdaySevenTrace| - 1
    ensures Step(AsWritten, WdaySeven, SameDaySince, WdaySevenTrace[i]) == Next(WdaySevenTrace[i + 1])
  {
    var t := WdaySevenTrace;
    if i == 0 {
      assert Step(AsWritten, WdaySeven, SameDaySince, t[0]) == Next(t[1]);
    } else if i == 1 {
      assert Step(AsWritten, WdaySeven, SameDaySince, t[1]) == Next(t[2]);
    } else {
      WdaySevenDay();
    }
  }

  /**
   The weekday bound `2 shl 7` lets a mask with only bit 7 through, and the
   day search then finds no weekday and reports null; the bound `1 shl 7` rejects it.
   */
  lemma WdaySevenSlipsThrough()
    ensures Resolve(AsWritten, WdaySeven, SameDaySince, 4) == Resolved(None)
    ensures Resolve(Corrected, WdaySeven, SameDaySince, 4) == Invalid
  {
    var c, s, t := WdaySeven, SameDaySince, WdaySevenTrace;
    assert CheckValid(AsWritten, c);
    assert !FieldsInRange(Corrected, c);
    forall i | 0 <= i < |t| - 1
      ensures Step(AsWritten, c, s, t[i]) == Next(t[i + 1])
    {
      WdaySevenSteps(i);
    }
    assert Step(AsWritten, c, s, t[3]) == Report(None);
    Follows(AsWritten, c, s, t, None);
  }

  /** A period of 8 days from 2025-02-07 whose first two days are admitted. */
  const FirstTwoOfEight: CustomPeriod := CustomPeriod(3, 8, 2025, 2, 7)

  /** In 2025 only, on the custom period's admitted days, at 6:30 and 16:30. */
  const Only2025: Cron := Cron(2025, AnyValue, 0, 0, 0x1_0040, 30, Some(FirstTwoOfEight))

  /** After the explicit year has passed there is no next instant: the answer is null. */
  lemma YearPassed(ed: Edition)
    ensures Resolve(ed, Only2025, At(2026, 1, 2, 6, 20), 2) == Resolved(None)
  {
    var s := At(2026, 1, 2, 6, 20);
    var t := [Initial(s), Machine(Msg(Finished, 0, false), Cleared)];
    assert ShlOne(8) == 0x100 by {
      Pow2Listed(8);
    }
    assert CheckValid(ed, Only2025);
    assert Step(ed, Only2025, s, t[0]) == Next(t[1]);
    assert Step(ed, Only2025, s, t[1]) == Report(None);
    Follows(ed, Only2025, s, t, None);
  }

  /** The day differences the repository's date tests expect, into the next months of 2025. */
  lemma DiffDateExamples()
    ensures DiffDate(Date(2025, 1, 31), Date(2025, 2, 1)) == 1
    ensures DiffDate(Date(2025, 1, 31), Date(2025, 2, 28)) == 28
  {
  }

  lemma DiffDateBackwardsExample()
    ensures DiffDate(Date(2025, 1, 31), Date(2025, 1, 1)) == -30
  {
  }

  lemma DiffDateAcrossFebruaryExample()
    ensures DiffDate(Date(2025, 1, 31), Date(2025, 3, 31)) == 59
  {
  }

  lemma DiffDateAcrossYearExample()
    ensures DiffDate(Date(2025, 1, 31), Date(2026, 2, 1)) == 366
  {
  }

  /** The difference whose remainders the date tests then take. */
  lemma DiffDateBackwardsInMarchExample()
    ensures DiffDate(Date(2025, 3, 31), Date(2025, 3, 1)) == -30
  {
  }

  /** Kotlin's remainder of a negative day difference keeps its sign. */
  lemma NegativeRemainders()
    ensures Rem(-30, 5) == 0 && Rem(-30, 7) == -2 && Rem(-30, 8) == -6 && Rem(-30, 9) == -3
  {
  }

  /**
   A day back at the same time: `diffDateTime` answers +1440 because it
   drops the sign of the day difference, where the signed difference is -1440.
   */
  lemma DiffDateTimeLosesSign()
    ensures DiffDateTime(At(2025, 1, 5, 10, 0), At(2025, 1, 4, 10, 0)) == 1440
    ensures DiffDateTimeSigned(At(2025, 1, 5, 10, 0), At(2025, 1, 4, 10, 0)) == -1440
  {
  }
}

=== FILE: wrappers.dfy ===
/** The optional value the engine hands back where the Kotlin source uses a nullable type. */
module Wrappers {

  datatype Option<+T> = None | Some(value: T)
}
